=== FILE: README.md ===
# Sci-fi roguelike simulation core, modelled in Dafny

This project models the simulation engine of a browser roguelike (`main.js`).
The player explores three procedurally generated floors of an abandoned
space facility on an 80 x 24 tile grid. Drones, aliens, sentries and a boss
act once per turn. Equipment wears out, and the blaster can overheat, jam
and misfire. The model covers the parts of the engine that decide what
happens. Presentation, input and storage are left out.

The files and their modules:

- `rng.dfy` (`Random`): the seeded Lehmer generator `RNG` (MINSTD,
  multiplier 48271, modulus 2^31 - 1), as a class whose state `next()`
  updates in place.
- `grid.dfy` (`Grid`): tiles, `inBounds`, `isWalkable`, `clamp`, and small
  integer helpers.
- `sight.dfy` (`Sight`): `visible`, the all-octant Bresenham walk.
  - `Sight` specifies it as a recursive function over the walk's state.
  - `Visible` is the loop itself, proved equal to `Sight`.
  - The grid is passed explicitly. In the source, `opaque` ignores its floor
    argument and reads the current floor.
- `entities.dfy` (`Entities`): item templates, the player's stat block,
  monsters, and the pure combat rules.
  - The combat rules are `formMods`, `effectiveDef`, `weaponScale`,
    `attackValue` and the damage formulas.
  - It also holds `maybeDegrade`, `useRepairKit`, `handleUse`, pick-up,
    weapon toggling, the saber colour and form cycles, and heat and shield
    decay.
- `floor.dfy` (`Floors`): a floor (`FloorState`) with four 2D arrays
  updated in place, and `genFloor`.
  - `genFloor` covers the room loop, `rectRoom`, `tunnel`, `carve`,
    elevators, the free-tile scan, `shuffle`, and monster and item
    spawning.
  - The map after generation is specified as a sequence of carving strokes
    (`Layout`).
- `fov.dfy` (`Fov`): `recomputeFOV`.
- `game.dfy` (`World`): the game as a class holding the floors, the current
  floor index, the player and the generator.
  - It covers `moveEntity`, `enemyFire`, the monster turns of `endTurn`,
    `tryPlayerMove`, `pickUp`, `waitTurn`, `handleUse`, `toggleWeapon` and
    the saber cycles.
  - It also covers `tryFire` (gates, misfire, beam), `useElevator` and
    `resetGame`.

Every `Math.random()` draw is a parameter of type `Unit`, a real in [0, 1),
compared exactly as the source compares it. `Math.random` in `shuffle` and
`rand` is a function `draw: nat -> Unit`, where the swap at position i
reads `draw(i)`; `resetGame` gives floor i its own such function, so the
three floors' shuffles never share a draw. The seed time `Date.now()` is a parameter of the generator's
constructor; `resetGame` takes the page's one generator and reuses it on
every restart. Floating-point
formulas are exact reals.

The model follows the code where the code and the design description
differ:

- `range(a, b)` stays within [a, b] for every nonzero state.
  `nextFloat()` is `(v - 1) / 2147483646`, which is below 1 for every state
  v up to 2147483646, so `b + 1` never occurs.
- Every floor gets both an up and a down elevator.
  - Floor 0 has an up tile and the deepest floor a down tile, next to its
    exit.
  - With a single room, the down elevator overwrites the up elevator.
  - The exit can overwrite the down elevator.
- The room test `x+w<r.x || r.x+r.w<x || ...` demands a gap of at least
  one tile between rooms. This is stronger than "bounding boxes do not
  overlap".
- Connectivity is not claimed. Walls carved for a later room can cut a
  corridor dug earlier.
- The player's hp is never clamped. Bumps and beams can drive it below 0.
- Drones and aliens both carry the `hunt` behaviour and act alike.
- The first room candidate is always accepted, so the crash on an empty
  room list cannot happen.
  - The two crashes that can happen are modelled as a failure result
    (`ok == false` or `None`).
  - One is the deepest floor with a single room (`rooms[1]` is undefined).
  - The other is no free tile left for the boss.
- When the player shares a row or a column with a hunter, one of the
  hunter's preferred moves is (0, 0). Trying it "moves" the hunter onto its
  own cell, which counts as a success and ends its turn. The model keeps
  this.

## Model

| member | source | states |
|---|---|---|
| Random.NextState | main.js:25 | a generator step `s * 48271 % 2147483647` stays in [0, 2147483646] |
| Random.NextStateUndone | main.js:25 | a step is undone by multiplying with the modular inverse 1899818559, so a nonzero state never becomes 0 |
| Random.NextStateNonzero | main.js:25 | a nonzero state steps to a nonzero state |
| Random.Iter | main.js:25 | the state n steps on stays in [0, 2147483646], and a nonzero state stays nonzero |
| Random.RangeWithin | main.js:26-27 | for a nonzero state v and a <= b, `range(a, b)` lies in [a, b] |
| Random.SeedAsWritten | main.js:24 | the seed `Date.now() % 2147483647` lies in [0, 2147483646] |
| Random.ZeroSeedStuck | main.js:24-27 | a seed time that is a multiple of the modulus gives state 0, which stays 0 and makes every `range(a, b)` return a - 1 |
| Random.Seed | main.js:24 | the corrected seed is nonzero and agrees with the source's seed whenever that one is nonzero |
| Random.Rng.constructor | main.js:24 | a new generator is valid and holds the (corrected) seed |
| Random.Rng.Next | main.js:25 | `next()` advances the state by one step and returns the new state |
| Random.Rng.Range | main.js:26-27 | `range(a, b)` advances the state by one step, returns the scaled value, and stays within [a, b] |
| Grid.Sign | main.js:536-537 | `Math.sign` is in {-1, 0, 1}, zero exactly at 0, and `sign(v) * v == abs(v)` |
| Grid.Clamp | main.js:20 | `clamp` returns v inside [lo, hi], lo below it and hi above it |
| Grid.ClampedStep | main.js:309-311 | a clamped step of at most one tile from a cell on the grid lands on the grid and moves at most one tile per axis |
| Grid.DistSq | main.js:176-177 | the squared distance bounds each squared axis offset |
| Grid.FarOnAxis | main.js:174-177 | an offset of more than r on one axis puts a cell outside the circle of radius r |
| Sight.Dir | main.js:190-191 | the step direction on one axis is 1 or -1 |
| Sight.Sight | main.js:189-201 | the observer always sees its own cell |
| Sight.StartOnTrack | main.js:190-192 | the walk starts on the ideal line, with the error term `dx + dy` |
| Sight.AdvanceOnTrack | main.js:195-197 | each update advances the longer axis by exactly one and the shorter by at most one, staying within half a step of the ideal line |
| Sight.NoOvershoot | main.js:195-197 | once one axis has reached the target coordinate, the error term keeps the walk from stepping past it |
| Sight.WalkClear | main.js:192-200 | a walk on track with no wall strictly between the endpoints reaches the target |
| Sight.LengthBound | main.js:192-200 | a walk on track stops within the steps left on the longer axis |
| Sight.SightClear | main.js:189-201 | with no wall in the bounding box between the endpoints, the target is visible: it is hidden only behind a wall |
| Sight.SightAdjacent | main.js:189-201 | every cell next to the observer, diagonals included, is visible whatever it holds |
| Sight.WalkIgnoresEnds | main.js:193-194 | the walk never reads the tiles of its two endpoints |
| Sight.SightIgnoresEnds | main.js:193-194 | visibility does not depend on what the observer's or the target's cell holds |
| Sight.WalkMonotone | main.js:192-200 | a walk that arrives still arrives on a grid with fewer walls |
| Sight.SightMonotone | main.js:189-201 | removing walls never hides a visible cell |
| Sight.Visible | main.js:189-201 | the loop returns exactly `Sight`, after at most max(\|x1 - x0\|, \|y1 - y0\|) updates |
| Entities.PoolOk | main.js:51-57 | every item template in the pool is sound: weapons with positive maximum durability, durability in [0, max] |
| Entities.NewPlayer | main.js:37-48 | the starting player is sound and stands at the given position |
| Entities.SpawnedMonster | main.js:143-150 | rolls 0-5 give a drone (hp 4, atk 1), 6-7 an alien (hp 6, atk 2), 8-9 a sentry (hp 5, atk 1, range 8, cool 0), at full hp on the popped tile |
| Entities.SpawnsOk | main.js:143-155 | spawned monsters and the boss satisfy the monster invariant |
| Entities.Find | main.js:462 | `find` returns the first matching bag index, or -1 when nothing matches |
| Entities.RemoveAt | main.js:360 | `splice(k, 1)` removes exactly entry k and keeps the order of the rest |
| Entities.FormMods | main.js:266-270 | a saber form trades one attack point for one defence point; Balanced is neutral |
| Entities.EffectiveDef | main.js:271 | effective defence is base defence -1..+3, at least +1 while a shield is up |
| Entities.ShieldAddsTwo | main.js:271 | a shield raises effective defence by exactly 2 |
| Entities.Ratio | main.js:263 | the durability ratio is clamped to [0, 1]: 1 at full durability, 0 when worn out |
| Entities.WeaponScale | main.js:261-265 | the weapon scale lies in [0.5, 1]: 1 for a new weapon, 0.5 for a worn-out one |
| Entities.ScaleMonotone | main.js:261-265 | more durability never lowers the scale |
| Entities.SaberBonus | main.js:279-280 | the saber bonus is at least 1 and at most the rated bonus (`meleeAtk \|\| 3`), and at least its rounded half |
| Entities.AttackValue | main.js:275-288 | attack is base + form modifier, raised by between 1 and the rated saber bonus when a durable saber is wielded |
| Entities.MeleeDamage | main.js:335-336 | melee damage is `max(1, attackValue())`, at least 2 and even on a critical hit |
| Entities.BumpDamage | main.js:314 | `max(0, atk - def) \|\| 1` equals `max(1, atk - def)` |
| Entities.BeamDamage | main.js:519 | a beam deals at least 1, at most `max(1, dmg)` for non-negative defence, and at least `dmg - floor(def / 2)` |
| Entities.BlasterDamage | main.js:491-493 | a blaster hit deals between `max(1, rated / 2)` and the rated bonus (`rangeAtk \|\| 3`), at least 1 |
| Entities.MisfireChance | main.js:474-475 | the misfire chance is at most 0.5, and at least 0.1 for non-negative heat and durability within its maximum |
| Entities.HotBlasterMisfires | main.js:475 | at heat 90 even a new blaster misfires with chance exactly 0.5, the cap |
| Entities.DegradeChance | main.js:509 | the blaster's wear chance after a shot lies in [0.5, 0.99] |
| Entities.Degrade | main.js:290-307 | with a durable weapon of that name and a draw below the chance, its durability drops by 1; the wielded weapon becomes fists when that reaches 0; otherwise nothing changes; the player stays sound |
| Entities.RepairTarget | main.js:390-398 | the repair target is a weapon in the bag, and there is none exactly when the bag has no weapon |
| Entities.Repaired | main.js:401 | repair raises durability to `min(maxdur, dur + repair)` and changes nothing else |
| Entities.UseRepairKit | main.js:386-407 | a kit is used exactly when the bag holds a kit and a weapon; one kit is removed, the target repaired, and the jam cleared when the blaster is wielded, whatever was repaired |
| Entities.Heal | main.js:412-414 | a medkit is removed and hp rises by its amount, capped at maxhp; hp never ends above maxhp |
| Entities.RaiseShield | main.js:420-423 | a shield emitter is removed and the shield lasts its duration |
| Entities.UseItem | main.js:409-429 | the first usable item in the order medkit, repair kit, shield emitter is used, each case exactly when the earlier ones do not apply; nothing changes when none applies |
| Entities.Collect | main.js:359-372 | an energy cell adds its ammo; any other item joins the bag, sets the saber colour if it is a saber, and is wielded if the player had fists |
| Entities.IndexOf | main.js:435 | `indexOf` returns the first position of the value, or -1 |
| Entities.NextInCycle | main.js:435-436 | the next entry of a cycle is in the cycle, and an unknown value maps to the first entry |
| Entities.NextOf | main.js:435-436 | in a cycle of distinct entries the entry after the k-th is the (k+1)-th, wrapping to the first |
| Entities.MovesOn | main.js:435-436 | in a cycle of two or more distinct entries every entry moves on |
| Entities.ColorPeriod | main.js:441-447 | the saber colour cycle has period exactly 4 and never stays put |
| Entities.FormPeriod | main.js:448-454 | the saber form cycle has period exactly 3 and never stays put |
| Entities.WeaponCycle | main.js:432-434 | the weapon cycle starts with fists, has no repeats, and holds exactly fists plus an owned saber and an owned blaster |
| Entities.ToggleWeapon | main.js:431-439 | toggling picks from the cycle, always changes the weapon when there is a choice, and goes from fists to the saber first |
| Entities.Cool | main.js:592 | cooling lowers heat by 10, not below 0 |
| Entities.Heat | main.js:508 | a shot raises heat, capped at 100 |
| Entities.Tick | main.js:585-586 | the shield countdown decrements a positive count and leaves others alone |
| Entities.HeatBounded | main.js:508 | heat stays in [0, 100] across any shot and the cooling of line 592 |
| Entities.Rest | main.js:378-382 | resting ticks the shield, cools, and clears the jam when the draw is below 0.6; nothing else changes |
| Floors.TunnelJoins | main.js:96-104 | a corridor covers both of its ends and its corner |
| Floors.OuterEdgeStaysWall | main.js:75 | `carve` never writes row 0, column 0 or off the grid, so they stay wall |
| Floors.LastStrokeWins | main.js:75-104 | a stroke carved last decides every carvable cell it covers |
| Floors.LayoutSnoc | main.js:75 | carving one more stroke changes each cell exactly as that stroke paints it |
| Floors.MarksWalkable | main.js:124-132 | a cell last marked with an elevator or exit tile stays walkable whatever such marks follow |
| Floors.CenterInside | main.js:94 | a placed room's centre lies strictly inside it, on a carvable cell |
| Floors.RollRoom | main.js:114-115 | a candidate takes four successive generator draws (width 5-12, height 4-8, then the corner), is `Candidate` of the state before them, and always fits inside the outer ring |
| Floors.Overlaps | main.js:116 | the candidate is rejected exactly when some accepted room fails the separation test against it |
| Floors.SeparatedSnoc | main.js:116-118 | accepting a candidate that passes the test keeps all rooms placed and pairwise separated |
| Floors.ApartDisjoint | main.js:116 | separated rooms share no cell and do not even touch |
| Floors.ChainStep | main.js:118-122 | appending a room and the tunnel from the previous room's centre to its centre keeps the stroke list chained |
| Floors.Attempt | main.js:112-122 | one attempt of the room loop on values: it keeps the state nonzero, counts one attempt, and either keeps the rooms or appends `Candidate` of the state |
| Floors.AttemptRejected | main.js:116-117 | a candidate that fails the separation test only spends its four draws |
| Floors.AttemptAccepted | main.js:116-122 | an accepted candidate is appended with its `DoorOf` door, its room stroke and, after the first room, the tunnel whose leg order is the next coin |
| Floors.RoomLoop | main.js:112-123 | the room loop on values: the state stays nonzero and the rooms so far are a prefix of the final rooms |
| Floors.RoomLoopAfter | main.js:112-123 | the loop after one more attempt keeps the state nonzero and the rooms so far as a prefix |
| Floors.RoomLoopStep | main.js:112-123 | while rooms and attempts are left, the loop from a plan is the loop from the plan its next attempt leaves |
| Floors.PoolItem | main.js:161 | the item drawn from a nonzero state is an entry of the item pool |
| Floors.Rand | main.js:18 | `rand(n)` is an index in [0, n) |
| Floors.Shuffle | main.js:21 | the Fisher-Yates shuffle permutes the array and keeps its entries distinct |
| Floors.SwapKeeps | main.js:21 | one swap keeps the multiset and the distinctness |
| Floors.Shuffled | main.js:140 | the shuffled free-tile list has the same tiles, without repeats |
| Floors.PopsDistinct | main.js:143-160 | pops from a pool without repeats never repeat a tile, and every popped tile comes from the pool |
| Floors.SpotsPopped | main.js:141-163 | monster spots then item spots were popped from the end of the pool in order |
| Floors.SortedDistinct | main.js:134-139 | the row-major scan lists no tile twice |
| Floors.FloorState.constructor | main.js:61-73 | a new floor is all wall, with no door, explored or in-view cell, no monsters, no items and no elevators |
| Floors.FloorState.Carve | main.js:75 | `carve` writes only a cell inside the outer ring, and leaves every other cell unchanged |
| Floors.FloorState.PickDoor | main.js:87-93 | the door takes two generator draws, is `DoorOf` those states, and lies on the room's border away from its corners |
| Floors.FloorState.RectRoom | main.js:80-95 | the room's edge becomes wall and its inside floor; exactly one door lands on its border away from the corners and is marked in `doors`; the door is `DoorOf` the next two generator states; the room record has centre `floor(x + w/2), floor(y + h/2)` |
| Floors.FloorState.Tunnel | main.js:96-104 | an L-shaped floor corridor is carved from one centre to the other, horizontal leg first exactly when the next generator state's coin `range(0, 1)` is 0; nothing else changes |
| Floors.FloorState.AddRoom | main.js:117-122 | an accepted room is carved and tunnelled to its predecessor; the map stays the layout of the chained strokes; its door and the tunnel's leg order are those of the next generator states |
| Floors.FloorState.PlaceRooms | main.js:108-123 | 1 to 15 rooms are accepted in at most 200 attempts; every room is placed and separated from all earlier ones; each room after the first is tunnelled to its predecessor; the map is exactly the layout of those strokes; rooms, doors, strokes, attempts and the generator's state are exactly `RoomLoop` from the initial state |
| Floors.FloorState.TryRoom | main.js:113-122 | one attempt keeps the rooms placed, separated, chained and drawn, and the loop from the plan it leaves ends as the loop from the plan it found |
| Floors.FloorState.Elevators | main.js:124-132 | up at room 0's centre, down at the last room's centre, and on the deepest floor the exit at room max(1, n - 2)'s centre; failure exactly when that room is missing |
| Floors.FloorState.FreeTiles | main.js:134-139 | the scan lists exactly the free tiles (inside the ring, walkable, not a door, not an elevator) in row-major order |
| Floors.FloorState.SpawnMonsters | main.js:141-152 | min(12, floor(n * 0.02) + 5) monsters are popped, limited by the tiles left; the k-th is `SpawnedMonster` of the roll `range(0, 9)` from the (k+1)-th state after the start; the generator advances once per monster |
| Floors.FloorState.SpawnItems | main.js:157-163 | min(10, floor(r * 0.01) + 5) items are popped from the r tiles left; the k-th is a copy of `PoolItem` of the (k+1)-th state after the start; the generator advances once per item |
| Floors.FloorState.Spawn | main.js:141-163 | monsters, the boss on the deepest floor, then items are popped from the pool, with kinds and items drawn as `SpawnedFrom` states; failure exactly when no tile is left for the boss |
| Floors.FloorState.SpawnsCounted | main.js:141-163 | the monster, boss and item pops meet their counts and come from the end of the pool in order |
| Floors.FloorState.SpawnsTraced | main.js:141-163 | monsters rolled from the start state, the boss, then items drawn from the state the monsters leave, make up `SpawnedFrom` |
| Floors.FloorState.Populate | main.js:134-163 | the spawning half of `genFloor` lists exactly the free tiles, yields the counted monsters and items on distinct free tiles, and draws them as `SpawnedFrom` states from a permutation of the free list |
| Floors.FloorState.SpotsFree | main.js:134-163 | tiles popped from a shuffle of the free list are distinct free tiles |
| Floors.FloorState.SpawnedReady | main.js:134-163 | a completed spawn leaves the floor ready: elevators walkable, monsters sound on walkable tiles, one per tile, items on the grid |
| Floors.FloorState.Stock | main.js:133-165 | spawning on a carved floor keeps its layout; it completes exactly when `Completes` holds, and then the floor is spawned, ready, and drawn as `SpawnedFrom` states |
| Floors.GenFloor | main.js:106-165 | `genFloor` gives a fresh floor whose rooms, doors and strokes are `RoomLoop` from the generator's state; the map is the layout of the chained strokes and the elevator marks, with the elevators placed as described (`Carved`); the spawns meet their counts and are `SpawnedFrom` the state the room loop leaves; it completes exactly when `Completes` holds: always above the deepest floor, and on the deepest floor exactly when it has two rooms and a free tile left for the boss |
| Floors.CarveFloor | main.js:106-132 | the layout half of `genFloor`: a fresh floor whose rooms, doors, strokes and final generator state are `RoomLoop` from the initial state, `Carved` for its level with walkable elevators; it fails exactly on the deepest floor with a single room |
| Floors.ElevatorsWalkable | main.js:124-132 | every elevator tile is walkable after generation |
| Fov.InViewNear | main.js:174-177 | a cell in view lies inside the scanned square |
| Fov.OutsideSquare | main.js:174-177 | a cell outside the square around the player is never in view |
| Fov.NeighboursInView | main.js:173-187 | the player's cell and its eight neighbours on the grid are always in view |
| Fov.ViewMonotone | main.js:173-187 | removing walls never shrinks the view |
| Fov.RecomputeFov | main.js:173-187 | afterwards a cell is in view exactly when it is on the grid, within radius 8 and visible; explored grows by exactly the cells in view, so explored only grows and contains the view |
| World.MonsterAt | main.js:333 | the first monster on a cell, or -1 when there is none |
| World.ItemAt | main.js:358 | the first item on a cell, or -1 when there is none |
| World.BeamStopsAtWall | main.js:515-527 | an enemy beam that reaches the player passed only clear cells: a player behind a wall is never hit |
| World.BeamTarget | main.js:486-506 | the blaster beam's target is -1 or the first monster on the cell it strikes, on the grid |
| World.Beam | main.js:486-506 | the beam loop returns exactly `BeamTarget` |
| World.Chebyshev | main.js:538 | the sentry's distance bounds both axis offsets |
| World.HuntOptions | main.js:568-570 | five hunting moves in order: along the farther axis (vertical on a tie), along the other, the diagonal, back along the first axis, back along the other |
| World.ChaseStep | main.js:558-560 | the boss steps along the axis on which the player is farther, the vertical one on a tie |
| World.MoveKeepsApart | main.js:318-320 | moving a monster onto a cell no other monster holds keeps one monster per tile |
| World.MoveOutcome | main.js:309-322 | `moveEntity` on values: only the monster's position and the player's hp can change, hp only falls, and a move `Accepts` refuses (wall, or another monster on the target) changes nothing |
| World.MoveOutcomeKeeps | main.js:309-322 | a step of at most one tile per axis keeps the monster on the grid, moves it at most one tile with its stats kept, and keeps one monster per tile |
| World.FirstAccepted | main.js:571-574 | the index of the first option `moveEntity` accepts, every earlier one refused; -1 exactly when every option is refused |
| World.MonsterTurn | main.js:532-580 | one monster's turn on values, chosen by its kind (sentry, boss, otherwise hunter): only that monster and the player's hp change, hp only falls, the generator state stays in range |
| World.Turns | main.js:531-581 | the monsters act one after the other in list order; the list keeps its length and the player changes only by losing hp |
| World.Trace | main.js:531-581 | the states the loop passes through: each is the one before after the next monster's turn, and the last is `Turns` |
| World.WanderedKeeps | main.js:545 | a random step from a nonzero generator moves the monster at most one tile, on the grid, and leaves the generator nonzero (also lines 576 and 579) |
| World.SentryTurnKeeps | main.js:533-548 | a sentry's turn moves it at most one tile, on the grid, and leaves the generator nonzero |
| World.BossTurnKeeps | main.js:549-563 | the boss's turn moves it at most one tile, on the grid, and leaves the generator untouched |
| World.HuntTurnKeeps | main.js:564-580 | a hunter's turn moves it at most one tile, on the grid, and leaves the generator nonzero |
| World.MonsterTurnActs | main.js:532-580 | any monster's turn moves it at most one tile with its stats kept and on the grid, and leaves the generator nonzero |
| World.TurnsStepped | main.js:531-581 | after the first n turns each monster has moved at most one tile with its stats kept, the rest are untouched, all stay on the grid, and the generator stays nonzero |
| World.Struck | main.js:337-345 | a hit lowers the monster's hp by the damage; a monster at 0 hp or below is spliced out and the order of the rest is kept |
| World.StruckKeeps | main.js:337-345 | a hit keeps every monster sound and one per tile, with no monster moved |
| World.Swung | main.js:339-341 | a swing wears the saber only when it is wielded; the bag keeps its length, and only bag and weapon can change |
| World.Spent | main.js:507-508 | a shot, or a misfire (lines 477-478), takes exactly one cell and raises heat by 20, capped at 100 |
| World.Worn | main.js:509-510 | the blaster's wear after a shot keeps the player sound; only bag and weapon can change, the weapon at most to fists |
| World.ShotDamage | main.js:491-494 | a blaster hit deals `BlasterDamage`, doubled on a critical hit, at least 1 |
| World.FireGate | main.js:458-476 | the gates in order (not wielded, broken, no ammo, jammed, overheated), then a misfire exactly when the draw is below the misfire chance |
| World.Game.constructor | main.js:658-666 | a new game is valid, on floor 0, with a new player on its up elevator |
| World.Game.MoveMonster | main.js:309-322 | the move succeeds exactly when `Accepts` holds, and the new monsters and player are `MoveOutcome`: clamped target, a wall stops it, a player there takes `max(1, atk - def)` with the monster staying, another monster blocks, otherwise the monster moves; one monster per tile is kept |
| World.Game.Relocate | main.js:321 | the monster moves to a free walkable cell, keeping the game invariant |
| World.Game.EnemyFire | main.js:515-527 | the beam hits exactly when it reaches the player before a wall or the edge, and the player loses the beam damage, unclamped |
| World.Game.Rearm | main.js:535 | only the monster's cooldown changes (also lines 542, 551 and 555) |
| World.Game.Volley | main.js:539-542 | the monster fires at the player and rearms to 2, on a hit only (sentry) or always (boss, lines 553-555) |
| World.Game.Step | main.js:545 | the monster's cooldown is set, then the monsters and player become `MoveOutcome` of that step (also line 560) |
| World.Game.Wander | main.js:545 | the generator advances exactly twice and the monster takes the step `(range(-1, 1), range(-1, 1))` of those two draws, as `Wandered` states (also lines 576 and 579) |
| World.Game.SentryAct | main.js:533-548 | the monsters, player and generator become exactly `SentryTurn`, under which a sentry within range, in sight and with the cooldown at 0 fires for 2 and rearms to 2 only on a hit, and otherwise steps at random; the sentry alone is acted on |
| World.Game.BossAct | main.js:549-563 | the monsters, player and generator become exactly `BossTurn`, under which a boss with the cooldown at 0 and the player in sight fires for 3 and rearms to 2 whether or not it hits, and otherwise chases along one axis; the boss alone is acted on |
| World.Game.Chase | main.js:557-560 | the boss steps toward the player along one axis or stays put, with the outcome `MoveOutcome` of the `ChaseStep` |
| World.Game.MonsterSound | main.js:532 | every monster on the current floor is sound and on a walkable tile |
| World.Game.HuntAct | main.js:564-580 | the result is exactly `HuntTurn`: within distance 8 the first accepted hunting move, else (none accepted, or farther than 8) the random step `Wandered` |
| World.Game.Hunt | main.js:565-574 | it moves exactly when some hunting move is accepted, and then the outcome is that of the first accepted one (`FirstAccepted`); when none is, nothing changes |
| World.Game.MonsterAct | main.js:532-580 | one monster's turn is exactly `MonsterTurn` of the old monsters, player and generator: only that monster changes, by at most one tile with its stats kept, and the player only loses hp |
| World.Game.MonstersOnGrid | main.js:532 | every monster of the current floor stands on the grid |
| World.Game.MonstersAct | main.js:531-581 | the monster loop: the monsters, the player and the generator end as `Turns` over the whole list |
| World.AfterTurn | main.js:529-594 | the end of a turn on values: the monster list keeps its length, the generator state stays in range, and the player only decays (`Decayed`: hp never rises, the shield ticks, heat cools) |
| World.Game.EndTurn | main.js:529-594 | the monsters, player and generator end as exactly `AfterTurn` of the old ones: each monster acts once, in list order, moving at most one tile; then the shield ticks and heat cools; the game invariant holds |
| World.Game.Hit | main.js:337-345 | the monster list becomes `Struck` of the old list |
| World.Game.Attack | main.js:334-347 | a bump attack hits the monster (`Struck`) and wears the saber (`Swung`); then the monsters, player and generator are exactly `AfterTurn` of that state |
| World.Game.Walk | main.js:350-352 | the player steps onto the cell; then the monsters, player and generator are exactly `AfterTurn` of that state |
| World.Game.TryPlayerMove | main.js:330-354 | a monster on the target is hit and the turn ends, giving exactly `AfterTurn` of the struck monsters and the swung player; else a walkable target is entered, giving exactly `AfterTurn` of the moved player; a blocked move changes nothing and costs no turn |
| World.Game.PickUp | main.js:356-376 | the first item under the player leaves the floor and is collected; with none there nothing changes |
| World.Game.WaitTurn | main.js:378-384 | a wait rests and then ends the turn, giving exactly `AfterTurn` of the rested player, so it cools 20 and costs two shield turns |
| World.Game.HandleUse | main.js:409-429 | the item `UseItem` chooses is used and the turn ends, giving exactly `AfterTurn` of the new player; with nothing usable nothing changes and no turn passes |
| World.Game.Toggle | main.js:431-439 | the weapon becomes `ToggleWeapon` of the player; no turn passes |
| World.Game.CycleColor | main.js:441-447 | the saber colour moves one step along its cycle; no turn passes |
| World.Game.CycleForm | main.js:448-454 | the saber form moves one step along its cycle; no turn passes |
| World.Game.Blast | main.js:489-502 | the beam's target, if any, takes the blaster damage and is removed at 0 hp |
| World.Game.Shoot | main.js:489-510 | the hit, then one cell and 20 heat spent, then the blaster's wear |
| World.Game.Misfire | main.js:476-482 | a misfire spends one cell and 20 heat and jams when the draw is below 0.5; then the state is exactly `AfterTurn` of that player |
| World.Game.Fire | main.js:486-512 | the target is `BeamTarget` of the beam from the next cell; that monster takes the hit, the player pays the cost and the wear, and the state is exactly `AfterTurn` of the result |
| World.Game.Discharge | main.js:507-512 | the shot at the found target, then the state is exactly `AfterTurn` of the struck monsters and the spent, worn player |
| World.Game.TryFire | main.js:457-513 | a refusing gate changes nothing (a broken blaster only switches to fists); a misfire and a shot each spend exactly one cell and 20 heat (capped at 100) and end the turn, as exactly `AfterTurn` of the state they leave |
| World.Game.UseElevator | main.js:597-622 | a down elevator above the deepest floor descends to the next floor's up elevator; an up elevator below the top ascends to the previous floor's down elevator; the deepest floor's exit wins; elsewhere nothing changes |
| World.Game.Look | main.js:205 | the view is recomputed around the player, as `RecomputeFov` states |
| World.PlayableFloor | main.js:106-165 | `genFloor` completes exactly when `Completes` holds, and then gives a fresh floor ready for play; its rooms are those of `RoomLoop` from the generator's state, and its spawns are `SpawnedFrom` the state the room loop leaves |
| World.ResetGame | main.js:658-666 | with the page's one generator and a separate run of shuffle draws per floor: a game results exactly when the deepest floor completes; it is valid, on floor 0, uses that generator, and has the new player on floor 0's up elevator |

## Left out

- touch.js is not part of this model. It forwards on-screen buttons to the
  same actions.
- Drawing, labels and the log are left out: `render` apart from its
  `recomputeFOV` call, `saberClass`, `bagLabel`, `weaponLabel`,
  `weaponDurabilityLabel`, `glyph` and `log`. The field-of-view update of
  every `render` call is `World.Game.Look`, which the caller runs after the
  action: after `endTurn`, `useElevator`, `pickUp`, `useRepairKit`,
  `toggleWeapon`, the saber cycles, `tryFire` and `resetGame`. The actions
  themselves do not change `fov` or `explored`.
- Input mapping is left out: the `keydown` listener, `keymap` and
  `awaitingFireDir`. This includes the listener's refusal of every action
  but restart once hp is 0 or below. The cycle keys only act while the saber
  is wielded, which the listener checks, not the cycle functions.
- `saveGame` and `loadGame` are left out. They are local storage and JSON.
- `Math.random()` and `Date.now()` are parameters. No statistical claims
  are made about crit, misfire or spawn rates.
- IEEE floating point is modelled as exact reals. This covers
  `weaponScale`, the misfire and wear chances, and `Math.round`.
  `Math.hypot(dx, dy) <= 8` is modelled as `dx*dx + dy*dy <= 64`.
  `floor(n * 0.02)` and `floor(n * 0.01)` are `n / 50` and `n / 100`.
- World.Game.TryFire: requires a nonzero direction. The key map only
  supplies the eight directions. With (0, 0) the source's beam loop never
  ends when the player's cell holds no monster.
- World.Game.SentryAct: takes the line-of-sight result as an argument tied
  by its precondition to `Sight`. `MonsterAct` computes that value with the
  method `Visible`. World.Game.BossAct does the same.
- World.Game.Fire: computes its target with the function `BeamTarget`
  rather than by calling the loop `World.Beam`. `World.Beam` is proved to
  return exactly that value.
- Sight.Visible: `steps` is a ghost count of the loop's updates. It bounds
  the number of iterations and is not a result of the source.
- Floors.FloorState.RectRoom: `door` is a ghost out-parameter naming where
  the door went. Floors.FloorState.Tunnel's leg order is ghost in the same
  way.
- The item templates' `maxdur == null` fallback in `pickUp` is not modelled.
  Every template in the pool carries its durability, so it cannot fire for
  generated items.
- Entities.MisfireChance: only its bounds are stated, not its exact value
  as a contract. The misfire decision itself compares the draw with the
  exact value.
- Floors.Shuffle: states that the array is permuted without repeats, not
  which permutation the draws pick. Floors.Shuffled and the spawn contracts
  are stated relative to the shuffled pool it returns.
- World.ResetGame: does not state the generator states from one floor to
  the next. World.PlayableFloor states each floor's rooms and spawns from
  the state that floor starts in; the game only keeps the one generator.
- Connectivity of the rooms is not claimed. A later room's walls can cut an
  earlier corridor.

## Findings

| source | as written | input that shows it | evidently intended | confidence | as-written member | corrected member |
|---|---|---|---|---|---|---|
| main.js:24-27 | the seed `Date.now() % 2147483647` can be 0, and a Lehmer generator in state 0 stays at 0 | a start time that is a multiple of 2147483647 ms: every `range(a, b)` then returns a - 1, one below its range | a nonzero seed (for example 0 mapped to 1), so that `range(a, b)` stays within [a, b] | not executed | Random.ZeroSeedStuck | Random.Seed |

=== FILE: entities.dfy ===
/**
 * The entity and item model and the pure combat and equipment rules: items
 * as a tagged variant, the player's stat block, monsters, and the functions
 * that compute attack, defence, damage, durability wear, repairs, item use
 * and weapon and saber cycling.
 */
module Entities {
  import opened Grid

  /** A draw of `Math.random()`: a real in [0, 1). */
  type Unit = u: real | 0.0 <= u < 1.0

  datatype Color = Blue | Green | Red | Purple
  datatype Form = Balanced | Aggressive | Defensive
  /** The equipped-weapon selector: "fists", "lightsaber", "blaster". */
  datatype Weapon = Fists | WieldSaber | WieldBlaster

  /** One case per item template, each carrying only its own fields. */
  datatype Item =
    | Medkit(heal: int)
    | EnergyCell(ammo: int)
    | Lightsaber(meleeAtk: int, dur: int, maxdur: int, color: Color)
    | Blaster(rangeAtk: int, dur: int, maxdur: int)
    | ShieldEmitter(shield: int)
    | RepairKit(repair: int)

  const TMedkit: Item := Medkit(6)
  const TEnergy: Item := EnergyCell(5)
  const TLightsaber: Item := Lightsaber(3, 20, 20, Blue)
  const TBlaster: Item := Blaster(3, 12, 12)
  const TShield: Item := ShieldEmitter(20)
  const TRepair: Item := RepairKit(6)
  /** `ITEM_POOL`: the energy cell appears twice, so it is drawn twice as often. */
  const ItemPool: seq<Item> := [TMedkit, TEnergy, TEnergy, TLightsaber, TBlaster, TShield, TRepair]

  predicate IsWeapon(it: Item)
  {
    it.Lightsaber? || it.Blaster?
  }

  /**
   * What every item in play satisfies: amounts are positive (so the
   * source's truthiness tests `b.heal`, `b.repair`, ... pick exactly the
   * item's own kind) and a weapon's durability lies in [0, maxdur].
   */
  predicate ItemOk(it: Item)
  {
    match it
    case Medkit(heal) => heal > 0
    case EnergyCell(ammo) => ammo > 0
    case Lightsaber(atk, dur, maxdur, _) => 0 <= dur <= maxdur && maxdur > 0
    case Blaster(atk, dur, maxdur) => 0 <= dur <= maxdur && maxdur > 0
    case ShieldEmitter(turns) => turns > 0
    case RepairKit(amount) => amount > 0
  }

  lemma PoolOk()
    ensures forall it :: it in ItemPool ==> ItemOk(it)
  {
  }

  predicate BagOk(bag: seq<Item>)
  {
    forall i :: 0 <= i < |bag| ==> ItemOk(bag[i])
  }

  /** The player's stat block. */
  datatype Player = Player(
    x: int, y: int,
    hp: int, maxhp: int, atk: int, def: int,
    bag: seq<Item>,
    ammo: int,
    weapon: Weapon,
    shieldTurns: int,
    heat: int,
    jam: bool,
    saberColor: Color,
    saberForm: Form)

  const CritChance: real := 0.10

  /** The player of a new game, standing at p (floor 0's up elevator). */
  function NewPlayer(p: Pos): (q: Player)
    ensures PlayerOk(q) && q.x == p.x && q.y == p.y
  {
    Player(p.x, p.y, 16, 16, 2, 0, [], 10, Fists, 0, 0, false, Blue, Balanced)
  }

  /** The invariants of the stat block: heat in [0, 100], ammo never negative, every carried item sound. */
  predicate PlayerOk(p: Player)
  {
    0 <= p.heat <= 100 && p.ammo >= 0 && p.shieldTurns >= 0 && BagOk(p.bag)
  }

  /** Monster behaviour with its own sub-state. Drones and aliens share the wander/hunt behaviour. */
  datatype Kind = Drone | Alien | Sentry(range: int, cool: int) | Boss(phase: int, cool: int)

  datatype Monster = Monster(x: int, y: int, kind: Kind, hp: int, maxhp: int, atk: int)

  /** The monster a spawn roll in [0, 9] produces at t: 0-5 a drone, 6-7 an alien, 8-9 a sentry. */
  function SpawnedMonster(roll: int, t: Pos): (m: Monster)
    ensures m.x == t.x && m.y == t.y && m.hp == m.maxhp
    ensures roll <= 5 ==> m.kind == Drone && m.hp == 4 && m.atk == 1
    ensures 6 <= roll <= 7 ==> m.kind == Alien && m.hp == 6 && m.atk == 2
    ensures 8 <= roll ==> m.kind == Sentry(8, 0) && m.hp == 5 && m.atk == 1
  {
    var kind := if roll >= 8 then Sentry(8, 0) else if roll >= 6 then Alien else Drone;
    var hp := if kind.Alien? then 6 else if kind.Sentry? then 5 else 4;
    var atk := if kind.Alien? then 2 else 1;
    Monster(t.x, t.y, kind, hp, hp, atk)
  }

  /** The deepest floor's boss. */
  function NewBoss(t: Pos): Monster
  {
    Monster(t.x, t.y, Boss(0, 0), 24, 24, 3)
  }

  /**
   * What every monster on a floor satisfies: it is alive (a monster whose hp
   * drops to 0 is removed at once), never above its maximum, and a ranged
   * monster's cooldown lies in [0, 2].
   */
  predicate MonsterOk(m: Monster)
  {
    && 0 < m.hp <= m.maxhp
    && (m.kind.Sentry? ==> 0 <= m.kind.cool <= 2)
    && (m.kind.Boss? ==> 0 <= m.kind.cool <= 2)
  }

  /** No two monsters of a floor stand on the same tile. */
  predicate OnePerTile(es: seq<Monster>)
  {
    forall a, b :: 0 <= a < b < |es| ==> es[a].x != es[b].x || es[a].y != es[b].y
  }

  /** Freshly spawned monsters and the boss satisfy the monster invariant. */
  lemma SpawnsOk(roll: int, t: Pos)
    ensures MonsterOk(SpawnedMonster(roll, t)) && MonsterOk(NewBoss(t))
  {
  }

  // ---------------------------------------------------------------------------
  // Searching the bag

  /** The `find`/`findIndex` predicates the source applies to the bag. */
  datatype Query =
    | Healing          // b.heal
    | Repairing        // b.repair
    | Shielding        // b.shield
    | AnySaber         // b.name === 'Lightsaber'
    | AnyBlaster       // b.name === 'Blaster'
    | DurableSaber     // b.name === 'Lightsaber' && (b.dur ?? 0) > 0
    | DurableBlaster   // b.name === 'Blaster' && (b.dur ?? 0) > 0
    | AnyWeapon        // b.name === 'Lightsaber' || b.name === 'Blaster'

  predicate Matches(it: Item, q: Query)
  {
    match q
    case Healing => it.Medkit?
    case Repairing => it.RepairKit?
    case Shielding => it.ShieldEmitter?
    case AnySaber => it.Lightsaber?
    case AnyBlaster => it.Blaster?
    case DurableSaber => it.Lightsaber? && it.dur > 0
    case DurableBlaster => it.Blaster? && it.dur > 0
    case AnyWeapon => IsWeapon(it)
  }

  /** The index of the first item matching q, or -1. */
  function Find(bag: seq<Item>, q: Query): (k: int)
    ensures -1 <= k < |bag|
    ensures 0 <= k ==> Matches(bag[k], q) && forall i :: 0 <= i < k ==> !Matches(bag[i], q)
    ensures k < 0 ==> forall i :: 0 <= i < |bag| ==> !Matches(bag[i], q)
  {
    if |bag| == 0 then -1
    else if Matches(bag[0], q) then 0
    else
      var k := Find(bag[1..], q);
      if k < 0 then -1 else k + 1
  }

  /** `splice(k, 1)`. */
  function RemoveAt<T>(s: seq<T>, k: int): (r: seq<T>)
    requires 0 <= k < |s|
    ensures |r| == |s| - 1
    ensures forall i :: 0 <= i < k ==> r[i] == s[i]
    ensures forall i :: k <= i < |r| ==> r[i] == s[i + 1]
    ensures multiset(r) + multiset{s[k]} == multiset(s)
  {
    assert s == s[..k] + [s[k]] + s[k + 1..];
    s[..k] + s[k + 1..]
  }

  // ---------------------------------------------------------------------------
  // Stats

  /** `formMods()` as (atk, def): a form trades one point of attack for one of defence. */
  function FormMods(f: Form): (m: (int, int))
    ensures m.0 + m.1 == 0 && -1 <= m.0 <= 1
    ensures f == Balanced <==> m == (0, 0)
    ensures f == Aggressive <==> m.0 == 1
  {
    match f
    case Aggressive => (1, -1)
    case Defensive => (-1, 1)
    case Balanced => (0, 0)
  }

  /** `effectiveDef()`: base defence, +2 while a shield is up, plus the form's modifier. */
  function EffectiveDef(p: Player): (d: int)
    ensures p.def - 1 <= d <= p.def + 3
    ensures p.shieldTurns > 0 ==> d >= p.def + 1
    ensures p.shieldTurns <= 0 ==> d <= p.def + 1
  {
    p.def + (if p.shieldTurns > 0 then 2 else 0) + FormMods(p.saberForm).1
  }

  /** Consuming a shield raises effective defence by exactly 2 for as long as it lasts. */
  lemma ShieldAddsTwo(p: Player, turns: int)
    requires turns > 0
    ensures EffectiveDef(p.(shieldTurns := turns)) == EffectiveDef(p.(shieldTurns := 0)) + 2
  {
  }

  /** `Math.max(0, Math.min(1, dur / maxdur))`. */
  function Ratio(dur: int, maxdur: int): (r: real)
    requires maxdur > 0
    ensures 0.0 <= r <= 1.0
    ensures dur >= maxdur ==> r == 1.0
    ensures dur <= 0 ==> r == 0.0
  {
    var q := dur as real / maxdur as real;
    assert q * maxdur as real == dur as real;
    assert dur >= maxdur ==> q >= 1.0 by {
      if dur >= maxdur {
        assert (q - 1.0) * maxdur as real == (dur - maxdur) as real;
      }
    }
    assert dur <= 0 ==> q <= 0.0;
    if q < 0.0 then 0.0 else if q > 1.0 then 1.0 else q
  }

  /** `weaponScale(it)`: 50% of the rated bonus for a worn-out weapon, 100% for a new one. */
  function WeaponScale(it: Item): (s: real)
    requires IsWeapon(it) && it.maxdur > 0
    ensures 0.5 <= s <= 1.0
    ensures it.dur >= it.maxdur ==> s == 1.0
    ensures it.dur <= 0 ==> s == 0.5
  {
    0.5 + 0.5 * Ratio(it.dur, it.maxdur)
  }

  /** A weapon with more durability left scales its bonus at least as high. */
  lemma ScaleMonotone(it: Item, d1: int, d2: int)
    requires IsWeapon(it) && it.maxdur > 0
    requires d1 <= d2
    ensures WeaponScale(it.(dur := d1)) <= WeaponScale(it.(dur := d2))
  {
    DivMonotone(d1 as real, d2 as real, it.maxdur as real);
  }

  lemma DivMonotone(a: real, b: real, m: real)
    requires a <= b && m > 0.0
    ensures a / m <= b / m
  {
  }

  /** `Math.round` (halves round up). */
  function Round(v: real): int
  {
    (v + 0.5).Floor
  }

  /** A rated bonus of 0 reads as 3: `it.meleeAtk || 3`, `bl.rangeAtk || 3`. */
  function RatedOr3(v: int): int
  {
    if v != 0 then v else 3
  }

  /** The lightsaber's bonus `Math.max(1, Math.round(meleeAtk * weaponScale(it)))`. */
  function SaberBonus(it: Item): (b: int)
    requires it.Lightsaber? && it.maxdur > 0
    ensures 1 <= b <= Max(1, RatedOr3(it.meleeAtk))
    ensures RatedOr3(it.meleeAtk) >= 0 ==> b >= Round(RatedOr3(it.meleeAtk) as real * 0.5)
  {
    var r := RatedOr3(it.meleeAtk);
    var x := r as real * WeaponScale(it);
    ScaledBounds(r, WeaponScale(it));
    RoundedBonus(r, x);
    Max(1, Round(x))
  }

  /** Rounding a value x between half a rating and all of it, at least 1: between the rounded half and the whole rating. */
  lemma RoundedBonus(r: int, x: real)
    requires r >= 0 ==> r as real * 0.5 <= x <= r as real
    requires r < 0 ==> x <= 0.0
    ensures 1 <= Max(1, Round(x)) <= Max(1, r)
    ensures r >= 0 ==> Max(1, Round(x)) >= Round(r as real * 0.5)
  {
    IntegerBounds(r, x);
  }

  /** Flooring a value x between half a rating and all of it, at least 1: between half the rating and the whole of it. */
  lemma FlooredBonus(r: int, x: real)
    requires r >= 0 ==> r as real * 0.5 <= x <= r as real
    requires r < 0 ==> x <= 0.0
    ensures 1 <= Max(1, x.Floor) <= Max(1, r)
    ensures r >= 0 ==> Max(1, x.Floor) >= Max(1, r / 2)
  {
    IntegerBounds(r, x);
  }

  /** For a scale s in [0.5, 1], a rating r scales to between half of it and all of it. */
  lemma ScaledBounds(r: int, s: real)
    requires 0.5 <= s <= 1.0
    ensures r >= 0 ==> r as real * 0.5 <= r as real * s <= r as real
    ensures r < 0 ==> r as real * s <= 0.0
  {
    if r < 0 {
      assert r as real * s <= r as real * 0.5;
    }
  }

  /** Rounding or flooring a value between half a rating and the whole rating stays within the same bounds. */
  lemma IntegerBounds(r: int, x: real)
    ensures r >= 0 && r as real * 0.5 <= x <= r as real ==>
      Round(r as real * 0.5) <= Round(x) <= r && r / 2 <= x.Floor <= r
    ensures r < 0 && x <= 0.0 ==> Round(x) <= 0 && x.Floor <= 0
  {
    var h := r / 2;
    assert r == 2 * h || r == 2 * h + 1;
  }

  /**
   * `attackValue()`: base attack plus the form's modifier, and with a
   * lightsaber that still has durability the saber's bonus on top. A broken
   * or absent saber, fists and the blaster all fight with the base value.
   */
  function AttackValue(p: Player): (v: int)
    requires BagOk(p.bag)
    ensures var base := p.atk + FormMods(p.saberForm).0;
      && (p.weapon != WieldSaber || Find(p.bag, DurableSaber) < 0 ==> v == base)
      && (p.weapon == WieldSaber && Find(p.bag, DurableSaber) >= 0 ==>
            base + 1 <= v <= base + Max(1, RatedOr3(p.bag[Find(p.bag, DurableSaber)].meleeAtk)))
  {
    var base := p.atk + FormMods(p.saberForm).0;
    if p.weapon == WieldSaber then
      var k := Find(p.bag, DurableSaber);
      if k < 0 then base
      else
        base + SaberBonus(p.bag[k])
    else base
  }

  /** Player melee damage: `Math.max(1, attackValue())`, doubled on a critical hit. */
  function MeleeDamage(p: Player, crit: bool): (d: int)
    requires BagOk(p.bag)
    ensures d >= 1
    ensures crit ==> d >= 2 && d % 2 == 0
    ensures !crit ==> d == Max(1, AttackValue(p))
  {
    var d := Max(1, AttackValue(p));
    if crit then d * 2 else d
  }

  /** A monster's bump attack: `Math.max(0, atk - def) || 1`, i.e. never less than 1. */
  function BumpDamage(atk: int, def: int): (d: int)
    ensures d == Max(1, atk - def)
  {
    var raw := Max(0, atk - def);
    if raw == 0 then 1 else raw
  }

  /** An enemy beam: `Math.max(1, dmg - Math.floor(def / 2))`; only half the defence counts. */
  function BeamDamage(dmg: int, def: int): (d: int)
    ensures d >= 1
    ensures def >= 0 ==> d <= Max(1, dmg)
    ensures d >= dmg - def / 2
  {
    Max(1, dmg - def / 2)
  }

  /** A blaster hit before a critical: `Math.max(1, Math.floor(rangeAtk * weaponScale(bl)))`. */
  function BlasterDamage(it: Item): (d: int)
    requires it.Blaster? && it.maxdur > 0
    ensures 1 <= d <= Max(1, RatedOr3(it.rangeAtk))
    ensures RatedOr3(it.rangeAtk) >= 0 ==> d >= Max(1, RatedOr3(it.rangeAtk) / 2)
  {
    var r := RatedOr3(it.rangeAtk);
    var x := r as real * WeaponScale(it);
    ScaledBounds(r, WeaponScale(it));
    FlooredBonus(r, x);
    Max(1, x.Floor)
  }

  /** `Math.min` on reals. */
  function RMin(a: real, b: real): (r: real)
    ensures r <= a && r <= b && (r == a || r == b)
  {
    if a < b then a else b
  }

  /** The misfire chance `min(0.5, 0.1 + heat/200 + (1 - dur/maxdur) * 0.2)`. */
  function MisfireChance(heat: int, bl: Item): (c: real)
    requires bl.Blaster? && bl.maxdur > 0
    ensures c <= 0.5
    ensures heat >= 0 && bl.dur <= bl.maxdur ==> c >= 0.1
  {
    var lowDur := 1.0 - bl.dur as real / bl.maxdur as real;
    assert bl.dur <= bl.maxdur ==> bl.dur as real / bl.maxdur as real <= 1.0 by {
      assert bl.dur as real / bl.maxdur as real * bl.maxdur as real == bl.dur as real;
    }
    RMin(0.5, 0.1 + heat as real / 200.0 + lowDur * 0.2)
  }

  /** A full-durability blaster at heat 90 misfires with probability 0.5: the cap, at least 0.45. */
  lemma HotBlasterMisfires(bl: Item)
    requires bl.Blaster? && bl.maxdur > 0 && bl.dur == bl.maxdur
    ensures MisfireChance(90, bl) == 0.5
  {
    assert bl.dur as real / bl.maxdur as real == 1.0;
  }

  /** The blaster's wear chance after a shot, `min(0.99, 0.5 + heat/200)`. */
  function DegradeChance(heat: int): (c: real)
    ensures c <= 0.99
    ensures heat >= 0 ==> c >= 0.5
  {
    RMin(0.99, 0.5 + heat as real / 200.0)
  }

  // ---------------------------------------------------------------------------
  // Equipment

  /** The weapon selector that a lightsaber or blaster query refers to. */
  function WieldedBy(q: Query): Weapon
  {
    if q == DurableSaber then WieldSaber else WieldBlaster
  }

  /**
   * `maybeDegrade(name, chance, 1)` with the draw u of `Math.random()`: the
   * first weapon of that name with durability left loses one point when
   * u < chance; reaching 0 it stays at 0, and if that kind of weapon is
   * wielded the player falls back to fists. Returns whether wear happened.
   */
  function Degrade(p: Player, q: Query, chance: real, u: Unit): (r: (Player, bool))
    requires q == DurableSaber || q == DurableBlaster
    requires PlayerOk(p)
    ensures PlayerOk(r.0)
    ensures r.1 <==> Find(p.bag, q) >= 0 && u < chance
    ensures !r.1 ==> r.0 == p
    ensures r.1 ==> var k := Find(p.bag, q);
      && |r.0.bag| == |p.bag|
      && (forall i :: 0 <= i < |p.bag| && i != k ==> r.0.bag[i] == p.bag[i])
      && r.0.bag[k] == p.bag[k].(dur := p.bag[k].dur - 1)
      && r.0 == p.(bag := r.0.bag, weapon := r.0.weapon)
      && r.0.weapon == (if r.0.bag[k].dur == 0 && p.weapon == WieldedBy(q) then Fists else p.weapon)
  {
    var k := Find(p.bag, q);
    if k < 0 then (p, false)
    else if u < chance then
      var it := p.bag[k];
      var d := it.dur - 1;
      var it' := if d <= 0 then it.(dur := 0) else it.(dur := d);
      var w := if d <= 0 && p.weapon == WieldedBy(q) then Fists else p.weapon;
      var q' := p.(bag := p.bag[k := it'], weapon := w);
      (q', true)
    else (p, false)
  }

  /** The weapon a repair kit works on: the wielded kind if carried, else the first weapon carried. */
  function RepairTarget(p: Player): (t: int)
    ensures -1 <= t < |p.bag|
    ensures t >= 0 ==> IsWeapon(p.bag[t])
    ensures t < 0 <==> Find(p.bag, AnyWeapon) < 0
  {
    var own :=
      if p.weapon == WieldSaber then Find(p.bag, AnySaber)
      else if p.weapon == WieldBlaster then Find(p.bag, AnyBlaster)
      else -1;
    if own >= 0 then own else Find(p.bag, AnyWeapon)
  }

  /** The repaired durability `Math.min(maxdur, dur + repair)`. */
  function Repaired(it: Item, amount: int): (r: Item)
    requires IsWeapon(it) && ItemOk(it) && amount > 0
    ensures ItemOk(r) && IsWeapon(r)
    ensures r == it.(dur := r.dur)
    ensures it.dur <= r.dur <= it.maxdur
    ensures r.dur == it.maxdur || r.dur == it.dur + amount
  {
    it.(dur := Min(it.maxdur, it.dur + amount))
  }

  /**
   * `useRepairKit()`: consume the first repair kit on the repair target.
   * Without a kit or without a weapon nothing changes. The jam clears
   * whenever the wielded weapon is the blaster, whichever weapon was repaired.
   */
  function UseRepairKit(p: Player): (r: (bool, Player))
    requires PlayerOk(p)
    ensures PlayerOk(r.1)
    ensures r.0 <==> Find(p.bag, Repairing) >= 0 && Find(p.bag, AnyWeapon) >= 0
    ensures !r.0 ==> r.1 == p
    ensures r.0 ==> var k, t := Find(p.bag, Repairing), RepairTarget(p);
      && r.1 == p.(bag := r.1.bag, jam := r.1.jam)
      && r.1.bag == RemoveAt(p.bag[t := Repaired(p.bag[t], p.bag[k].repair)], k)
      && |r.1.bag| == |p.bag| - 1
      && r.1.jam == (p.jam && p.weapon != WieldBlaster)
  {
    var k := Find(p.bag, Repairing);
    if k < 0 then (false, p)
    else
      var t := RepairTarget(p);
      if t < 0 then (false, p)
      else
        var bag1 := p.bag[t := Repaired(p.bag[t], p.bag[k].repair)];
        (true, p.(bag := RemoveAt(bag1, k), jam := if p.weapon == WieldBlaster then false else p.jam))
  }

  /** What `handleUse()` did. */
  datatype Used = Healed | RepairedWeapon | Shielded | NothingUsed

  /** Drinking the medkit at k: it is removed and hp rises by its amount, capped at maxhp. */
  function Heal(p: Player, k: int): (q: Player)
    requires PlayerOk(p) && 0 <= k < |p.bag| && p.bag[k].Medkit?
    ensures PlayerOk(q)
    ensures q == p.(bag := RemoveAt(p.bag, k), hp := q.hp)
    ensures q.hp <= p.maxhp
    ensures p.hp <= p.maxhp ==> p.hp <= q.hp
    ensures p.hp < p.maxhp ==> p.hp < q.hp
    ensures q.hp == p.maxhp || q.hp == p.hp + p.bag[k].heal
  {
    p.(bag := RemoveAt(p.bag, k), hp := Min(p.maxhp, p.hp + p.bag[k].heal))
  }

  /** Activating the shield emitter at k: it is removed and the shield lasts its duration. */
  function RaiseShield(p: Player, k: int): (q: Player)
    requires PlayerOk(p) && 0 <= k < |p.bag| && p.bag[k].ShieldEmitter?
    ensures PlayerOk(q)
    ensures q == p.(bag := RemoveAt(p.bag, k), shieldTurns := q.shieldTurns)
    ensures q.shieldTurns == p.bag[k].shield > 0
  {
    p.(bag := RemoveAt(p.bag, k), shieldTurns := p.bag[k].shield)
  }

  /**
   * `handleUse()`: a medkit first, else a repair kit (when there is a weapon
   * to repair), else a shield emitter; with none of them nothing changes.
   */
  function UseItem(p: Player): (r: (Used, Player))
    requires PlayerOk(p)
    ensures PlayerOk(r.1)
    ensures r.0 == Healed <==> Find(p.bag, Healing) >= 0
    ensures r.0 == RepairedWeapon <==> Find(p.bag, Healing) < 0 && UseRepairKit(p).0
    ensures r.0 == Shielded <==>
      Find(p.bag, Healing) < 0 && !UseRepairKit(p).0 && Find(p.bag, Shielding) >= 0
    ensures r.0 == NothingUsed ==> r.1 == p
    ensures r.0 == Healed ==> r.1 == Heal(p, Find(p.bag, Healing))
    ensures r.0 == RepairedWeapon ==> r.1 == UseRepairKit(p).1
    ensures r.0 == Shielded ==> r.1 == RaiseShield(p, Find(p.bag, Shielding))
  {
    var mi := Find(p.bag, Healing);
    if mi >= 0 then (Healed, Heal(p, mi))
    else
      var (ok, p1) := UseRepairKit(p);
      if ok then (RepairedWeapon, p1)
      else
        var si := Find(p.bag, Shielding);
        if si >= 0 then (Shielded, RaiseShield(p, si))
        else (NothingUsed, p)
  }

  /**
   * `pickUp()` once the item is off the floor: an energy cell adds its ammo
   * and is not kept; anything else goes into the bag (a lightsaber also sets
   * the saber colour), and a player with bare fists wields a picked-up
   * lightsaber or blaster.
   */
  function Collect(p: Player, it: Item): (q: Player)
    requires PlayerOk(p) && ItemOk(it)
    ensures PlayerOk(q)
    ensures q.x == p.x && q.y == p.y && q.hp == p.hp && q.heat == p.heat && q.jam == p.jam
    ensures it.EnergyCell? ==> q == p.(ammo := p.ammo + it.ammo) && q.ammo > p.ammo
    ensures !it.EnergyCell? ==> q.bag == p.bag + [it] && q.ammo == p.ammo
    ensures p.weapon != Fists ==> q.weapon == p.weapon
    ensures p.weapon == Fists && it.Lightsaber? ==> q.weapon == WieldSaber
    ensures p.weapon == Fists && it.Blaster? ==> q.weapon == WieldBlaster
    ensures q.saberColor == if it.Lightsaber? then it.color else p.saberColor
  {
    if it.EnergyCell? then p.(ammo := p.ammo + it.ammo)
    else
      var color := if it.Lightsaber? then it.color else p.saberColor;
      var w :=
        if p.weapon != Fists then p.weapon
        else if it.Lightsaber? then WieldSaber
        else if it.Blaster? then WieldBlaster
        else Fists;
      p.(bag := p.bag + [it], saberColor := color, weapon := w)
  }

  // ---------------------------------------------------------------------------
  // Cycling

  /** `indexOf`: the first position of v, or -1. */
  function IndexOf<T(==)>(s: seq<T>, v: T): (i: int)
    ensures -1 <= i < |s|
    ensures i >= 0 ==> s[i] == v
    ensures forall j :: 0 <= j < |s| && (i < 0 || j < i) ==> s[j] != v
  {
    if |s| == 0 then -1
    else if s[0] == v then 0
    else
      var i := IndexOf(s[1..], v);
      if i < 0 then -1 else i + 1
  }

  /**
   * `cycle[(cycle.indexOf(v) + 1) % cycle.length]`: the next entry, wrapping
   * from the last to the first; a value not in the cycle (index -1) moves to
   * the first entry.
   */
  function NextInCycle<T(==)>(cycle: seq<T>, v: T): (r: T)
    requires |cycle| > 0
    ensures r in cycle
    ensures v !in cycle ==> r == cycle[0]
  {
    var i := IndexOf(cycle, v) + 1;
    WrapAround(i, |cycle|);
    cycle[i % |cycle|]
  }

  /** An index in [0, n] taken modulo n is itself, or 0 for n. */
  lemma WrapAround(i: int, n: int)
    requires 0 <= i <= n && 0 < n
    ensures i % n == if i < n then i else 0
  {
    if i == n {
      assert i == 1 * n + 0;
    } else {
      assert i == 0 * n + i;
    }
  }

  predicate NoDuplicates<T(==)>(s: seq<T>)
  {
    forall i, j :: 0 <= i < j < |s| ==> s[i] != s[j]
  }

  lemma IndexOfDistinct<T>(cycle: seq<T>, k: int)
    requires NoDuplicates(cycle) && 0 <= k < |cycle|
    ensures IndexOf(cycle, cycle[k]) == k
  {
    assert cycle[k] in cycle;
  }

  /** In a cycle of distinct entries, the entry after the k-th is the (k+1)-th, or the first after the last. */
  lemma NextOf<T>(cycle: seq<T>, k: int)
    requires NoDuplicates(cycle) && 0 <= k < |cycle|
    ensures NextInCycle(cycle, cycle[k]) == if k + 1 < |cycle| then cycle[k + 1] else cycle[0]
  {
    IndexOfDistinct(cycle, k);
    WrapAround(k + 1, |cycle|);
  }

  /** In a cycle of two or more distinct entries, every entry moves on. */
  lemma MovesOn<T>(cycle: seq<T>, i: nat)
    requires NoDuplicates(cycle) && i < |cycle| && |cycle| > 1
    ensures NextInCycle(cycle, cycle[i]) != cycle[i]
  {
    NextOf(cycle, i);
  }

  const Colors: seq<Color> := [Blue, Green, Red, Purple]
  const Forms: seq<Form> := [Balanced, Aggressive, Defensive]

  /** `cycleSaberColor()`. */
  function NextColor(c: Color): Color
  {
    NextInCycle(Colors, c)
  }

  /** `cycleSaberForm()`. */
  function NextForm(f: Form): Form
  {
    NextInCycle(Forms, f)
  }

  /** The saber colour cycle visits every colour and has period exactly 4. */
  lemma ColorPeriod(c: Color)
    ensures NextColor(NextColor(NextColor(NextColor(c)))) == c
    ensures NextColor(c) != c
  {
    assert NoDuplicates(Colors);
    NextOf(Colors, 0);
    NextOf(Colors, 1);
    NextOf(Colors, 2);
    NextOf(Colors, 3);
  }

  /** The saber form cycle visits every form and has period exactly 3. */
  lemma FormPeriod(f: Form)
    ensures NextForm(NextForm(NextForm(f))) == f
    ensures NextForm(f) != f
  {
    assert NoDuplicates(Forms);
    NextOf(Forms, 0);
    NextOf(Forms, 1);
    NextOf(Forms, 2);
  }

  /** Owning a saber for `toggleWeapon()`: a durable one in the bag, or one already wielded. */
  predicate HasSaber(p: Player)
  {
    Find(p.bag, DurableSaber) >= 0 || p.weapon == WieldSaber
  }

  predicate HasBlaster(p: Player)
  {
    Find(p.bag, DurableBlaster) >= 0 || p.weapon == WieldBlaster
  }

  /** `['fists', saber?, blaster?]` with the absent entries filtered out. */
  function WeaponCycle(p: Player): (c: seq<Weapon>)
    ensures |c| > 0 && c[0] == Fists && NoDuplicates(c)
    ensures p.weapon in c
    ensures forall w :: w in c <==> w == Fists || (w == WieldSaber && HasSaber(p)) || (w == WieldBlaster && HasBlaster(p))
  {
    var c := [Fists] + (if HasSaber(p) then [WieldSaber] else []) + (if HasBlaster(p) then [WieldBlaster] else []);
    assert HasSaber(p) ==> c[1] == WieldSaber;
    assert HasBlaster(p) ==> c[|c| - 1] == WieldBlaster;
    c
  }

  /**
   * `toggleWeapon()`: the next weapon of the cycle. It never selects a
   * weapon the player does not own, and it moves on whenever there is
   * something else to move to.
   */
  function ToggleWeapon(p: Player): (w: Weapon)
    ensures w == Fists || (w == WieldSaber && HasSaber(p)) || (w == WieldBlaster && HasBlaster(p))
    ensures |WeaponCycle(p)| > 1 ==> w != p.weapon
    ensures p.weapon == Fists && HasSaber(p) ==> w == WieldSaber
    ensures p.weapon == Fists && !HasSaber(p) && HasBlaster(p) ==> w == WieldBlaster
  {
    var c := WeaponCycle(p);
    var i := IndexOf(c, p.weapon);
    if |c| > 1 then MovesOn(c, i); NextInCycle(c, p.weapon)
    else NextInCycle(c, p.weapon)
  }

  // ---------------------------------------------------------------------------
  // Passive decay

  /** Blaster cooling: `if (heat > 0) heat = Math.max(0, heat - 10)`. */
  function Cool(heat: int): (h: int)
    ensures 0 <= heat ==> 0 <= h <= heat
    ensures heat > 0 ==> h == Max(0, heat - 10)
  {
    if heat > 0 then Max(0, heat - 10) else heat
  }

  /** Heating by a shot: `Math.min(100, heat + 20)`. */
  function Heat(heat: int): (h: int)
    ensures 0 <= heat <= 100 ==> heat <= h <= 100
    ensures h <= 100
  {
    Min(100, heat + 20)
  }

  /** The shield countdown: `if (shieldTurns > 0) shieldTurns--`. */
  function Tick(turns: int): (t: int)
    ensures turns > 0 ==> t == turns - 1
    ensures turns <= 0 ==> t == turns
  {
    if turns > 0 then turns - 1 else turns
  }

  /** Heat stays in [0, 100] whatever mix of shots and cooling turns happens. */
  lemma HeatBounded(heat: int, shot: bool)
    requires 0 <= heat <= 100
    ensures 0 <= Cool(if shot then Heat(heat) else heat) <= 100
  {
  }

  /**
   * The player part of `waitTurn()` before the turn ends: shield countdown,
   * cooling, and the jam clears when the draw u of `Math.random()` is below 0.6.
   */
  function Rest(p: Player, u: Unit): (q: Player)
    requires PlayerOk(p)
    ensures PlayerOk(q)
    ensures q == p.(shieldTurns := Tick(p.shieldTurns), heat := Cool(p.heat), jam := q.jam)
    ensures q.jam == (p.jam && u >= 0.6)
  {
    p.(shieldTurns := Tick(p.shieldTurns), heat := Cool(p.heat), jam := if p.jam && u < 0.6 then false else p.jam)
  }
}

=== FILE: floor.dfy ===
/**
 * A floor of the facility and its generation: the tile map, the door marks,
 * the explored and in-view masks, the monsters and items on the floor, and
 * `genFloor`, which carves rooms and tunnels into an all-wall map, places the
 * elevators and spawns monsters and items on free tiles.
 *
 * The map is specified by strokes: every carving step of the generator is a
 * `Stroke`, and the map after generation is `Layout` of the strokes drawn in
 * order over an all-wall map.
 */
module Floors {
  import opened Grid
  import opened Entities
  import opened Random

  datatype Option<T> = None | Some(value: T)

  /** A room record: its rectangle and its centre `(floor(x + w/2), floor(y + h/2))`. */
  datatype Room = Room(x: int, y: int, w: int, h: int, cx: int, cy: int)

  /** An item lying on the floor at (x, y). */
  datatype PlacedItem = PlacedItem(x: int, y: int, item: Item)

  const MaxFloor: int := 3
  const MaxRooms: int := 15
  const MaxAttempts: int := 200

  function Center(r: Room): Pos
  {
    Pos(r.cx, r.cy)
  }

  /** The cells `carve` writes: not row 0, not column 0 and not off the grid. */
  predicate Carvable(x: int, y: int)
  {
    0 < x < Width && 0 < y < Height
  }

  predicate InRect(r: Room, x: int, y: int)
  {
    r.x <= x < r.x + r.w && r.y <= y < r.y + r.h
  }

  predicate OnEdge(r: Room, x: int, y: int)
  {
    x == r.x || x == r.x + r.w - 1 || y == r.y || y == r.y + r.h - 1
  }

  /** What `rectRoom`'s nested loops write inside the rectangle: walls on the edge, floor inside. */
  function EdgeTile(r: Room, x: int, y: int): Tile
  {
    if OnEdge(r, x, y) then Wall else Floor
  }

  /** A door on the room's border, away from its four corners. */
  predicate DoorOk(r: Room, d: Pos)
  {
    || ((d.y == r.y || d.y == r.y + r.h - 1) && r.x < d.x < r.x + r.w - 1)
    || ((d.x == r.x || d.x == r.x + r.w - 1) && r.y < d.y < r.y + r.h - 1)
  }

  /** A horizontal corridor leg on row y between columns x1 and x2. */
  predicate HLeg(y: int, x1: int, x2: int, i: int, j: int)
  {
    j == y && Min(x1, x2) <= i <= Max(x1, x2)
  }

  /** A vertical corridor leg on column x between rows y1 and y2. */
  predicate VLeg(x: int, y1: int, y2: int, i: int, j: int)
  {
    i == x && Min(y1, y2) <= j <= Max(y1, y2)
  }

  /** The L-shaped corridor `tunnel` carves from a to b, horizontal leg first or vertical leg first. */
  predicate OnTunnel(horizontalFirst: bool, a: Pos, b: Pos, i: int, j: int)
  {
    if horizontalFirst then HLeg(a.y, a.x, b.x, i, j) || VLeg(b.x, a.y, b.y, i, j)
    else VLeg(a.x, a.y, b.y, i, j) || HLeg(b.y, a.x, b.x, i, j)
  }

  /** Both ends of a corridor lie on it, and so does its corner. */
  lemma TunnelJoins(horizontalFirst: bool, a: Pos, b: Pos)
    ensures OnTunnel(horizontalFirst, a, b, a.x, a.y) && OnTunnel(horizontalFirst, a, b, b.x, b.y)
    ensures horizontalFirst ==> OnTunnel(horizontalFirst, a, b, b.x, a.y)
    ensures !horizontalFirst ==> OnTunnel(horizontalFirst, a, b, a.x, b.y)
  {
  }

  /** One carving step of the generator. */
  datatype Stroke =
    | RoomStroke(room: Room, door: Pos)
    | TunnelStroke(horizontalFirst: bool, a: Pos, b: Pos)
    | Mark(at: Pos, tile: Tile)

  /** The tile at (i, j) after stroke s is carved over tile t. */
  function Painted(s: Stroke, t: Tile, i: int, j: int): Tile
  {
    if !Carvable(i, j) then t
    else
      match s
      case RoomStroke(r, d) =>
        if !InRect(r, i, j) then t
        else if i == d.x && j == d.y then Door
        else EdgeTile(r, i, j)
      case TunnelStroke(hf, a, b) => if OnTunnel(hf, a, b, i, j) then Floor else t
      case Mark(p, m) => if i == p.x && j == p.y then m else t
  }

  /** The tile at (i, j) once the strokes have been carved, in order, into an all-wall map. */
  function Layout(strokes: seq<Stroke>, i: int, j: int): Tile
  {
    if |strokes| == 0 then Wall
    else Painted(strokes[|strokes| - 1], Layout(strokes[..|strokes| - 1], i, j), i, j)
  }

  /** Row 0 and column 0 are never carved: they stay wall whatever is drawn. */
  lemma {:induction false} OuterEdgeStaysWall(strokes: seq<Stroke>, i: int, j: int)
    requires i <= 0 || j <= 0 || i >= Width || j >= Height
    ensures Layout(strokes, i, j) == Wall
  {
    if |strokes| > 0 {
      OuterEdgeStaysWall(strokes[..|strokes| - 1], i, j);
    }
  }

  /** A stroke drawn last decides every cell it covers. */
  lemma LastStrokeWins(strokes: seq<Stroke>, s: Stroke, i: int, j: int)
    requires Carvable(i, j)
    ensures s.Mark? && i == s.at.x && j == s.at.y ==> Layout(strokes + [s], i, j) == s.tile
    ensures s.RoomStroke? && InRect(s.room, i, j) ==>
      Layout(strokes + [s], i, j) == (if i == s.door.x && j == s.door.y then Door else EdgeTile(s.room, i, j))
    ensures s.TunnelStroke? && OnTunnel(s.horizontalFirst, s.a, s.b, i, j) ==> Layout(strokes + [s], i, j) == Floor
  {
    assert (strokes + [s])[..|strokes|] == strokes;
  }

  /** Carving one more stroke changes each cell exactly as `Painted` says. */
  lemma LayoutSnoc(strokes: seq<Stroke>, s: Stroke)
    ensures forall i, j :: Layout(strokes + [s], i, j) == Painted(s, Layout(strokes, i, j), i, j)
  {
    assert (strokes + [s])[..|strokes|] == strokes;
  }

  /** A cell last marked with a walkable tile stays walkable whatever marks follow, as long as they are walkable too. */
  lemma {:induction false} MarksWalkable(strokes: seq<Stroke>, marks: seq<Stroke>, k: int)
    requires 0 <= k < |marks|
    requires forall i :: 0 <= i < |marks| ==> marks[i].Mark? && IsWalkableTile(marks[i].tile)
    requires Carvable(marks[k].at.x, marks[k].at.y)
    ensures IsWalkableTile(Layout(strokes + marks, marks[k].at.x, marks[k].at.y))
  {
    var n := |marks|;
    var p := marks[k].at;
    assert strokes + marks == (strokes + marks[..n - 1]) + [marks[n - 1]];
    LayoutSnoc(strokes + marks[..n - 1], marks[n - 1]);
    if k < n - 1 {
      MarksWalkable(strokes, marks[..n - 1], k);
    }
  }

  /** A room centre lies strictly inside the room, so it is carvable. */
  lemma CenterInside(r: Room)
    requires RoomPlaced(r)
    ensures Carvable(r.cx, r.cy) && InRect(r, r.cx, r.cy) && !OnEdge(r, r.cx, r.cy)
  {
  }

  /** The rectangles `genFloor` draws: 5-12 wide, 4-8 high, with a margin of two tiles right and below. */
  predicate RoomPlaced(r: Room)
  {
    && 5 <= r.w <= 12 && 4 <= r.h <= 8
    && 1 <= r.x <= Width - r.w - 2 && 1 <= r.y <= Height - r.h - 2
    && r.cx == r.x + r.w / 2 && r.cy == r.y + r.h / 2
  }

  /**
   * The candidate one attempt of the room loop draws from generator state s:
   * width, height, then the corner, each from the next state, with the
   * centre rounded down.
   */
  function Candidate(s: int): Room
    requires 0 <= s < Modulus
  {
    var s1 := NextState(s);
    var s2 := NextState(s1);
    var s3 := NextState(s2);
    var w, h := RangeOf(5, 12, s1), RangeOf(4, 8, s2);
    var x, y := RangeOf(1, Width - w - 2, s3), RangeOf(1, Height - h - 2, NextState(s3));
    Room(x, y, w, h, x + w / 2, y + h / 2)
  }

  /**
   * One attempt's candidate: four draws, giving `Candidate` of the state
   * before them. It always fits inside the outer ring of the grid.
   */
  method RollRoom(rng: Rng) returns (r: Room)
    requires rng.Valid()
    modifies rng
    ensures rng.Valid()
    ensures rng.state == NextState(NextState(NextState(NextState(old(rng.state)))))
    ensures r == Candidate(old(rng.state))
    ensures RoomPlaced(r)
  {
    var w := rng.Range(5, 12);
    var h := rng.Range(4, 8);
    var x := rng.Range(1, Width - w - 2);
    var y := rng.Range(1, Height - h - 2);
    r := Room(x, y, w, h, x + w / 2, y + h / 2);
  }

  /** The separation test of the room loop: a clear gap between the rectangles on some axis. */
  predicate Apart(a: Room, b: Room)
  {
    a.x + a.w < b.x || b.x + b.w < a.x || a.y + a.h < b.y || b.y + b.h < a.y
  }

  /** `rooms.some(r => !(...))`: whether the candidate fails the separation test against an accepted room. */
  function Overlaps(rooms: seq<Room>, c: Room): (b: bool)
    ensures b <==> exists k :: 0 <= k < |rooms| && !Apart(c, rooms[k])
  {
    if |rooms| == 0 then false
    else !Apart(c, rooms[|rooms| - 1]) || Overlaps(rooms[..|rooms| - 1], c)
  }

  /** Every room passed the separation test against all rooms accepted before it. */
  predicate Separated(rooms: seq<Room>)
  {
    forall a, b :: 0 <= a < b < |rooms| ==> Apart(rooms[b], rooms[a])
  }

  /** A placed candidate that passes the test against every accepted room keeps the rooms placed and separated. */
  lemma SeparatedSnoc(rooms: seq<Room>, c: Room)
    requires (forall k :: 0 <= k < |rooms| ==> RoomPlaced(rooms[k])) && RoomPlaced(c)
    requires Separated(rooms) && !Overlaps(rooms, c)
    ensures forall k :: 0 <= k < |rooms + [c]| ==> RoomPlaced((rooms + [c])[k])
    ensures Separated(rooms + [c])
  {
  }

  /** Rooms that pass the separation test share no cell, nor even an edge. */
  lemma ApartDisjoint(a: Room, b: Room, i: int, j: int)
    requires Apart(a, b)
    ensures !(InRect(a, i, j) && InRect(b, i, j))
    ensures !(InRect(a, i, j) && InRect(b, i + 1, j)) && !(InRect(a, i, j) && InRect(b, i, j + 1))
  {
  }

  /** Where room k's stroke sits in the stroke list: room 0 first, then room k followed by its tunnel. */
  function RoomIndex(k: nat): nat
  {
    if k == 0 then 0 else 2 * k - 1
  }

  /**
   * The strokes of the room loop: each accepted room with its door, and
   * after every room but the first a tunnel from the previous room's centre
   * to its own.
   */
  ghost predicate Chained(rooms: seq<Room>, doorAt: seq<Pos>, strokes: seq<Stroke>)
  {
    && |doorAt| == |rooms|
    && |strokes| == (if |rooms| == 0 then 0 else 2 * |rooms| - 1)
    && (forall k :: 0 <= k < |rooms| ==>
          strokes[RoomIndex(k)] == RoomStroke(rooms[k], doorAt[k]) && DoorOk(rooms[k], doorAt[k]))
    && (forall k :: 1 <= k < |rooms| ==>
          strokes[2 * k].TunnelStroke? && strokes[2 * k].a == Center(rooms[k - 1]) && strokes[2 * k].b == Center(rooms[k]))
  }

  /** Appending a room and the tunnel that joins it to the previous room keeps the stroke list chained. */
  lemma ChainStep(rooms: seq<Room>, doorAt: seq<Pos>, strokes: seq<Stroke>, room: Room, door: Pos, t: Stroke)
    requires Chained(rooms, doorAt, strokes) && DoorOk(room, door)
    requires |rooms| > 0
    requires t.TunnelStroke? && t.a == Center(rooms[|rooms| - 1]) && t.b == Center(room)
    ensures Chained(rooms + [room], doorAt + [door], strokes + [RoomStroke(room, door), t])
  {
  }

  /** `Math.floor(freeTiles.length * 0.02) + 5` capped at 12. */
  function MonsterQuota(n: nat): int
  {
    Min(12, n / 50 + 5)
  }

  /** `Math.floor(freeTiles.length * 0.01) + 5` capped at 10. */
  function ItemQuota(n: nat): int
  {
    Min(10, n / 100 + 5)
  }

  /** `rand(n)`: `Math.floor(u * n)` for the draw u of `Math.random()`, an index below n. */
  function Rand(u: Unit, n: int): (j: int)
    requires n > 0
    ensures 0 <= j < n
  {
    UnitScale(u, n);
    (u * n as real).Floor
  }

  lemma UnitScale(u: Unit, n: int)
    requires n > 0
    ensures 0.0 <= u * n as real < n as real
  {
  }

  /** `shuffle(a)`: Fisher-Yates from the back, the i-th swap partner drawn as `rand(i + 1)`. */
  method Shuffle(a: array<Pos>, draw: nat -> Unit)
    modifies a
    ensures multiset(a[..]) == multiset(old(a[..]))
    ensures NoDuplicates(old(a[..])) ==> NoDuplicates(a[..])
  {
    var i := a.Length - 1;
    while i > 0
      invariant i < a.Length
      invariant multiset(a[..]) == multiset(old(a[..]))
      invariant NoDuplicates(old(a[..])) ==> NoDuplicates(a[..])
    {
      var j := Rand(draw(i), i + 1);
      ghost var before := a[..];
      a[i], a[j] := a[j], a[i];
      assert a[..] == Swapped(before, i, j);
      SwapKeeps(before, i, j);
      i := i - 1;
    }
  }

  /** s with the entries at i and j exchanged. */
  function Swapped<T>(s: seq<T>, i: int, j: int): seq<T>
    requires 0 <= i < |s| && 0 <= j < |s|
  {
    s[i := s[j]][j := s[i]]
  }

  /** A swap keeps the entries and keeps them distinct. */
  lemma SwapKeeps<T>(s: seq<T>, i: int, j: int)
    requires 0 <= i < |s| && 0 <= j < |s|
    ensures multiset(Swapped(s, i, j)) == multiset(s)
    ensures NoDuplicates(s) ==> NoDuplicates(Swapped(s, i, j))
  {
    var t := Swapped(s, i, j);
    if NoDuplicates(s) {
      forall a, b | 0 <= a < b < |t|
        ensures t[a] != t[b]
      {
        var a' := if a == i then j else if a == j then i else a;
        var b' := if b == i then j else if b == j then i else b;
        assert t[a] == s[a'] && t[b] == s[b'] && a' != b';
      }
    }
  }

  /** The shuffled copy of the free-tile list `genFloor` pops from. */
  method Shuffled(free: seq<Pos>, draw: nat -> Unit) returns (pool: array<Pos>)
    requires forall a, b :: 0 <= a < b < |free| ==> Before(free[a], free[b])
    ensures fresh(pool)
    ensures pool.Length == |free|
    ensures multiset(pool[..]) == multiset(free) && NoDuplicates(pool[..])
  {
    SortedDistinct(free);
    pool := new Pos[|free|](k requires 0 <= k < |free| => free[k]);
    assert pool[..] == free;
    Shuffle(pool, draw);
  }

  /** Row-major order: the order in which the free-tile scan visits cells. */
  predicate Before(p: Pos, q: Pos)
  {
    p.y < q.y || (p.y == q.y && p.x < q.x)
  }

  /** The grid positions of the monsters. */
  function MonsterSpots(es: seq<Monster>): (ps: seq<Pos>)
    ensures |ps| == |es| && forall k :: 0 <= k < |es| ==> ps[k] == Pos(es[k].x, es[k].y)
  {
    if |es| == 0 then [] else MonsterSpots(es[..|es| - 1]) + [Pos(es[|es| - 1].x, es[|es| - 1].y)]
  }

  /** The grid positions of the items on the floor. */
  function ItemSpots(its: seq<PlacedItem>): (ps: seq<Pos>)
    ensures |ps| == |its| && forall k :: 0 <= k < |its| ==> ps[k] == Pos(its[k].x, its[k].y)
  {
    if |its| == 0 then [] else ItemSpots(its[..|its| - 1]) + [Pos(its[|its| - 1].x, its[|its| - 1].y)]
  }

  /** A monster some spawn roll in [0, 9] produces at its own position. */
  ghost predicate RolledMonster(m: Monster)
  {
    exists roll :: 0 <= roll <= 9 && m == SpawnedMonster(roll, Pos(m.x, m.y))
  }

  /** The spots were popped, one by one, from the end of the pool. */
  ghost predicate PoppedFrom(spots: seq<Pos>, pool: seq<Pos>)
  {
    |spots| <= |pool| && forall k :: 0 <= k < |spots| ==> spots[k] == pool[|pool| - 1 - k]
  }

  /** Pops from a pool without repeats never repeat a tile, and every popped tile is from the pool. */
  lemma PopsDistinct(spots: seq<Pos>, pool: seq<Pos>)
    requires PoppedFrom(spots, pool) && NoDuplicates(pool)
    ensures NoDuplicates(spots)
    ensures forall k :: 0 <= k < |spots| ==> spots[k] in multiset(pool)
  {
    forall k | 0 <= k < |spots|
      ensures spots[k] in multiset(pool)
    {
      assert pool[|pool| - 1 - k] in pool;
    }
  }

  /** Monsters popped first, items after them: together they were popped from the pool. */
  lemma SpotsPopped(es: seq<Monster>, its: seq<PlacedItem>, pool: seq<Pos>)
    requires |es| + |its| <= |pool|
    requires forall k :: 0 <= k < |es| ==> Pos(es[k].x, es[k].y) == pool[|pool| - 1 - k]
    requires forall k :: 0 <= k < |its| ==> Pos(its[k].x, its[k].y) == pool[|pool| - 1 - |es| - k]
    ensures PoppedFrom(MonsterSpots(es) + ItemSpots(its), pool)
  {
  }

  /** A list in strict row-major order has no repeats. */
  lemma SortedDistinct(s: seq<Pos>)
    requires forall a, b :: 0 <= a < b < |s| ==> Before(s[a], s[b])
    ensures NoDuplicates(s)
  {
  }

  /**
   * The door `rectRoom` places once the next two generator states are s1 and
   * s2: the side `range(0, 3)` from s1, then a cell of that side away from
   * the corners from s2.
   */
  function DoorOf(r: Room, s1: int, s2: int): Pos
  {
    var side := RangeOf(0, 3, s1);
    if side == 0 then Pos(RangeOf(r.x + 1, r.x + r.w - 2, s2), r.y)
    else if side == 1 then Pos(r.x + r.w - 1, RangeOf(r.y + 1, r.y + r.h - 2, s2))
    else if side == 2 then Pos(RangeOf(r.x + 1, r.x + r.w - 2, s2), r.y + r.h - 1)
    else Pos(r.x, RangeOf(r.y + 1, r.y + r.h - 2, s2))
  }

  /** The room loop's progress: rooms accepted, their doors, the strokes carved, attempts made and the generator state. */
  datatype RoomPlan = RoomPlan(rooms: seq<Room>, doors: seq<Pos>, strokes: seq<Stroke>, attempts: nat, state: int)

  /**
   * One attempt of the room loop from progress p: it draws `Candidate`; a
   * separated candidate gets the door of the next two states and, after the
   * first room, a tunnel whose leg order is the coin of the state after
   * that. A nonzero state stays nonzero, and rooms are only appended.
   */
  function Attempt(p: RoomPlan): (r: RoomPlan)
    requires 0 < p.state < Modulus
    ensures 0 < r.state < Modulus
    ensures r.attempts == p.attempts + 1
    ensures r.rooms == p.rooms || r.rooms == p.rooms + [Candidate(p.state)]
  {
    var s1 := NextState(p.state);
    var s2 := NextState(s1);
    var s3 := NextState(s2);
    var s4 := NextState(s3);
    NextStateNonzero(p.state); NextStateNonzero(s1); NextStateNonzero(s2); NextStateNonzero(s3);
    var c := Candidate(p.state);
    if Overlaps(p.rooms, c) then p.(attempts := p.attempts + 1, state := s4)
    else
      var s5 := NextState(s4);
      var s6 := NextState(s5);
      NextStateNonzero(s4); NextStateNonzero(s5);
      var door := DoorOf(c, s5, s6);
      var carved := p.strokes + [RoomStroke(c, door)];
      if |p.rooms| == 0 then RoomPlan(p.rooms + [c], p.doors + [door], carved, p.attempts + 1, s6)
      else
        var s7 := NextState(s6);
        NextStateNonzero(s6);
        var t := TunnelStroke(RangeOf(0, 1, s7) == 0, Center(p.rooms[|p.rooms| - 1]), Center(c));
        RoomPlan(p.rooms + [c], p.doors + [door], carved + [t], p.attempts + 1, s7)
  }

  /** An attempt whose candidate fails the separation test only spends its four draws. */
  lemma AttemptRejected(p: RoomPlan)
    requires 0 < p.state < Modulus
    requires Overlaps(p.rooms, Candidate(p.state))
    ensures Attempt(p) == p.(attempts := p.attempts + 1, state := NextState(NextState(NextState(NextState(p.state)))))
  {
  }

  /**
   * An attempt whose candidate passes the separation test appends it, its
   * door and its strokes, and leaves the state after the door's two draws
   * and, past the first room, the tunnel's coin.
   */
  lemma AttemptAccepted(p: RoomPlan, q: RoomPlan)
    requires 0 < p.state < Modulus
    requires !Overlaps(p.rooms, Candidate(p.state))
    requires q.rooms == p.rooms + [Candidate(p.state)] && q.attempts == p.attempts + 1
    requires var c := Candidate(p.state);
      var s1 := NextState(NextState(NextState(NextState(NextState(p.state)))));
      var s2 := NextState(s1);
      var carved := p.strokes + [RoomStroke(c, DoorOf(c, s1, s2))];
      && q.doors == p.doors + [DoorOf(c, s1, s2)]
      && (|p.rooms| == 0 ==> q.state == s2 && q.strokes == carved)
      && (|p.rooms| > 0 ==>
            && q.state == NextState(s2)
            && q.strokes == carved + [TunnelStroke(RangeOf(0, 1, q.state) == 0, Center(p.rooms[|p.rooms| - 1]), Center(c))])
    ensures q == Attempt(p)
  {
  }

  /** The room loop of `genFloor` as a function of the generator state: attempts until 15 rooms or 200 attempts. */
  function RoomLoop(p: RoomPlan): (r: RoomPlan)
    requires 0 < p.state < Modulus
    ensures 0 < r.state < Modulus
    ensures |p.rooms| <= |r.rooms| && r.rooms[..|p.rooms|] == p.rooms
    decreases MaxAttempts - p.attempts, 1
  {
    if |p.rooms| >= MaxRooms || p.attempts >= MaxAttempts then p
    else RoomLoopAfter(p)
  }

  /** A loop that has rooms and attempts to spare goes on from the plan its next attempt leaves. */
  lemma RoomLoopStep(p: RoomPlan, q: RoomPlan)
    requires 0 < p.state < Modulus && |p.rooms| < MaxRooms && p.attempts < MaxAttempts
    requires q == Attempt(p)
    ensures 0 < q.state < Modulus && RoomLoop(q) == RoomLoop(p)
  {
    assert RoomLoop(p) == RoomLoopAfter(p);
  }

  /** The room loop once it makes one more attempt from p. */
  function RoomLoopAfter(p: RoomPlan): (r: RoomPlan)
    requires 0 < p.state < Modulus && p.attempts < MaxAttempts
    ensures 0 < r.state < Modulus
    ensures |p.rooms| <= |r.rooms| && r.rooms[..|p.rooms|] == p.rooms
    decreases MaxAttempts - p.attempts, 0
  {
    var q := Attempt(p);
    var r := RoomLoop(q);
    assert r.rooms[..|p.rooms|] == r.rooms[..|q.rooms|][..|p.rooms|];
    r
  }

  /** `ITEM_POOL[rng.range(0, ITEM_POOL.length - 1)]` once the generator state is v. */
  function PoolItem(v: int): (it: Item)
    requires 0 < v < Modulus
    ensures it in ItemPool
  {
    RangeWithin(0, |ItemPool| - 1, v);
    ItemPool[RangeOf(0, |ItemPool| - 1, v)]
  }

  /**
   * Monsters popped from the end of the pool starting at generator state s:
   * the k-th stands on the k-th tile from the end, its kind rolled from the
   * state k + 1 steps after s.
   */
  ghost predicate MonstersRolled(ms: seq<Monster>, pool: seq<Pos>, s: int)
    requires 0 < s < Modulus && |ms| <= |pool|
  {
    forall k :: 0 <= k < |ms| ==> ms[k] == SpawnedMonster(RangeOf(0, 9, Iter(s, k + 1)), pool[|pool| - 1 - k])
  }

  /**
   * Items popped from the first `left` tiles of the pool, from the end,
   * starting at generator state s: the k-th lies on tile left - 1 - k and is
   * the pool entry drawn from the state k + 1 steps after s.
   */
  ghost predicate ItemsDrawn(its: seq<PlacedItem>, pool: seq<Pos>, left: nat, s: int)
    requires 0 < s < Modulus && |its| <= left <= |pool|
  {
    forall k :: 0 <= k < |its| ==> its[k] == PlacedItem(pool[left - 1 - k].x, pool[left - 1 - k].y, PoolItem(Iter(s, k + 1)))
  }

  /** The state of one floor. The four grids are allocated once and updated in place. */
  class FloorState {
    const tiles: array2<Tile>
    const doors: array2<bool>
    const explored: array2<bool>
    const fov: array2<bool>
    var entities: seq<Monster>
    var items: seq<PlacedItem>
    var upPos: Option<Pos>
    var downPos: Option<Pos>
    var exitPos: Option<Pos>

    /** The grids are 80 x 24 (indexed [y, x]) and the three boolean grids are distinct. */
    ghost predicate Shaped()
      reads this
    {
      && tiles.Length0 == Height && tiles.Length1 == Width
      && doors.Length0 == Height && doors.Length1 == Width
      && explored.Length0 == Height && explored.Length1 == Width
      && fov.Length0 == Height && fov.Length1 == Width
      && doors != explored && doors != fov && explored != fov
    }

    /** `baseFloorState()`: all wall, nothing marked, nothing on the floor. */
    constructor ()
      ensures Shaped()
      ensures fresh(tiles) && fresh(doors) && fresh(explored) && fresh(fov)
      ensures forall j, i :: 0 <= j < Height && 0 <= i < Width ==>
        tiles[j, i] == Wall && !doors[j, i] && !explored[j, i] && !fov[j, i]
      ensures entities == [] && items == []
      ensures upPos == None && downPos == None && exitPos == None
    {
      tiles := new Tile[Height, Width]((j, i) => Wall);
      doors := new bool[Height, Width]((j, i) => false);
      explored := new bool[Height, Width]((j, i) => false);
      fov := new bool[Height, Width]((j, i) => false);
      entities := [];
      items := [];
      upPos := None;
      downPos := None;
      exitPos := None;
    }

    /** `isWalkable(f, x, y)`: an off-grid read is undefined, which is not walkable. */
    predicate Walkable(x: int, y: int)
      requires Shaped()
      reads this, tiles
    {
      InBounds(x, y) && IsWalkableTile(tiles[y, x])
    }

    /** `carve(f, x, y, t)`. */
    method Carve(x: int, y: int, t: Tile)
      requires Shaped()
      modifies tiles
      ensures forall j, i :: 0 <= j < Height && 0 <= i < Width ==>
        tiles[j, i] == Painted(Mark(Pos(x, y), t), old(tiles[j, i]), i, j)
    {
      if x > 0 && x < Width && y > 0 && y < Height {
        tiles[y, x] := t;
      }
    }

    /**
     * `rectRoom(f, x, y, w, h)`: wall the rectangle's edge, floor its inside,
     * then put one door on a random side away from the corners.
     */
    method RectRoom(rng: Rng, x: int, y: int, w: int, h: int) returns (room: Room, ghost door: Pos)
      requires Shaped() && rng.Valid()
      requires 0 <= x && x + w <= Width && 0 <= y && y + h <= Height && w >= 3 && h >= 3
      modifies tiles, doors, rng
      ensures rng.Valid()
      ensures room == Room(x, y, w, h, x + w / 2, y + h / 2)
      ensures DoorOk(room, door)
      ensures rng.state == NextState(NextState(old(rng.state))) && door == DoorOf(room, NextState(old(rng.state)), rng.state)
      ensures forall j, i :: 0 <= j < Height && 0 <= i < Width ==>
        tiles[j, i] == Painted(RoomStroke(room, door), old(tiles[j, i]), i, j)
      ensures forall j, i :: 0 <= j < Height && 0 <= i < Width ==>
        doors[j, i] == (old(doors[j, i]) || (i == door.x && j == door.y))
    {
      room := Room(x, y, w, h, x + w / 2, y + h / 2);
      for j := y to y + h
        modifies tiles
        invariant forall jj, ii :: 0 <= jj < Height && 0 <= ii < Width ==>
          tiles[jj, ii] == if jj < j && InRect(room, ii, jj) && Carvable(ii, jj) then EdgeTile(room, ii, jj) else old(tiles[jj, ii])
      {
        for i := x to x + w
          modifies tiles
          invariant forall jj, ii :: 0 <= jj < Height && 0 <= ii < Width ==>
            tiles[jj, ii] ==
              if (jj < j || (jj == j && ii < i)) && InRect(room, ii, jj) && Carvable(ii, jj) then EdgeTile(room, ii, jj)
              else old(tiles[jj, ii])
        {
          if i == x || i == x + w - 1 || j == y || j == y + h - 1 {
            Carve(i, j, Wall);
          } else {
            Carve(i, j, Floor);
          }
        }
      }
      var d := PickDoor(rng, room);
      door := d;
      doors[d.y, d.x] := true;
      Carve(d.x, d.y, Door);
    }

    /** The door draw of `rectRoom`: a side, then a cell of that side away from the corners. */
    static method PickDoor(rng: Rng, room: Room) returns (door: Pos)
      requires rng.Valid() && room.w >= 3 && room.h >= 3
      modifies rng
      ensures rng.Valid()
      ensures rng.state == NextState(NextState(old(rng.state))) && door == DoorOf(room, NextState(old(rng.state)), rng.state)
      ensures DoorOk(room, door)
    {
      var x, y, w, h := room.x, room.y, room.w, room.h;
      var side := rng.Range(0, 3);
      if side == 0 {
        var dx := rng.Range(x + 1, x + w - 2);
        door := Pos(dx, y);
      } else if side == 1 {
        var dy := rng.Range(y + 1, y + h - 2);
        door := Pos(x + w - 1, dy);
      } else if side == 2 {
        var dx := rng.Range(x + 1, x + w - 2);
        door := Pos(dx, y + h - 1);
      } else {
        var dy := rng.Range(y + 1, y + h - 2);
        door := Pos(x, dy);
      }
    }

    /** `tunnel(f, x1, y1, x2, y2)`: an L-shaped floor corridor, the leg order chosen by a coin. */
    method Tunnel(rng: Rng, x1: int, y1: int, x2: int, y2: int) returns (ghost horizontalFirst: bool)
      requires Shaped() && rng.Valid()
      modifies tiles, rng
      ensures rng.Valid()
      ensures rng.state == NextState(old(rng.state)) && horizontalFirst == (RangeOf(0, 1, rng.state) == 0)
      ensures forall j, i :: 0 <= j < Height && 0 <= i < Width ==>
        tiles[j, i] == Painted(TunnelStroke(horizontalFirst, Pos(x1, y1), Pos(x2, y2)), old(tiles[j, i]), i, j)
    {
      var coin := rng.Range(0, 1);
      horizontalFirst := coin == 0;
      if coin == 0 {
        for x := Min(x1, x2) to Max(x1, x2) + 1
          modifies tiles
          invariant forall jj, ii :: 0 <= jj < Height && 0 <= ii < Width ==>
            tiles[jj, ii] == if Carvable(ii, jj) && HLeg(y1, x1, x2, ii, jj) && ii < x then Floor else old(tiles[jj, ii])
        {
          Carve(x, y1, Floor);
        }
        for y := Min(y1, y2) to Max(y1, y2) + 1
          modifies tiles
          invariant forall jj, ii :: 0 <= jj < Height && 0 <= ii < Width ==>
            tiles[jj, ii] ==
              if Carvable(ii, jj) && (HLeg(y1, x1, x2, ii, jj) || (VLeg(x2, y1, y2, ii, jj) && jj < y)) then Floor
              else old(tiles[jj, ii])
        {
          Carve(x2, y, Floor);
        }
      } else {
        for y := Min(y1, y2) to Max(y1, y2) + 1
          modifies tiles
          invariant forall jj, ii :: 0 <= jj < Height && 0 <= ii < Width ==>
            tiles[jj, ii] == if Carvable(ii, jj) && VLeg(x1, y1, y2, ii, jj) && jj < y then Floor else old(tiles[jj, ii])
        {
          Carve(x1, y, Floor);
        }
        for x := Min(x1, x2) to Max(x1, x2) + 1
          modifies tiles
          invariant forall jj, ii :: 0 <= jj < Height && 0 <= ii < Width ==>
            tiles[jj, ii] ==
              if Carvable(ii, jj) && (VLeg(x1, y1, y2, ii, jj) || (HLeg(y2, x1, x2, ii, jj) && ii < x)) then Floor
              else old(tiles[jj, ii])
        {
          Carve(x, y2, Floor);
        }
      }
    }

    /** The room loop's invariant: placed, separated, chained rooms whose strokes and doors the map shows. */
    ghost predicate Laid(rooms: seq<Room>, doorAt: seq<Pos>, strokes: seq<Stroke>)
      requires Shaped()
      reads this, tiles, doors
    {
      && (forall k :: 0 <= k < |rooms| ==> RoomPlaced(rooms[k]))
      && Separated(rooms)
      && Chained(rooms, doorAt, strokes)
      && Drawn(doorAt, strokes)
    }

    /**
     * A carved floor of level fi: the strokes are the room loop's, then the
     * up and down elevators on the first and last room centres, then on the
     * deepest floor with two rooms or more the exit on the second-to-last
     * one; the map, the door marks and the elevator positions agree with
     * them, and both elevators stand on walkable tiles.
     */
    ghost predicate Carved(fi: int, rooms: seq<Room>, doorAt: seq<Pos>, strokes: seq<Stroke>)
      reads this`upPos, this`downPos, this`exitPos, tiles, doors
    {
      var n, exit := |rooms|, fi == MaxFloor - 1 && |rooms| >= 2;
      && 1 <= n && |strokes| >= 2 * n - 1
      && tiles.Length0 == Height && tiles.Length1 == Width && doors.Length0 == Height && doors.Length1 == Width
      && upPos == Some(Center(rooms[0])) && downPos == Some(Center(rooms[n - 1]))
      && exitPos == (if exit then Some(Center(rooms[Max(1, n - 2)])) else None)
      && strokes[2 * n - 1..] ==
           [Mark(Center(rooms[0]), Up), Mark(Center(rooms[n - 1]), Down)] +
           (if exit then [Mark(Center(rooms[Max(1, n - 2)]), Exit)] else [])
      && (forall j, i :: 0 <= j < Height && 0 <= i < Width ==>
            tiles[j, i] == Layout(strokes, i, j) && doors[j, i] == (Pos(i, j) in doorAt))
      && InBounds(rooms[0].cx, rooms[0].cy) && IsWalkableTile(tiles[rooms[0].cy, rooms[0].cx])
      && InBounds(rooms[n - 1].cx, rooms[n - 1].cy) && IsWalkableTile(tiles[rooms[n - 1].cy, rooms[n - 1].cx])
    }

    /** The map and the door marks agree with the strokes carved so far and the doors placed so far. */
    ghost predicate Drawn(doorAt: seq<Pos>, strokes: seq<Stroke>)
      requires Shaped()
      reads this, tiles, doors
    {
      && (forall j, i :: 0 <= j < Height && 0 <= i < Width ==> tiles[j, i] == Layout(strokes, i, j))
      && (forall j, i :: 0 <= j < Height && 0 <= i < Width ==> doors[j, i] == (Pos(i, j) in doorAt))
    }

    /** An accepted room: carve it, and tunnel to it from the previous room's centre. */
    method AddRoom(rng: Rng, rooms: seq<Room>, ghost doorAt: seq<Pos>, ghost strokes: seq<Stroke>, c: Room)
      returns (rooms': seq<Room>, ghost doorAt': seq<Pos>, ghost strokes': seq<Stroke>)
      requires Shaped() && rng.Valid()
      requires RoomPlaced(c)
      requires Chained(rooms, doorAt, strokes) && Drawn(doorAt, strokes)
      modifies tiles, doors, rng
      ensures rng.Valid()
      ensures rooms' == rooms + [c]
      ensures Chained(rooms', doorAt', strokes') && Drawn(doorAt', strokes')
      ensures var s1 := NextState(old(rng.state));
        var s2 := NextState(s1);
        var carved := strokes + [RoomStroke(c, DoorOf(c, s1, s2))];
        && doorAt' == doorAt + [DoorOf(c, s1, s2)]
        && (|rooms| == 0 ==> rng.state == s2 && strokes' == carved)
        && (|rooms| > 0 ==>
              && rng.state == NextState(s2)
              && strokes' == carved + [TunnelStroke(RangeOf(0, 1, rng.state) == 0, Center(rooms[|rooms| - 1]), Center(c))])
    {
      var room, door := RectRoom(rng, c.x, c.y, c.w, c.h);
      LayoutSnoc(strokes, RoomStroke(room, door));
      rooms', doorAt', strokes' := rooms + [room], doorAt + [door], strokes + [RoomStroke(room, door)];
      if |rooms'| > 1 {
        var a, b := rooms'[|rooms'| - 2], rooms'[|rooms'| - 1];
        var horizontalFirst := Tunnel(rng, a.cx, a.cy, b.cx, b.cy);
        ghost var t := TunnelStroke(horizontalFirst, Center(a), Center(b));
        LayoutSnoc(strokes', t);
        ChainStep(rooms, doorAt, strokes, room, door, t);
        strokes' := strokes' + [t];
      }
    }

    /**
     * The room loop of `genFloor`: up to 200 attempts to place up to 15
     * rooms; a candidate that fails the separation test is dropped, an
     * accepted one is carved and tunnelled to the previous room's centre.
     * The first candidate is always accepted, so at least one room is placed.
     */
    method PlaceRooms(rng: Rng) returns (rooms: seq<Room>, attempts: nat, ghost doorAt: seq<Pos>, ghost strokes: seq<Stroke>)
      requires Shaped() && rng.Valid()
      requires forall j, i :: 0 <= j < Height && 0 <= i < Width ==> tiles[j, i] == Wall && !doors[j, i]
      modifies tiles, doors, rng
      ensures rng.Valid()
      ensures 1 <= |rooms| <= MaxRooms && |rooms| <= attempts <= MaxAttempts
      ensures forall k :: 0 <= k < |rooms| ==> RoomPlaced(rooms[k])
      ensures Separated(rooms)
      ensures Chained(rooms, doorAt, strokes) && Drawn(doorAt, strokes)
      ensures RoomPlan(rooms, doorAt, strokes, attempts, rng.state) == RoomLoop(RoomPlan([], [], [], 0, old(rng.state)))
    {
      rooms, attempts, doorAt, strokes := [], 0, [], [];
      ghost var goal := RoomLoop(RoomPlan([], [], [], 0, rng.state));
      while |rooms| < MaxRooms && attempts < MaxAttempts
        decreases MaxAttempts - attempts
        invariant rng.Valid()
        invariant |rooms| <= MaxRooms && |rooms| <= attempts <= MaxAttempts
        invariant attempts > 0 ==> |rooms| > 0
        invariant Laid(rooms, doorAt, strokes)
        invariant RoomLoop(RoomPlan(rooms, doorAt, strokes, attempts, rng.state)) == goal
      {
        rooms, doorAt, strokes := TryRoom(rng, rooms, doorAt, strokes, attempts);
        attempts := attempts + 1;
      }
    }

    /**
     * One attempt of the room loop: roll a candidate and keep it when it is
     * clear of every room so far. The plan it leaves is `Attempt` of the plan
     * it found, so both run on to the same final plan.
     */
    method TryRoom(rng: Rng, rooms: seq<Room>, ghost doorAt: seq<Pos>, ghost strokes: seq<Stroke>, attempts: nat)
      returns (rooms': seq<Room>, ghost doorAt': seq<Pos>, ghost strokes': seq<Stroke>)
      requires Shaped() && rng.Valid()
      requires |rooms| < MaxRooms && attempts < MaxAttempts
      requires Laid(rooms, doorAt, strokes)
      modifies tiles, doors, rng
      ensures rng.Valid()
      ensures 0 < |rooms'| <= |rooms| + 1
      ensures Laid(rooms', doorAt', strokes')
      ensures RoomLoop(RoomPlan(rooms', doorAt', strokes', attempts + 1, rng.state)) == RoomLoop(RoomPlan(rooms, doorAt, strokes, attempts, old(rng.state)))
    {
      ghost var before := RoomPlan(rooms, doorAt, strokes, attempts, rng.state);
      var candidate := RollRoom(rng);
      if Overlaps(rooms, candidate) {
        rooms', doorAt', strokes' := rooms, doorAt, strokes;
        AttemptRejected(before);
        RoomLoopStep(before, RoomPlan(rooms', doorAt', strokes', attempts + 1, rng.state));
      } else {
        SeparatedSnoc(rooms, candidate);
        rooms', doorAt', strokes' := AddRoom(rng, rooms, doorAt, strokes, candidate);
        ghost var after := RoomPlan(rooms', doorAt', strokes', attempts + 1, rng.state);
        AttemptAccepted(before, after);
        RoomLoopStep(before, after);
      }
    }

    /** A free tile: inside the outer ring, walkable, not a door and not an elevator. */
    ghost predicate Free(p: Pos)
      requires Shaped()
      reads this, tiles, doors
    {
      && 1 <= p.y < Height - 1 && 1 <= p.x < Width - 1
      && Walkable(p.x, p.y) && !doors[p.y, p.x]
      && upPos != Some(p) && downPos != Some(p)
    }

    /** The free-tile scan of `genFloor`: every free tile, in row-major order. */
    method FreeTiles() returns (free: seq<Pos>)
      requires Shaped() && upPos.Some? && downPos.Some?
      ensures forall k :: 0 <= k < |free| ==> Free(free[k])
      ensures forall p :: Free(p) ==> p in free
      ensures forall a, b :: 0 <= a < b < |free| ==> Before(free[a], free[b])
    {
      free := [];
      for y := 1 to Height - 1
        invariant forall k :: 0 <= k < |free| ==> Free(free[k]) && free[k].y < y
        invariant forall p :: Free(p) && p.y < y ==> p in free
        invariant forall a, b :: 0 <= a < b < |free| ==> Before(free[a], free[b])
      {
        for x := 1 to Width - 1
          invariant forall k :: 0 <= k < |free| ==> Free(free[k]) && Before(free[k], Pos(x, y))
          invariant forall p :: Free(p) && Before(p, Pos(x, y)) ==> p in free
          invariant forall a, b :: 0 <= a < b < |free| ==> Before(free[a], free[b])
        {
          var up, down := upPos.value, downPos.value;
          if Walkable(x, y) && !doors[y, x] && !(x == up.x && y == up.y) && !(x == down.x && y == down.y) {
            free := free + [Pos(x, y)];
          }
        }
      }
    }

    /**
     * The elevator block of `genFloor`: the up elevator at the first room's
     * centre, the down elevator at the last room's centre and, on the deepest
     * floor, the exit at the centre of room max(1, n - 2). With a single room
     * that index is past the end and the source throws; the model reports it
     * as `ok == false` and carves no exit.
     */
    method Elevators(fi: int, rooms: seq<Room>, ghost strokes: seq<Stroke>) returns (ok: bool, ghost marks: seq<Stroke>)
      requires Shaped() && |rooms| >= 1
      requires forall j, i :: 0 <= j < Height && 0 <= i < Width ==> tiles[j, i] == Layout(strokes, i, j)
      modifies tiles, `upPos, `downPos, `exitPos
      ensures ok <==> (fi != MaxFloor - 1 || |rooms| >= 2)
      ensures upPos == Some(Center(rooms[0])) && downPos == Some(Center(rooms[|rooms| - 1]))
      ensures exitPos == (if fi == MaxFloor - 1 && ok then Some(Center(rooms[Max(1, |rooms| - 2)])) else old(exitPos))
      ensures marks == [Mark(Center(rooms[0]), Up), Mark(Center(rooms[|rooms| - 1]), Down)] +
        (if fi == MaxFloor - 1 && ok then [Mark(Center(rooms[Max(1, |rooms| - 2)]), Exit)] else [])
      ensures forall j, i :: 0 <= j < Height && 0 <= i < Width ==> tiles[j, i] == Layout(strokes + marks, i, j)
    {
      var first, last := rooms[0], rooms[|rooms| - 1];
      upPos := Some(Pos(first.cx, first.cy));
      Carve(first.cx, first.cy, Up);
      LayoutSnoc(strokes, Mark(Center(first), Up));
      downPos := Some(Pos(last.cx, last.cy));
      Carve(last.cx, last.cy, Down);
      marks := [Mark(Center(first), Up), Mark(Center(last), Down)];
      LayoutSnoc(strokes + marks[..1], marks[1]);
      assert strokes + marks[..1] + [marks[1]] == strokes + marks;
      ok := true;
      if fi == MaxFloor - 1 {
        if |rooms| < 2 {
          ok := false;
          return;
        }
        var e := rooms[Max(1, |rooms| - 2)];
        exitPos := Some(Pos(e.cx, e.cy));
        Carve(e.cx, e.cy, Exit);
        LayoutSnoc(strokes + marks, Mark(Center(e), Exit));
        marks := marks + [Mark(Center(e), Exit)];
        assert strokes + marks == strokes + marks[..2] + [marks[2]];
      }
    }

    /**
     * The monster loop of `genFloor`: min(12, floor(n * 0.02) + 5) pops from
     * the end of the shuffled free-tile list of length n, stopping early when
     * it runs dry, each with a kind roll in [0, 9].
     */
    method SpawnMonsters(rng: Rng, pool: seq<Pos>) returns (top: nat)
      requires rng.Valid() && entities == []
      modifies `entities, rng
      ensures rng.Valid()
      ensures top == |pool| - Min(MonsterQuota(|pool|), |pool|)
      ensures |entities| == |pool| - top
      ensures forall k :: 0 <= k < |entities| ==>
        Pos(entities[k].x, entities[k].y) == pool[|pool| - 1 - k] && RolledMonster(entities[k])
      ensures rng.state == Iter(old(rng.state), |entities|)
      ensures MonstersRolled(entities, pool, old(rng.state))
    {
      var mobs := MonsterQuota(|pool|);
      top := |pool|;
      for n := 0 to mobs
        invariant rng.Valid()
        invariant top == |pool| - Min(n, |pool|) && |entities| == |pool| - top
        invariant forall k :: 0 <= k < |entities| ==>
          Pos(entities[k].x, entities[k].y) == pool[|pool| - 1 - k] && RolledMonster(entities[k])
        invariant rng.state == Iter(old(rng.state), |entities|)
        invariant forall k :: 0 <= k < |entities| ==>
          entities[k] == SpawnedMonster(RangeOf(0, 9, Iter(old(rng.state), k + 1)), pool[|pool| - 1 - k])
      {
        if top == 0 {
          break;
        }
        var t := pool[top - 1];
        top := top - 1;
        var roll := rng.Range(0, 9);
        entities := entities + [SpawnedMonster(roll, t)];
      }
    }

    /**
     * The item loop of `genFloor`: min(10, floor(r * 0.01) + 5) pops from the
     * r tiles left, each item a fresh copy of a pool entry drawn uniformly.
     */
    method SpawnItems(rng: Rng, pool: seq<Pos>, left: nat) returns (top: nat)
      requires rng.Valid() && items == [] && left <= |pool|
      modifies `items, rng
      ensures rng.Valid()
      ensures top == left - Min(ItemQuota(left), left)
      ensures |items| == left - top
      ensures rng.state == Iter(old(rng.state), |items|)
      ensures forall k :: 0 <= k < |items| ==>
        Pos(items[k].x, items[k].y) == pool[left - 1 - k] && items[k].item in ItemPool
      ensures ItemsDrawn(items, pool, left, old(rng.state))
    {
      var drops := ItemQuota(left);
      top := left;
      for n := 0 to drops
        invariant rng.Valid()
        invariant top == left - Min(n, left) && |items| == left - top
        invariant forall k :: 0 <= k < |items| ==>
          Pos(items[k].x, items[k].y) == pool[left - 1 - k] && items[k].item in ItemPool
        invariant rng.state == Iter(old(rng.state), |items|)
        invariant forall k :: 0 <= k < |items| ==> items[k] == PlacedItem(pool[left - 1 - k].x, pool[left - 1 - k].y, PoolItem(Iter(old(rng.state), k + 1)))
      {
        if top == 0 {
          break;
        }
        var t := pool[top - 1];
        top := top - 1;
        var pick := rng.Range(0, |ItemPool| - 1);
        assert rng.state == Iter(old(rng.state), |items| + 1);
        assert ItemPool[pick] == PoolItem(rng.state);
        items := items + [PlacedItem(t.x, t.y, ItemPool[pick])];
      }
    }

    /**
     * The spawning half of `genFloor`: list the free tiles, shuffle them, pop
     * the monsters, the boss on the deepest floor, then the items. With no
     * tile left for the boss the source throws; the model reports `ok == false`.
     */
    method Populate(deepest: bool, rng: Rng, draw: nat -> Unit) returns (ok: bool, free: seq<Pos>, ghost pool: seq<Pos>)
      requires Shaped() && rng.Valid() && upPos.Some? && downPos.Some?
      requires entities == [] && items == []
      modifies `entities, `items, rng
      ensures rng.Valid()
      ensures forall k :: 0 <= k < |free| ==> Free(free[k])
      ensures forall p :: Free(p) ==> p in free
      ensures multiset(pool) == multiset(free)
      ensures ok <==> (!deepest || |free| > Min(MonsterQuota(|free|), |free|))
      ensures ok ==> Spawned(deepest, |free|)
      ensures ok ==> SpawnedFrom(deepest, pool, old(rng.state), rng.state)
    {
      free := FreeTiles();
      var shuffled := Shuffled(free, draw);
      pool := shuffled[..];
      ok := Spawn(deepest, rng, shuffled[..]);
      if ok {
        SpotsFree(MonsterSpots(entities) + ItemSpots(items), free, pool);
      }
    }

    /**
     * The spawning half of `genFloor` on a floor carved for level fi: the
     * layout stays as carved, and the floor is complete and ready to play
     * exactly when the deepest floor finds a tile for its boss.
     */
    method Stock(fi: int, rng: Rng, draw: nat -> Unit, ghost rooms: seq<Room>, ghost doorAt: seq<Pos>, ghost strokes: seq<Stroke>)
      returns (ok: bool, free: seq<Pos>, ghost pool: seq<Pos>)
      requires Shaped() && rng.Valid() && entities == [] && items == []
      requires Carved(fi, rooms, doorAt, strokes) && (fi != MaxFloor - 1 || |rooms| >= 2)
      modifies `entities, `items, rng
      ensures rng.Valid() && Carved(fi, rooms, doorAt, strokes)
      ensures ok <==> Completes(fi, |rooms|, |free|)
      ensures ok ==> (forall k :: 0 <= k < |free| ==> Free(free[k])) && (forall p :: Free(p) ==> p in free)
      ensures ok ==> Spawned(fi == MaxFloor - 1, |free|) && Ready()
      ensures ok ==> multiset(pool) == multiset(free) && SpawnedFrom(fi == MaxFloor - 1, pool, old(rng.state), rng.state)
    {
      ok, free, pool := Populate(fi == MaxFloor - 1, rng, draw);
      if ok {
        SpawnedReady(fi == MaxFloor - 1, |free|);
      }
    }

    /**
     * The spawns `genFloor` makes from the shuffled pool, starting from
     * generator state s and ending in state s': the monsters popped first,
     * each kind rolled from the next state in turn; the boss on the deepest
     * floor; then the items, each pool entry drawn from the next state in turn.
     */
    ghost predicate SpawnedFrom(deepest: bool, pool: seq<Pos>, s: int, s': int)
      requires 0 < s < Modulus
      reads this
    {
      var m := |entities| - if deepest then 1 else 0;
      && 0 <= m && |entities| + |items| <= |pool|
      && MonstersRolled(entities[..m], pool, s)
      && (deepest ==> entities[m] == NewBoss(pool[|pool| - 1 - m]))
      && ItemsDrawn(items, pool, |pool| - |entities|, Iter(s, m))
      && s' == Iter(Iter(s, m), |items|)
    }

    /** The pops from the shuffled pool: monsters, the boss on the deepest floor, then items. */
    method Spawn(deepest: bool, rng: Rng, pool: seq<Pos>) returns (ok: bool)
      requires rng.Valid() && entities == [] && items == []
      modifies `entities, `items, rng
      ensures rng.Valid()
      ensures ok <==> (!deepest || |pool| > Min(MonsterQuota(|pool|), |pool|))
      ensures ok ==> Counted(deepest, |pool|) && PoppedFrom(MonsterSpots(entities) + ItemSpots(items), pool)
      ensures ok ==> SpawnedFrom(deepest, pool, old(rng.state), rng.state)
    {
      var top := SpawnMonsters(rng, pool);
      ghost var mons, t := entities, rng.state;
      if deepest {
        if top == 0 {
          ok := false;
          return;
        }
        entities := entities + [NewBoss(pool[top - 1])];
        top := top - 1;
      }
      var rest := SpawnItems(rng, pool, top);
      ok := true;
      SpawnsCounted(deepest, pool, mons, top);
      SpawnsTraced(deepest, pool, mons, old(rng.state), top, rng.state);
    }

    /** The counts, kinds and tiles of the three pops of `Spawn`: monsters, the boss on the deepest floor, then items. */
    lemma SpawnsCounted(deepest: bool, pool: seq<Pos>, mons: seq<Monster>, left: nat)
      requires |mons| == Min(MonsterQuota(|pool|), |pool|)
      requires |mons| + (if deepest then 1 else 0) + left == |pool|
      requires forall k :: 0 <= k < |mons| ==> Pos(mons[k].x, mons[k].y) == pool[|pool| - 1 - k] && RolledMonster(mons[k])
      requires entities == if deepest then mons + [NewBoss(pool[left])] else mons
      requires |items| == Min(ItemQuota(left), left)
      requires forall k :: 0 <= k < |items| ==> Pos(items[k].x, items[k].y) == pool[left - 1 - k] && items[k].item in ItemPool
      ensures Counted(deepest, |pool|) && PoppedFrom(MonsterSpots(entities) + ItemSpots(items), pool)
    {
      SpotsPopped(entities, items, pool);
    }

    /**
     * The draws of the three pops of `Spawn`: monsters rolled from state s,
     * the boss on the deepest floor, then items drawn from the state the
     * monsters leave.
     */
    lemma SpawnsTraced(deepest: bool, pool: seq<Pos>, mons: seq<Monster>, s: int, left: nat, s': int)
      requires 0 < s < Modulus
      requires |mons| + (if deepest then 1 else 0) + left == |pool| && |items| <= left
      requires MonstersRolled(mons, pool, s)
      requires entities == if deepest then mons + [NewBoss(pool[left])] else mons
      requires ItemsDrawn(items, pool, left, Iter(s, |mons|))
      requires s' == Iter(Iter(s, |mons|), |items|)
      ensures SpawnedFrom(deepest, pool, s, s')
    {
      var m := |mons|;
      assert |entities| - (if deepest then 1 else 0) == m && |pool| - |entities| == left;
      assert entities[..m] == mons;
      assert MonstersRolled(entities[..m], pool, s);
      assert ItemsDrawn(items, pool, |pool| - |entities|, Iter(s, m));
      assert deepest ==> entities[m] == NewBoss(pool[|pool| - 1 - m]);
    }

    /** Tiles popped from a shuffle of the free-tile list are distinct free tiles. */
    lemma SpotsFree(spots: seq<Pos>, free: seq<Pos>, pool: seq<Pos>)
      requires Shaped()
      requires forall k :: 0 <= k < |free| ==> Free(free[k])
      requires multiset(pool) == multiset(free) && NoDuplicates(pool)
      requires PoppedFrom(spots, pool)
      ensures NoDuplicates(spots) && forall k :: 0 <= k < |spots| ==> Free(spots[k])
    {
      PopsDistinct(spots, pool);
      forall k | 0 <= k < |spots|
        ensures Free(spots[k])
      {
        assert spots[k] in multiset(free);
      }
    }

    /** The monster and item counts and kinds `genFloor` promises once it completes. */
    ghost predicate Spawned(deepest: bool, n: nat)
      requires Shaped()
      reads this, tiles, doors
    {
      var spots := MonsterSpots(entities) + ItemSpots(items);
      && Counted(deepest, n)
      && NoDuplicates(spots)
      && (forall k :: 0 <= k < |spots| ==> Free(spots[k]))
    }

    /** The monster and item counts and kinds for n free tiles. */
    ghost predicate Counted(deepest: bool, n: nat)
      reads this
    {
      var m := Min(MonsterQuota(n), n);
      var b := if deepest then 1 else 0;
      && m + b <= n
      && |entities| == m + b
      && |items| == Min(ItemQuota(n - m - b), n - m - b)
      && (forall k :: 0 <= k < m ==> RolledMonster(entities[k]))
      && (deepest ==> entities[m] == NewBoss(Pos(entities[m].x, entities[m].y)))
      && (forall k :: 0 <= k < |items| ==> items[k].item in ItemPool)
    }

    /**
     * A floor ready for play: both elevators stand on walkable tiles, every
     * monster stands on a walkable tile of its own and satisfies the monster
     * invariant, and every item lies on the grid and is sound.
     */
    ghost predicate Ready()
      reads this, tiles
    {
      && Shaped()
      && upPos.Some? && downPos.Some?
      && InBounds(upPos.value.x, upPos.value.y) && IsWalkableTile(tiles[upPos.value.y, upPos.value.x])
      && InBounds(downPos.value.x, downPos.value.y) && IsWalkableTile(tiles[downPos.value.y, downPos.value.x])
      && (forall k :: 0 <= k < |entities| ==>
            InBounds(entities[k].x, entities[k].y) && IsWalkableTile(tiles[entities[k].y, entities[k].x]) && MonsterOk(entities[k]))
      && OnePerTile(entities)
      && (forall k :: 0 <= k < |items| ==> InBounds(items[k].x, items[k].y) && ItemOk(items[k].item))
    }

    /** A completed spawn on a floor whose elevators are walkable leaves the floor ready for play. */
    lemma SpawnedReady(deepest: bool, n: nat)
      requires Shaped() && upPos.Some? && downPos.Some?
      requires Walkable(upPos.value.x, upPos.value.y) && Walkable(downPos.value.x, downPos.value.y)
      requires Spawned(deepest, n)
      ensures Ready()
    {
      var spots := MonsterSpots(entities) + ItemSpots(items);
      var m := Min(MonsterQuota(n), n);
      forall k | 0 <= k < |entities|
        ensures Walkable(entities[k].x, entities[k].y) && MonsterOk(entities[k])
      {
        assert spots[k] == Pos(entities[k].x, entities[k].y);
        assert Free(spots[k]);
        if k < m {
          var roll :| 0 <= roll <= 9 && entities[k] == SpawnedMonster(roll, Pos(entities[k].x, entities[k].y));
          SpawnsOk(roll, Pos(entities[k].x, entities[k].y));
        } else {
          SpawnsOk(0, Pos(entities[k].x, entities[k].y));
        }
      }
      forall k | 0 <= k < |items|
        ensures InBounds(items[k].x, items[k].y) && ItemOk(items[k].item)
      {
        assert spots[|entities| + k] == Pos(items[k].x, items[k].y);
        assert Free(spots[|entities| + k]);
        PoolOk();
      }
      forall a, b | 0 <= a < b < |entities|
        ensures entities[a].x != entities[b].x || entities[a].y != entities[b].y
      {
        assert spots[a] == Pos(entities[a].x, entities[a].y) && spots[b] == Pos(entities[b].x, entities[b].y);
      }
    }
  }

  /**
   * Whether `genFloor(fi)` returns rather than throws, given the number of
   * rooms placed and of free tiles found: only the deepest floor can throw,
   * when it has a single room (`rooms[1]` is undefined) or when the monster
   * pops leave no tile for the boss.
   */
  predicate Completes(fi: int, rooms: nat, tiles: nat)
  {
    fi != MaxFloor - 1 || (rooms >= 2 && tiles > Min(MonsterQuota(tiles), tiles))
  }

  /**
   * The layout half of `genFloor(fi)`: a fresh all-wall floor with rooms,
   * tunnels and elevators, and no monster or item yet. `ok == false` stands
   * for the deepest floor with a single room, where the source throws.
   */
  method CarveFloor(fi: int, rng: Rng) returns (f: FloorState, ok: bool, rooms: seq<Room>, ghost doorAt: seq<Pos>, ghost strokes: seq<Stroke>)
    requires rng.Valid()
    modifies rng
    ensures rng.Valid() && fresh(f) && fresh(f.tiles) && fresh(f.doors) && fresh(f.explored) && fresh(f.fov)
    ensures f.Shaped() && f.entities == [] && f.items == []
    ensures 1 <= |rooms| <= MaxRooms && (forall k :: 0 <= k < |rooms| ==> RoomPlaced(rooms[k])) && Separated(rooms)
    ensures ok <==> fi != MaxFloor - 1 || |rooms| >= 2
    ensures |strokes| >= 2 * |rooms| - 1
    ensures Chained(rooms, doorAt, strokes[..2 * |rooms| - 1])
    ensures f.Carved(fi, rooms, doorAt, strokes)
    ensures var plan := RoomLoop(RoomPlan([], [], [], 0, old(rng.state)));
      rooms == plan.rooms && doorAt == plan.doors && strokes[..2 * |rooms| - 1] == plan.strokes && rng.state == plan.state
    ensures forall j, i :: 0 <= j < Height && 0 <= i < Width ==> !f.explored[j, i] && !f.fov[j, i]
  {
    f := new FloorState();
    var attempts;
    rooms, attempts, doorAt, strokes := f.PlaceRooms(rng);
    ghost var placed := strokes;
    ghost var marks;
    ok, marks := f.Elevators(fi, rooms, strokes);
    strokes := strokes + marks;
    assert strokes[..2 * |rooms| - 1] == placed;
    ElevatorsWalkable(fi, rooms, placed, marks);
  }

  /**
   * `genFloor(fi)`: a fresh all-wall floor with rooms, tunnels, elevators,
   * monsters and items. `ok == false` stands for the two ways the source
   * throws: the deepest floor with a single room, or no free tile left for
   * the boss.
   */
  method GenFloor(fi: int, rng: Rng, draw: nat -> Unit)
    returns (f: FloorState, ok: bool, rooms: seq<Room>, ghost doorAt: seq<Pos>, ghost strokes: seq<Stroke>, free: seq<Pos>, ghost pool: seq<Pos>)
    requires rng.Valid()
    modifies rng
    ensures rng.Valid() && fresh(f) && fresh(f.tiles) && fresh(f.doors) && fresh(f.explored) && fresh(f.fov)
    ensures f.Shaped()
    ensures 1 <= |rooms| <= MaxRooms && (forall k :: 0 <= k < |rooms| ==> RoomPlaced(rooms[k])) && Separated(rooms)
    ensures ok ==> fi != MaxFloor - 1 || |rooms| >= 2
    ensures ok <==> Completes(fi, |rooms|, |free|)
    ensures |strokes| >= 2 * |rooms| - 1
    ensures ok ==> Chained(rooms, doorAt, strokes[..2 * |rooms| - 1]) && f.Carved(fi, rooms, doorAt, strokes)
    ensures ok ==> (forall k :: 0 <= k < |free| ==> f.Free(free[k])) && (forall p :: f.Free(p) ==> p in free)
    ensures ok ==> f.Spawned(fi == MaxFloor - 1, |free|) && f.Ready()
    ensures var plan := RoomLoop(RoomPlan([], [], [], 0, old(rng.state)));
      && rooms == plan.rooms && doorAt == plan.doors && strokes[..2 * |rooms| - 1] == plan.strokes
      && (ok ==> multiset(pool) == multiset(free) && f.SpawnedFrom(fi == MaxFloor - 1, pool, plan.state, rng.state))
    ensures forall j, i :: 0 <= j < Height && 0 <= i < Width ==> !f.explored[j, i] && !f.fov[j, i]
  {
    f, ok, rooms, doorAt, strokes := CarveFloor(fi, rng);
    free, pool := [], [];
    if ok {
      ok, free, pool := f.Stock(fi, rng, draw, rooms, doorAt, strokes);
    }
  }

  /** Every elevator mark lands on a carvable room centre, so each elevator tile is walkable. */
  lemma ElevatorsWalkable(fi: int, rooms: seq<Room>, placed: seq<Stroke>, marks: seq<Stroke>)
    requires 1 <= |rooms| && forall k :: 0 <= k < |rooms| ==> RoomPlaced(rooms[k])
    requires marks == [Mark(Center(rooms[0]), Up), Mark(Center(rooms[|rooms| - 1]), Down)] +
        (if fi == MaxFloor - 1 && |rooms| >= 2 then [Mark(Center(rooms[Max(1, |rooms| - 2)]), Exit)] else [])
    ensures IsWalkableTile(Layout(placed + marks, rooms[0].cx, rooms[0].cy))
    ensures IsWalkableTile(Layout(placed + marks, rooms[|rooms| - 1].cx, rooms[|rooms| - 1].cy))
  {
    CenterInside(rooms[0]);
    CenterInside(rooms[|rooms| - 1]);
    MarksWalkable(placed, marks, 0);
    MarksWalkable(placed, marks, 1);
  }

}

=== FILE: fov.dfy ===
/**
 * The player's field of view: `recomputeFOV` clears the in-view mask, then
 * marks in view, and explored, every cell on the grid within the view
 * radius that the line-of-sight walk reaches. The grid the walk reads is the
 * floor's own tile map, passed explicitly.
 */
module Fov {
  import opened Grid
  import opened Sight
  import opened Floors

  /** `LOS_RADIUS`. */
  const Radius: int := 8

  /** Whether a player at (px, py) sees the cell (x, y) of map m. */
  predicate InView(m: array2<Tile>, px: int, py: int, x: int, y: int)
    reads m
    requires Sized(m)
  {
    InBounds(x, y) && DistSq(x - px, y - py) <= Radius * Radius && Sight.Sight(m, px, py, x, y)
  }

  /** A cell in view lies inside the square the scan visits. */
  lemma InViewNear(m: array2<Tile>, px: int, py: int, x: int, y: int)
    requires Sized(m)
    requires InView(m, px, py, x, y)
    ensures Abs(x - px) <= Radius && Abs(y - py) <= Radius
  {
    if Abs(x - px) > Radius {
      FarOnAxis(x - px, y - py, Radius);
    }
    if Abs(y - py) > Radius {
      FarOnAxis(y - py, x - px, Radius);
    }
  }

  /** Every cell outside the square of side 2 * Radius + 1 around the player is out of view. */
  lemma OutsideSquare(m: array2<Tile>, px: int, py: int, x: int, y: int)
    requires Sized(m)
    requires Abs(x - px) > Radius || Abs(y - py) > Radius
    ensures !InView(m, px, py, x, y)
  {
    if InView(m, px, py, x, y) {
      InViewNear(m, px, py, x, y);
    }
  }

  /** The player's own cell and the eight around it are always in view when on the grid. */
  lemma NeighboursInView(m: array2<Tile>, px: int, py: int, x: int, y: int)
    requires Sized(m)
    requires InBounds(x, y) && Abs(x - px) <= 1 && Abs(y - py) <= 1
    ensures InView(m, px, py, x, y)
  {
    SightAdjacent(m, px, py, x, y);
    assert (x - px) * (x - px) <= 1 && (y - py) * (y - py) <= 1;
  }

  /** Removing walls never hides a cell that was in view. */
  lemma ViewMonotone(m1: array2<Tile>, m2: array2<Tile>, px: int, py: int, x: int, y: int)
    requires Sized(m1) && Sized(m2)
    requires forall i, j :: InBounds(i, j) && m2[j, i] == Wall ==> m1[j, i] == Wall
    requires InView(m1, px, py, x, y)
    ensures InView(m2, px, py, x, y)
  {
    SightMonotone(m1, m2, px, py, x, y);
  }

  /**
   * `recomputeFOV(px, py)`: afterwards a cell is in view exactly when the
   * player sees it, and it is explored when it was explored before or is
   * in view now.
   */
  method RecomputeFov(f: FloorState, px: int, py: int)
    requires f.Shaped()
    modifies f.fov, f.explored
    ensures forall y, x :: 0 <= y < Height && 0 <= x < Width ==>
      f.fov[y, x] == InView(f.tiles, px, py, x, y)
    ensures forall y, x :: 0 <= y < Height && 0 <= x < Width ==>
      f.explored[y, x] == (old(f.explored[y, x]) || f.fov[y, x])
  {
    for y := 0 to Height
      invariant forall j, i :: 0 <= j < Height && 0 <= i < Width ==>
        (j < y ==> !f.fov[j, i]) && f.explored[j, i] == old(f.explored[j, i])
    {
      for x := 0 to Width
        invariant forall j, i :: 0 <= j < Height && 0 <= i < Width ==>
          ((j < y || (j == y && i < x)) ==> !f.fov[j, i]) && f.explored[j, i] == old(f.explored[j, i])
      {
        f.fov[y, x] := false;
      }
    }
    forall j, i | 0 <= j < py - Radius && 0 <= i < Width
      ensures !InView(f.tiles, px, py, i, j)
    {
      OutsideSquare(f.tiles, px, py, i, j);
    }
    for y := py - Radius to py + Radius + 1
      invariant forall j, i :: 0 <= j < Height && 0 <= i < Width ==>
        f.fov[j, i] == (j < y && InView(f.tiles, px, py, i, j))
      invariant forall j, i :: 0 <= j < Height && 0 <= i < Width ==>
        f.explored[j, i] == (old(f.explored[j, i]) || f.fov[j, i])
    {
      forall i | 0 <= i < px - Radius
        ensures !InView(f.tiles, px, py, i, y)
      {
        OutsideSquare(f.tiles, px, py, i, y);
      }
      for x := px - Radius to px + Radius + 1
        invariant forall j, i :: 0 <= j < Height && 0 <= i < Width ==>
          f.fov[j, i] == ((j < y || (j == y && i < x)) && InView(f.tiles, px, py, i, j))
        invariant forall j, i :: 0 <= j < Height && 0 <= i < Width ==>
          f.explored[j, i] == (old(f.explored[j, i]) || f.fov[j, i])
      {
        var dx, dy := x - px, y - py;
        if dx * dx + dy * dy > Radius * Radius {
          continue;
        }
        if !InBounds(x, y) {
          continue;
        }
        var seen, _ := Visible(f.tiles, px, py, x, y);
        if seen {
          f.fov[y, x] := true;
          f.explored[y, x] := true;
        }
      }
      forall i | px + Radius < i < Width
        ensures !InView(f.tiles, px, py, i, y)
      {
        OutsideSquare(f.tiles, px, py, i, y);
      }
    }
    forall j, i | py + Radius < j < Height && 0 <= i < Width
      ensures !InView(f.tiles, px, py, i, j)
    {
      OutsideSquare(f.tiles, px, py, i, j);
    }
  }
}

=== FILE: game.dfy ===
/**
 * The running game: three generated floors, the current floor index, the
 * player's stat block and the shared generator; the player's actions, the
 * monsters' turn and the elevators. The draws of `Math.random()` an action
 * makes (critical hits, wear, misfire, jam, jam clearing) are parameters of
 * type `Unit`; the seeded generator is the `Rng` object and is advanced in
 * place.
 */
module World {
  import opened Grid
  import opened Random
  import opened Sight
  import opened Entities
  import opened Floors
  import opened Fov

  /** `f.entities.find(e => e.x === x && e.y === y)` as an index: the first monster at (x, y), or -1. */
  function MonsterAt(es: seq<Monster>, x: int, y: int): (k: int)
    ensures -1 <= k < |es|
    ensures k >= 0 ==> es[k].x == x && es[k].y == y
    ensures forall j :: 0 <= j < |es| && (k < 0 || j < k) ==> !(es[j].x == x && es[j].y == y)
  {
    if |es| == 0 then -1
    else if es[0].x == x && es[0].y == y then 0
    else
      var k := MonsterAt(es[1..], x, y);
      if k < 0 then -1 else k + 1
  }

  /** `f.items.findIndex(it => it.x === x && it.y === y)`. */
  function ItemAt(its: seq<PlacedItem>, x: int, y: int): (k: int)
    ensures -1 <= k < |its|
    ensures k >= 0 ==> its[k].x == x && its[k].y == y
    ensures forall j :: 0 <= j < |its| && (k < 0 || j < k) ==> !(its[j].x == x && its[j].y == y)
  {
    if |its| == 0 then -1
    else if its[0].x == x && its[0].y == y then 0
    else
      var k := ItemAt(its[1..], x, y);
      if k < 0 then -1 else k + 1
  }

  /** `f.entities.some(o => o !== e && o.x === x && o.y === y)` for the monster at index k. */
  predicate OccupiedByOther(es: seq<Monster>, k: int, x: int, y: int)
  {
    exists j :: 0 <= j < |es| && j != k && es[j].x == x && es[j].y == y
  }

  /** One of the eight directions of the key map. */
  predicate Direction(dx: int, dy: int)
  {
    -1 <= dx <= 1 && -1 <= dy <= 1 && (dx != 0 || dy != 0)
  }

  /** The cells left before a ray in direction (dx, dy) from (x, y) leaves the grid. */
  function Span(x: int, y: int, dx: int, dy: int): int
  {
    (if dx > 0 then Width - x else if dx < 0 then x + 1 else 0) +
    (if dy > 0 then Height - y else if dy < 0 then y + 1 else 0)
  }

  /** A cell a beam passes: on the grid and not a wall. */
  predicate Clear(m: array2<Tile>, x: int, y: int)
    reads m
    requires Sized(m)
  {
    InBounds(x, y) && m[y, x] != Wall
  }

  /**
   * The beam of `enemyFire` from (x, y) on: it reaches the player at (px, py)
   * unless a wall or the grid edge comes first. Monsters do not stop it. A
   * beam with no direction is only fired at a player on the shooter's cell.
   */
  predicate BeamReaches(m: array2<Tile>, x: int, y: int, dx: int, dy: int, px: int, py: int)
    reads m
    requires Sized(m)
    requires -1 <= dx <= 1 && -1 <= dy <= 1
    requires dx != 0 || dy != 0 || (x == px && y == py)
    decreases Span(x, y, dx, dy)
  {
    Clear(m, x, y) && ((x == px && y == py) || BeamReaches(m, x + dx, y + dy, dx, dy, px, py))
  }

  /** A beam stops at the first wall: a player behind one is never hit. */
  lemma {:induction false} BeamStopsAtWall(m: array2<Tile>, x: int, y: int, dx: int, dy: int, px: int, py: int, t: nat)
    requires Sized(m) && Direction(dx, dy)
    requires BeamReaches(m, x, y, dx, dy, px, py)
    requires forall s :: 0 <= s <= t ==> !(x + s * dx == px && y + s * dy == py)
    ensures Clear(m, x + t * dx, y + t * dy)
    decreases t
  {
    if t > 0 {
      assert !(x == px && y == py) by {
        assert x + 0 * dx == x && y + 0 * dy == y;
      }
      forall s | 0 <= s <= t - 1
        ensures !((x + dx) + s * dx == px && (y + dy) + s * dy == py)
      {
        assert (x + dx) + s * dx == x + (s + 1) * dx && (y + dy) + s * dy == y + (s + 1) * dy;
      }
      BeamStopsAtWall(m, x + dx, y + dy, dx, dy, px, py, t - 1);
      assert (x + dx) + (t - 1) * dx == x + t * dx && (y + dy) + (t - 1) * dy == y + t * dy;
    }
  }

  /**
   * The beam of `tryFire` from (x, y) on: the index of the first monster it
   * strikes, or -1 when a wall or the grid edge comes first.
   */
  function BeamTarget(m: array2<Tile>, es: seq<Monster>, x: int, y: int, dx: int, dy: int): (k: int)
    reads m
    requires Sized(m) && Direction(dx, dy)
    ensures -1 <= k < |es|
    ensures k >= 0 ==> k == MonsterAt(es, es[k].x, es[k].y) && InBounds(es[k].x, es[k].y)
    decreases Span(x, y, dx, dy)
  {
    if !Clear(m, x, y) then -1
    else
      var j := MonsterAt(es, x, y);
      if j >= 0 then j else BeamTarget(m, es, x + dx, y + dy, dx, dy)
  }

  /** `Math.max(|dx|, |dy|)`: the sentry's range test. */
  function Chebyshev(dx: int, dy: int): (d: int)
    ensures d >= 0 && d >= Abs(dx) && d >= Abs(dy)
  {
    Max(Abs(dx), Abs(dy))
  }

  /** `m.sentry.range || 8`. */
  function Reach(range: int): int
  {
    if range == 0 then 8 else range
  }

  /** The hunter's moves in order of preference: along the longer axis first, then the other, then diagonal, then away on each axis. */
  function HuntOptions(ax: int, ay: int, dx: int, dy: int): (o: seq<(int, int)>)
    ensures |o| == 5
    ensures ax > ay ==> o[0] == (dx, 0) && o[1] == (0, dy)
    ensures ax <= ay ==> o[0] == (0, dy) && o[1] == (dx, 0)
    ensures o[2] == (dx, dy)
    ensures ax > ay ==> o[3] == (-dx, 0) && o[4] == (0, -dy)
    ensures ax <= ay ==> o[3] == (0, -dy) && o[4] == (-dx, 0)
  {
    if ax > ay then [(dx, 0), (0, dy), (dx, dy), (-dx, 0), (0, -dy)]
    else [(0, dy), (dx, 0), (dx, dy), (0, -dy), (-dx, 0)]
  }

  /** The boss's chase step: one tile along the axis on which the player is farther, the vertical one on a tie. */
  function ChaseStep(ax: int, ay: int, dx: int, dy: int): (d: (int, int))
    ensures ax > ay ==> d == (dx, 0)
    ensures ax <= ay ==> d == (0, dy)
  {
    if ax > ay then (dx, 0) else (0, dy)
  }

  /** A monster kind with its identity kept: sub-state such as a cooldown may differ. */
  predicate SameKind(a: Kind, b: Kind)
  {
    match a
    case Drone => b.Drone?
    case Alien => b.Alien?
    case Sentry(r, _) => b.Sentry? && b.range == r
    case Boss(p, _) => b.Boss? && b.phase == p
  }

  /** What one monster turn can do to a monster: move it by at most one tile and change its cooldown. */
  predicate Stepped(a: Monster, b: Monster)
  {
    && b.hp == a.hp && b.maxhp == a.maxhp && b.atk == a.atk
    && SameKind(a.kind, b.kind)
    && Abs(b.x - a.x) <= 1 && Abs(b.y - a.y) <= 1
  }

  /**
   * What one monster's turn does: only the monster at k changes, by at most
   * one step with its stats kept, and the player only loses hp.
   */
  predicate Acted(es: seq<Monster>, es': seq<Monster>, k: int, p: Player, p': Player)
  {
    && |es'| == |es| && 0 <= k < |es|
    && (forall j :: 0 <= j < |es| && j != k ==> es'[j] == es[j])
    && Stepped(es[k], es'[k])
    && p' == p.(hp := p'.hp) && p'.hp <= p.hp
  }

  /** Moving a monster onto a cell no other monster holds keeps the monsters on distinct tiles. */
  lemma MoveKeepsApart(es: seq<Monster>, k: int, x: int, y: int)
    requires 0 <= k < |es| && OnePerTile(es) && !OccupiedByOther(es, k, x, y)
    ensures OnePerTile(es[k := es[k].(x := x, y := y)])
  {
    var r := es[k := es[k].(x := x, y := y)];
    forall a, b | 0 <= a < b < |r|
      ensures r[a].x != r[b].x || r[a].y != r[b].y
    {
      if a == k {
        assert !(es[b].x == x && es[b].y == y);
      } else if b == k {
        assert !(es[a].x == x && es[a].y == y);
      }
    }
  }

  /** `isWalkable` on the tile map m. */
  predicate Open(m: array2<Tile>, x: int, y: int)
    reads m
    requires Sized(m)
  {
    InBounds(x, y) && IsWalkableTile(m[y, x])
  }

  /**
   * Whether `moveEntity(m, dx, dy)` returns true for the monster at k on the
   * tile map m with the player p: the target, clamped onto the grid, is
   * walkable and holds either the player, who is bumped, or no other monster.
   */
  predicate Accepts(m: array2<Tile>, es: seq<Monster>, k: int, p: Player, dx: int, dy: int)
    reads m
    requires Sized(m) && 0 <= k < |es|
  {
    var nx, ny := Clamp(es[k].x + dx, 0, Width - 1), Clamp(es[k].y + dy, 0, Height - 1);
    Open(m, nx, ny) && ((p.x == nx && p.y == ny) || !OccupiedByOther(es, k, nx, ny))
  }

  /**
   * The monsters and the player after `moveEntity(m, dx, dy)` for the monster
   * at k: a wall or another monster on the clamped target refuses the move,
   * a player there is bumped for `max(1, atk - def)`, and otherwise the
   * monster moves onto the target.
   */
  function MoveOutcome(m: array2<Tile>, es: seq<Monster>, k: int, p: Player, dx: int, dy: int): (r: (seq<Monster>, Player))
    reads m
    requires Sized(m) && 0 <= k < |es|
    ensures |r.0| == |es| && forall j :: 0 <= j < |es| && j != k ==> r.0[j] == es[j]
    ensures r.0[k] == es[k].(x := r.0[k].x, y := r.0[k].y)
    ensures r.1 == p.(hp := r.1.hp) && r.1.hp <= p.hp
    ensures !Accepts(m, es, k, p, dx, dy) ==> r == (es, p)
  {
    var e := es[k];
    var nx, ny := Clamp(e.x + dx, 0, Width - 1), Clamp(e.y + dy, 0, Height - 1);
    if !Open(m, nx, ny) then (es, p)
    else if p.x == nx && p.y == ny then (es, p.(hp := p.hp - BumpDamage(e.atk, EffectiveDef(p))))
    else if OccupiedByOther(es, k, nx, ny) then (es, p)
    else (es[k := e.(x := nx, y := ny)], p)
  }

  /**
   * A move of at most one tile per axis from a cell on the grid keeps the
   * monster on the grid, moves it by at most one tile with its stats kept,
   * and keeps the monsters on distinct tiles.
   */
  lemma MoveOutcomeKeeps(m: array2<Tile>, es: seq<Monster>, k: int, p: Player, dx: int, dy: int)
    requires Sized(m) && 0 <= k < |es| && InBounds(es[k].x, es[k].y)
    requires -1 <= dx <= 1 && -1 <= dy <= 1
    ensures var r := MoveOutcome(m, es, k, p, dx, dy);
      Stepped(es[k], r.0[k]) && InBounds(r.0[k].x, r.0[k].y) && (OnePerTile(es) ==> OnePerTile(r.0))
  {
    var e := es[k];
    var nx, ny := Clamp(e.x + dx, 0, Width - 1), Clamp(e.y + dy, 0, Height - 1);
    ClampedStep(Pos(e.x, e.y), dx, dy);
    if Open(m, nx, ny) && !(p.x == nx && p.y == ny) && !OccupiedByOther(es, k, nx, ny) && OnePerTile(es) {
      MoveKeepsApart(es, k, nx, ny);
    }
  }

  /** The hunting moves of the monster e toward the player p. */
  function HuntMoves(e: Monster, p: Player): seq<(int, int)>
  {
    HuntOptions(Abs(p.x - e.x), Abs(p.y - e.y), Sign(p.x - e.x), Sign(p.y - e.y))
  }

  /** The index of the first move of opts, from index i on, that `moveEntity` accepts for the monster at k, or -1. */
  function FirstAccepted(m: array2<Tile>, es: seq<Monster>, k: int, p: Player, opts: seq<(int, int)>, i: nat): (r: int)
    reads m
    requires Sized(m) && 0 <= k < |es| && i <= |opts|
    ensures r == -1 || i <= r < |opts|
    ensures r >= 0 ==> Accepts(m, es, k, p, opts[r].0, opts[r].1)
    ensures forall j :: i <= j < |opts| && (r < 0 || j < r) ==> !Accepts(m, es, k, p, opts[j].0, opts[j].1)
    decreases |opts| - i
  {
    if i == |opts| then -1
    else if Accepts(m, es, k, p, opts[i].0, opts[i].1) then i
    else FirstAccepted(m, es, k, p, opts, i + 1)
  }

  /**
   * A random step `moveEntity(m, rng.range(-1, 1), rng.range(-1, 1))` of the
   * monster at k from generator state s, the horizontal draw first: the
   * monsters, the player and the generator state after it.
   */
  function Wandered(m: array2<Tile>, es: seq<Monster>, k: int, p: Player, s: int): (r: (seq<Monster>, Player, int))
    reads m
    requires Sized(m) && 0 <= k < |es| && 0 <= s < Modulus
  {
    var s1 := NextState(s);
    var s2 := NextState(s1);
    var o := MoveOutcome(m, es, k, p, RangeOf(-1, 1, s1), RangeOf(-1, 1, s2));
    (o.0, o.1, s2)
  }

  /**
   * A sentry's turn: the cooldown counts down; within `range || 8` in
   * Chebyshev distance, in sight and with the cooldown at 0 it fires for 2
   * and rearms to 2 only on a hit; otherwise it steps at random.
   */
  function SentryTurn(m: array2<Tile>, es: seq<Monster>, k: int, p: Player, s: int): (r: (seq<Monster>, Player, int))
    reads m
    requires Sized(m) && 0 <= k < |es| && es[k].kind.Sentry? && 0 <= s < Modulus
  {
    var e := es[k];
    var cool := Tick(e.kind.cool);
    if Chebyshev(p.x - e.x, p.y - e.y) <= Reach(e.kind.range) && Sight.Sight(m, e.x, e.y, p.x, p.y) && cool == 0 then
      var sx, sy := Sign(p.x - e.x), Sign(p.y - e.y);
      var hit := BeamReaches(m, e.x + sx, e.y + sy, sx, sy, p.x, p.y);
      (es[k := e.(kind := Sentry(e.kind.range, if hit then 2 else cool))],
       p.(hp := p.hp - if hit then BeamDamage(2, EffectiveDef(p)) else 0), s)
    else Wandered(m, es[k := e.(kind := Sentry(e.kind.range, cool))], k, p, s)
  }

  /**
   * The boss's turn: the cooldown counts down; with it at 0 and the player in
   * sight the boss fires for 3 and rearms to 2, hit or miss; otherwise it
   * steps toward the player along one axis.
   */
  function BossTurn(m: array2<Tile>, es: seq<Monster>, k: int, p: Player, s: int): (r: (seq<Monster>, Player, int))
    reads m
    requires Sized(m) && 0 <= k < |es| && es[k].kind.Boss?
  {
    var e := es[k];
    var cool := Tick(e.kind.cool);
    if cool == 0 && Sight.Sight(m, e.x, e.y, p.x, p.y) then
      var sx, sy := Sign(p.x - e.x), Sign(p.y - e.y);
      var hit := BeamReaches(m, e.x + sx, e.y + sy, sx, sy, p.x, p.y);
      (es[k := e.(kind := Boss(e.kind.phase, 2))],
       p.(hp := p.hp - if hit then BeamDamage(3, EffectiveDef(p)) else 0), s)
    else
      var step := ChaseStep(Abs(p.x - e.x), Abs(p.y - e.y), Sign(p.x - e.x), Sign(p.y - e.y));
      var o := MoveOutcome(m, es[k := e.(kind := Boss(e.kind.phase, cool))], k, p, step.0, step.1);
      (o.0, o.1, s)
  }

  /**
   * A drone's or alien's turn: within distance 8 the first hunting move
   * `moveEntity` accepts; when none is accepted, or the player is farther,
   * a random step.
   */
  function HuntTurn(m: array2<Tile>, es: seq<Monster>, k: int, p: Player, s: int): (r: (seq<Monster>, Player, int))
    reads m
    requires Sized(m) && 0 <= k < |es| && 0 <= s < Modulus
  {
    var e := es[k];
    var opts := HuntMoves(e, p);
    var i := if DistSq(e.x - p.x, e.y - p.y) <= 8 * 8 then FirstAccepted(m, es, k, p, opts, 0) else -1;
    if i >= 0 then
      var o := MoveOutcome(m, es, k, p, opts[i].0, opts[i].1);
      (o.0, o.1, s)
    else Wandered(m, es, k, p, s)
  }

  /**
   * The turn of the monster at k, by its kind: the monsters, the player and
   * the generator state after it. Only that monster changes, and the player
   * only loses hp.
   */
  function MonsterTurn(m: array2<Tile>, es: seq<Monster>, k: int, p: Player, s: int): (r: (seq<Monster>, Player, int))
    reads m
    requires Sized(m) && 0 <= k < |es| && 0 <= s < Modulus
    ensures |r.0| == |es| && forall j :: 0 <= j < |es| && j != k ==> r.0[j] == es[j]
    ensures r.1 == p.(hp := r.1.hp) && r.1.hp <= p.hp
    ensures 0 <= r.2 < Modulus
  {
    match es[k].kind
    case Sentry(_, _) => SentryTurn(m, es, k, p, s)
    case Boss(_, _) => BossTurn(m, es, k, p, s)
    case _ => HuntTurn(m, es, k, p, s)
  }

  /**
   * The monsters' half of `endTurn()`: the first n monsters of the list take
   * their turns one after the other, in list order.
   */
  function Turns(m: array2<Tile>, es: seq<Monster>, p: Player, s: int, n: nat): (r: (seq<Monster>, Player, int))
    reads m
    requires Sized(m) && n <= |es| && 0 <= s < Modulus
    ensures |r.0| == |es| && 0 <= r.2 < Modulus
    ensures r.1 == p.(hp := r.1.hp) && r.1.hp <= p.hp
    decreases n
  {
    if n == 0 then (es, p, s)
    else
      var t := Turns(m, es, p, s, n - 1);
      MonsterTurn(m, t.0, n - 1, t.1, t.2)
  }

  /** The states `Turns` passes through: entry j is the state after the first j monsters' turns. */
  ghost function Trace(m: array2<Tile>, es: seq<Monster>, p: Player, s: int, n: nat): (r: seq<(seq<Monster>, Player, int)>)
    reads m
    requires Sized(m) && n <= |es| && 0 <= s < Modulus
    ensures |r| == n + 1 && r[0] == (es, p, s)
    ensures forall j :: 0 <= j <= n ==> |r[j].0| == |es| && 0 <= r[j].2 < Modulus
    ensures forall j :: 0 <= j < n ==> r[j + 1] == MonsterTurn(m, r[j].0, j, r[j].1, r[j].2)
    ensures r[n] == Turns(m, es, p, s, n)
    decreases n
  {
    if n == 0 then [(es, p, s)]
    else
      var t := Trace(m, es, p, s, n - 1);
      t + [MonsterTurn(m, t[n - 1].0, n - 1, t[n - 1].1, t[n - 1].2)]
  }

  /** A random step from a nonzero generator state moves the monster by at most one tile, on the grid, and leaves the state nonzero. */
  lemma WanderedKeeps(m: array2<Tile>, es: seq<Monster>, k: int, p: Player, s: int)
    requires Sized(m) && 0 <= k < |es| && InBounds(es[k].x, es[k].y) && 0 < s < Modulus
    ensures var r := Wandered(m, es, k, p, s);
      Stepped(es[k], r.0[k]) && InBounds(r.0[k].x, r.0[k].y) && 0 < r.2 < Modulus
  {
    var s1 := NextState(s);
    NextStateUndone(s);
    NextStateUndone(s1);
    RangeWithin(-1, 1, s1);
    RangeWithin(-1, 1, NextState(s1));
    MoveOutcomeKeeps(m, es, k, p, RangeOf(-1, 1, s1), RangeOf(-1, 1, NextState(s1)));
  }

  /** A sentry's turn moves it by at most one tile, on the grid, keeps its range, and leaves the generator nonzero. */
  lemma SentryTurnKeeps(m: array2<Tile>, es: seq<Monster>, k: int, p: Player, s: int)
    requires Sized(m) && 0 <= k < |es| && es[k].kind.Sentry? && InBounds(es[k].x, es[k].y) && 0 < s < Modulus
    ensures var r := SentryTurn(m, es, k, p, s);
      Stepped(es[k], r.0[k]) && InBounds(r.0[k].x, r.0[k].y) && 0 < r.2 < Modulus
  {
    var e := es[k];
    var cool := Tick(e.kind.cool);
    if !(Chebyshev(p.x - e.x, p.y - e.y) <= Reach(e.kind.range) && Sight.Sight(m, e.x, e.y, p.x, p.y) && cool == 0) {
      WanderedKeeps(m, es[k := e.(kind := Sentry(e.kind.range, cool))], k, p, s);
    }
  }

  /** The boss's turn moves it by at most one tile, on the grid, keeps its phase, and leaves the generator alone. */
  lemma BossTurnKeeps(m: array2<Tile>, es: seq<Monster>, k: int, p: Player, s: int)
    requires Sized(m) && 0 <= k < |es| && es[k].kind.Boss? && InBounds(es[k].x, es[k].y)
    ensures var r := BossTurn(m, es, k, p, s);
      Stepped(es[k], r.0[k]) && InBounds(r.0[k].x, r.0[k].y) && r.2 == s
  {
    var e := es[k];
    var cool := Tick(e.kind.cool);
    if !(cool == 0 && Sight.Sight(m, e.x, e.y, p.x, p.y)) {
      var step := ChaseStep(Abs(p.x - e.x), Abs(p.y - e.y), Sign(p.x - e.x), Sign(p.y - e.y));
      MoveOutcomeKeeps(m, es[k := e.(kind := Boss(e.kind.phase, cool))], k, p, step.0, step.1);
    }
  }

  /** A hunter's turn moves it by at most one tile, on the grid, and leaves the generator nonzero. */
  lemma HuntTurnKeeps(m: array2<Tile>, es: seq<Monster>, k: int, p: Player, s: int)
    requires Sized(m) && 0 <= k < |es| && InBounds(es[k].x, es[k].y) && 0 < s < Modulus
    ensures var r := HuntTurn(m, es, k, p, s);
      Stepped(es[k], r.0[k]) && InBounds(r.0[k].x, r.0[k].y) && 0 < r.2 < Modulus
  {
    var e := es[k];
    var opts := HuntMoves(e, p);
    var i := if DistSq(e.x - p.x, e.y - p.y) <= 8 * 8 then FirstAccepted(m, es, k, p, opts, 0) else -1;
    if i >= 0 {
      MoveOutcomeKeeps(m, es, k, p, opts[i].0, opts[i].1);
    } else {
      WanderedKeeps(m, es, k, p, s);
    }
  }

  /**
   * One monster's turn from a state where it stands on the grid and the
   * generator is nonzero: it moves by at most one tile with its stats kept
   * and stays on the grid, and the generator stays nonzero.
   */
  lemma MonsterTurnActs(m: array2<Tile>, es: seq<Monster>, k: int, p: Player, s: int)
    requires Sized(m) && 0 <= k < |es| && InBounds(es[k].x, es[k].y) && 0 < s < Modulus
    ensures var r := MonsterTurn(m, es, k, p, s);
      Stepped(es[k], r.0[k]) && InBounds(r.0[k].x, r.0[k].y) && 0 < r.2 < Modulus
  {
    match es[k].kind
    case Sentry(_, _) => SentryTurnKeeps(m, es, k, p, s);
    case Boss(_, _) => BossTurnKeeps(m, es, k, p, s);
    case _ => HuntTurnKeeps(m, es, k, p, s);
  }

  /** Every monster of the list stands on the grid. */
  predicate OnGrid(es: seq<Monster>)
  {
    forall j :: 0 <= j < |es| ==> InBounds(es[j].x, es[j].y)
  }

  /** The monsters from index n on are as they were. */
  predicate Untouched(es: seq<Monster>, t: seq<Monster>, n: nat)
  {
    |t| == |es| && forall j :: n <= j < |es| ==> t[j] == es[j]
  }

  /** The monster at k taking its step after those before it keeps every monster stepped at most once and on the grid. */
  lemma StepAfter(es: seq<Monster>, t: seq<Monster>, r: seq<Monster>, k: int)
    requires 0 <= k < |es| && AllStepped(es, t) && Untouched(es, t, k) && OnGrid(t)
    requires |r| == |t| && forall j :: 0 <= j < |t| && j != k ==> r[j] == t[j]
    requires Stepped(t[k], r[k]) && InBounds(r[k].x, r[k].y)
    ensures AllStepped(es, r) && Untouched(es, r, k + 1) && OnGrid(r)
  {
  }

  /**
   * After the first n monsters' turns from a state with every monster on the
   * grid and a nonzero generator: each monster has moved by at most one
   * tile with its stats kept, those not yet come are untouched, all stay on
   * the grid, and the generator is nonzero.
   */
  lemma {:induction false} TurnsStepped(m: array2<Tile>, es: seq<Monster>, p: Player, s: int, n: nat)
    requires Sized(m) && n <= |es| && 0 < s < Modulus
    requires OnGrid(es)
    ensures var t := Turns(m, es, p, s, n);
      AllStepped(es, t.0) && Untouched(es, t.0, n) && OnGrid(t.0) && 0 < t.2 < Modulus
    decreases n
  {
    if n > 0 {
      TurnsStepped(m, es, p, s, n - 1);
      var t := Turns(m, es, p, s, n - 1);
      MonsterTurnActs(m, t.0, n - 1, t.1, t.2);
      var r := MonsterTurn(m, t.0, n - 1, t.1, t.2);
      StepAfter(es, t.0, r.0, n - 1);
    }
  }

  /**
   * The monster list after a hit of dmg on the monster at k: it loses dmg hp,
   * and once its hp is 0 or below it is spliced out of the list.
   */
  function Struck(es: seq<Monster>, k: int, dmg: int): (r: seq<Monster>)
    requires 0 <= k < |es|
    ensures es[k].hp <= dmg ==> |r| == |es| - 1 && forall j :: 0 <= j < |r| ==> r[j] == es[if j < k then j else j + 1]
    ensures es[k].hp > dmg ==> |r| == |es| && r[k].hp == es[k].hp - dmg && r[k] == es[k].(hp := r[k].hp)
    ensures es[k].hp > dmg ==> forall j :: 0 <= j < |es| && j != k ==> r[j] == es[j]
  {
    if es[k].hp - dmg <= 0 then RemoveAt(es, k) else es[k := es[k].(hp := es[k].hp - dmg)]
  }

  /**
   * A hit of at least 1 keeps the floor's monster invariants: every monster
   * left was there before (the one hit with less hp, still above 0), and no
   * two of them share a tile.
   */
  lemma StruckKeeps(es: seq<Monster>, k: int, dmg: int)
    requires 0 <= k < |es| && dmg >= 1 && OnePerTile(es)
    requires forall j :: 0 <= j < |es| ==> MonsterOk(es[j])
    ensures OnePerTile(Struck(es, k, dmg))
    ensures forall j :: 0 <= j < |Struck(es, k, dmg)| ==> MonsterOk(Struck(es, k, dmg)[j])
    ensures forall j :: 0 <= j < |Struck(es, k, dmg)| ==>
      exists i :: 0 <= i < |es| && Struck(es, k, dmg)[j].x == es[i].x && Struck(es, k, dmg)[j].y == es[i].y
  {
    var r := Struck(es, k, dmg);
    if es[k].hp <= dmg {
      forall a, b | 0 <= a < b < |r|
        ensures r[a].x != r[b].x || r[a].y != r[b].y
      {
        var a', b' := if a >= k then a + 1 else a, if b >= k then b + 1 else b;
        assert r[a] == es[a'] && r[b] == es[b'];
      }
      forall j | 0 <= j < |r|
        ensures exists i :: 0 <= i < |es| && r[j].x == es[i].x && r[j].y == es[i].y
      {
        var i := if j >= k then j + 1 else j;
        assert r[j] == es[i];
      }
    } else {
      forall j | 0 <= j < |r|
        ensures r[j].x == es[j].x && r[j].y == es[j].y
      {
      }
    }
  }

  /** What the monsters' half of a turn leaves: the same monsters in the same order, each moved by at most one tile with its stats kept. */
  predicate AllStepped(es: seq<Monster>, es': seq<Monster>)
  {
    |es'| == |es| && forall j :: 0 <= j < |es| ==> Stepped(es[j], es'[j])
  }

  /** What the end of a turn does to the player: hp can only drop, the shield counts down, the blaster cools, nothing else changes. */
  predicate Decayed(p: Player, p': Player)
  {
    p' == p.(hp := p'.hp, shieldTurns := Tick(p.shieldTurns), heat := Cool(p.heat)) && p'.hp <= p.hp
  }

  /**
   * The state `endTurn()` leaves behind, from monsters es, player p and
   * generator state s: every monster's turn in list order, then the shield
   * counts down and the blaster cools.
   */
  function AfterTurn(m: array2<Tile>, es: seq<Monster>, p: Player, s: int): (r: (seq<Monster>, Player, int))
    reads m
    requires Sized(m) && 0 <= s < Modulus
    ensures |r.0| == |es| && 0 <= r.2 < Modulus
    ensures Decayed(p, r.1)
  {
    var t := Turns(m, es, p, s, |es|);
    (t.0, t.1.(shieldTurns := Tick(t.1.shieldTurns), heat := Cool(t.1.heat)), t.2)
  }

  /** The wear of a melee swing: `maybeDegrade('Lightsaber', 0.5, 1)` with the draw u when the saber is wielded. */
  function Swung(p: Player, u: Unit): (q: Player)
    requires PlayerOk(p)
    ensures PlayerOk(q)
    ensures q == p.(bag := q.bag, weapon := q.weapon) && |q.bag| == |p.bag|
    ensures p.weapon != WieldSaber ==> q == p
    ensures q.weapon == p.weapon || q.weapon == Fists
  {
    if p.weapon == WieldSaber then Degrade(p, DurableSaber, 0.5, u).0 else p
  }

  /** What a blaster shot or misfire costs: one energy cell and 20 heat, capped at 100. */
  function Spent(p: Player): (q: Player)
    requires PlayerOk(p) && p.ammo > 0
    ensures PlayerOk(q)
    ensures q.ammo == p.ammo - 1 && p.heat <= q.heat <= 100 && (p.heat <= 80 ==> q.heat == p.heat + 20)
    ensures q == p.(ammo := q.ammo, heat := q.heat)
  {
    p.(ammo := p.ammo - 1, heat := Heat(p.heat))
  }

  /** The blaster's wear after a shot: `maybeDegrade('Blaster', min(0.99, 0.5 + heat/200), 1)` at the new heat, with the draw u. */
  function Worn(p: Player, u: Unit): (q: Player)
    requires PlayerOk(p)
    ensures PlayerOk(q)
    ensures q == p.(bag := q.bag, weapon := q.weapon) && |q.bag| == |p.bag|
    ensures q.weapon == p.weapon || q.weapon == Fists
  {
    Degrade(p, DurableBlaster, DegradeChance(p.heat), u).0
  }

  /** A blaster hit: `BlasterDamage`, doubled on a critical hit. */
  function ShotDamage(bl: Item, crit: bool): (d: int)
    requires bl.Blaster? && bl.maxdur > 0
    ensures d >= 1 && (crit ==> d == 2 * BlasterDamage(bl)) && (!crit ==> d == BlasterDamage(bl))
  {
    if crit then 2 * BlasterDamage(bl) else BlasterDamage(bl)
  }

  /** Where `tryFire` stops before the beam: the first gate that refuses, a misfire, or a shot that leaves the barrel (`Armed`). */
  datatype Gate = NotWielded | Broken | NoAmmo | Jammed | Overheated | Misfired | Armed

  /** The gates of `tryFire` in order, with the misfire draw u. */
  function FireGate(p: Player, u: Unit): (g: Gate)
    requires PlayerOk(p)
    ensures g == NotWielded <==> p.weapon != WieldBlaster
    ensures g == Broken <==> p.weapon == WieldBlaster && Find(p.bag, DurableBlaster) < 0
    ensures g == Misfired || g == Armed ==>
      && p.weapon == WieldBlaster && Find(p.bag, DurableBlaster) >= 0
      && p.ammo > 0 && !p.jam && p.heat < 100
      && (g == Misfired <==> u < MisfireChance(p.heat, p.bag[Find(p.bag, DurableBlaster)]))
    ensures g == NoAmmo ==> p.ammo <= 0
    ensures g == Jammed ==> p.ammo > 0 && p.jam
    ensures g == Overheated ==> p.ammo > 0 && !p.jam && p.heat >= 100
  {
    var b := Find(p.bag, DurableBlaster);
    if p.weapon != WieldBlaster then NotWielded
    else if b < 0 then Broken
    else if p.ammo <= 0 then NoAmmo
    else if p.jam then Jammed
    else if p.heat >= 100 then Overheated
    else if u < MisfireChance(p.heat, p.bag[b]) then Misfired
    else Armed
  }

  /** What `tryPlayerMove` did: hit the monster at an index, stepped, or was blocked. */
  datatype Bump = Attacked(target: int) | Walked | Blocked

  /** What `useElevator()` did. */
  datatype Ride = Descended | Ascended | Escaped | NoElevator

  /**
   * The beam walk of `tryFire` on the tile map m with monsters es: from
   * (x0, y0) on in steps of (dx, dy) while the cell is on the grid and not a
   * wall, stopping at the first cell that holds a monster.
   */
  method Beam(m: array2<Tile>, es: seq<Monster>, x0: int, y0: int, dx: int, dy: int) returns (k: int)
    requires Sized(m) && Direction(dx, dy)
    ensures k == BeamTarget(m, es, x0, y0, dx, dy)
  {
    var x, y := x0, y0;
    k := -1;
    while k < 0 && Clear(m, x, y)
      invariant -1 <= k < |es|
      invariant BeamTarget(m, es, x0, y0, dx, dy) == if k >= 0 then k else BeamTarget(m, es, x, y, dx, dy)
      decreases Span(x, y, dx, dy), if k < 0 then 1 else 0
    {
      k := MonsterAt(es, x, y);
      if k < 0 {
        x, y := x + dx, y + dy;
      }
    }
  }

  /** The game: the floors, the current floor index, the player and the seeded generator. */
  class Game {
    const floors: seq<FloorState>
    const rng: Rng
    var cur: int
    var player: Player

    /** The tile grids of all floors. */
    ghost function Grids(): set<object>
      reads this
    {
      set k | 0 <= k < |floors| :: floors[k].tiles
    }

    /** `current()`. */
    function Cur(): FloorState
      reads this
      requires 0 <= cur < |floors|
    {
      floors[cur]
    }

    /**
     * The game invariant: three distinct floors all ready for play, the
     * current index among them, a sound player standing on a walkable tile
     * of the current floor, and a generator in a nonzero state.
     */
    ghost predicate Valid()
      reads this, rng, floors, Grids()
    {
      && |floors| == MaxFloor
      && 0 <= cur < MaxFloor
      && rng.Valid()
      && (forall a, b :: 0 <= a < b < |floors| ==> floors[a] != floors[b])
      && (forall k :: 0 <= k < |floors| ==> floors[k].Ready())
      && PlayerOk(player)
      && floors[cur].Walkable(player.x, player.y)
    }

    /** The state `resetGame()` leaves: floor 0 current, a new player on its up elevator. */
    constructor (fs: seq<FloorState>, g: Rng)
      requires |fs| == MaxFloor && g.Valid()
      requires forall a, b :: 0 <= a < b < |fs| ==> fs[a] != fs[b]
      requires forall k :: 0 <= k < |fs| ==> fs[k].Ready()
      ensures Valid()
      ensures floors == fs && rng == g && cur == 0
      ensures player == NewPlayer(fs[0].upPos.value)
    {
      floors := fs;
      rng := g;
      cur := 0;
      player := NewPlayer(fs[0].upPos.value);
    }

    /**
     * `moveEntity(m, dx, dy)` for the monster at index k: the target is
     * clamped to the grid; a wall stops the move; a player on the target is
     * bumped for `max(1, atk - def)` without the monster moving; another
     * monster on the target blocks it; otherwise the monster moves there.
     */
    method MoveMonster(k: int, dx: int, dy: int) returns (moved: bool)
      requires Valid() && 0 <= k < |Cur().entities| && -1 <= dx <= 1 && -1 <= dy <= 1
      modifies Cur()`entities, `player
      ensures Valid()
      ensures Acted(old(Cur().entities), Cur().entities, k, old(player), player)
      ensures !moved ==> Cur().entities == old(Cur().entities) && player == old(player)
      ensures moved == old(Accepts(Cur().tiles, Cur().entities, k, player, dx, dy))
      ensures (Cur().entities, player) == old(MoveOutcome(Cur().tiles, Cur().entities, k, player, dx, dy))
    {
      var f := Cur();
      var e := f.entities[k];
      var nx, ny := Clamp(e.x + dx, 0, Width - 1), Clamp(e.y + dy, 0, Height - 1);
      MonsterSound(k);
      ClampedStep(Pos(e.x, e.y), dx, dy);
      if !f.Walkable(nx, ny) {
        return false;
      }
      if player.x == nx && player.y == ny {
        var dmg := BumpDamage(e.atk, EffectiveDef(player));
        player := player.(hp := player.hp - dmg);
        return true;
      }
      if OccupiedByOther(f.entities, k, nx, ny) {
        return false;
      }
      Relocate(k, nx, ny);
      moved := true;
    }

    /** Put the monster at k on the free walkable cell (x, y). */
    method Relocate(k: int, x: int, y: int)
      requires Valid() && 0 <= k < |Cur().entities|
      requires Cur().Walkable(x, y) && !OccupiedByOther(Cur().entities, k, x, y)
      modifies Cur()`entities
      ensures Valid()
      ensures Cur().entities == old(Cur().entities)[k := old(Cur().entities[k]).(x := x, y := y)]
    {
      MonsterSound(k);
      MoveKeepsApart(Cur().entities, k, x, y);
      Cur().entities := Cur().entities[k := Cur().entities[k].(x := x, y := y)];
    }

    /**
     * `enemyFire(m, dx, dy, dmg)` for the monster at index k: the beam starts
     * next to the monster and hits the player when it reaches them before a
     * wall or the grid edge, for `max(1, dmg - floor(def / 2))`.
     */
    method EnemyFire(k: int, dx: int, dy: int, dmg: int) returns (hit: bool)
      requires Valid() && 0 <= k < |Cur().entities|
      requires -1 <= dx <= 1 && -1 <= dy <= 1
      requires dx != 0 || dy != 0 || (Cur().entities[k].x == player.x && Cur().entities[k].y == player.y)
      modifies `player
      ensures Valid()
      ensures hit == old(BeamReaches(Cur().tiles, Cur().entities[k].x + dx, Cur().entities[k].y + dy, dx, dy, player.x, player.y))
      ensures player == old(player).(hp := old(player.hp) - if hit then BeamDamage(dmg, EffectiveDef(old(player))) else 0)
    {
      var f := Cur();
      var e := f.entities[k];
      var x, y := e.x + dx, e.y + dy;
      while InBounds(x, y) && f.tiles[y, x] != Wall
        invariant dx != 0 || dy != 0 || (x == player.x && y == player.y)
        invariant BeamReaches(f.tiles, e.x + dx, e.y + dy, dx, dy, player.x, player.y) ==
                  BeamReaches(f.tiles, x, y, dx, dy, player.x, player.y)
        decreases Span(x, y, dx, dy)
      {
        if player.x == x && player.y == y {
          player := player.(hp := player.hp - BeamDamage(dmg, EffectiveDef(player)));
          return true;
        }
        x, y := x + dx, y + dy;
      }
      hit := false;
    }

    /** Set the cooldown state of the monster at index k. */
    method Rearm(k: int, kind: Kind)
      requires Valid() && 0 <= k < |Cur().entities|
      requires SameKind(Cur().entities[k].kind, kind) && MonsterOk(Cur().entities[k].(kind := kind))
      modifies Cur()`entities
      ensures Valid()
      ensures Cur().entities == old(Cur().entities)[k := old(Cur().entities[k]).(kind := kind)]
    {
      Cur().entities := Cur().entities[k := Cur().entities[k].(kind := kind)];
    }

    /**
     * A shot at the player in direction (dx, dy), the signs of the offset,
     * after which the shooter rearms to `armed`: on a hit only, or always.
     */
    method Volley(k: int, dx: int, dy: int, dmg: int, idle: Kind, armed: Kind, always: bool) returns (hit: bool)
      requires Valid() && 0 <= k < |Cur().entities|
      requires dx == Sign(player.x - Cur().entities[k].x) && dy == Sign(player.y - Cur().entities[k].y)
      requires SameKind(Cur().entities[k].kind, idle) && MonsterOk(Cur().entities[k].(kind := idle))
      requires SameKind(Cur().entities[k].kind, armed) && MonsterOk(Cur().entities[k].(kind := armed))
      modifies Cur()`entities, `player
      ensures Valid()
      ensures hit == old(BeamReaches(Cur().tiles, Cur().entities[k].x + dx, Cur().entities[k].y + dy, dx, dy, player.x, player.y))
      ensures player == old(player).(hp := old(player.hp) - if hit then BeamDamage(dmg, EffectiveDef(old(player))) else 0)
      ensures Cur().entities ==
        old(Cur().entities)[k := old(Cur().entities[k]).(kind := if hit || always then armed else idle)]
    {
      hit := EnemyFire(k, dx, dy, dmg);
      Rearm(k, if hit || always then armed else idle);
    }

    /** Set the monster's kind (its cooldown), then `moveEntity(m, dx, dy)`. */
    method Step(k: int, kind: Kind, dx: int, dy: int) returns (moved: bool)
      requires Valid() && 0 <= k < |Cur().entities| && -1 <= dx <= 1 && -1 <= dy <= 1
      requires SameKind(Cur().entities[k].kind, kind) && MonsterOk(Cur().entities[k].(kind := kind))
      modifies Cur()`entities, `player
      ensures Valid()
      ensures Acted(old(Cur().entities), Cur().entities, k, old(player), player)
      ensures var m, n := old(Cur().entities[k]), Cur().entities[k];
        && n.kind == kind
        && ((n.x == m.x && n.y == m.y) || (n.x == Clamp(m.x + dx, 0, Width - 1) && n.y == Clamp(m.y + dy, 0, Height - 1)))
      ensures (Cur().entities, player) ==
        old(MoveOutcome(Cur().tiles, Cur().entities[k := Cur().entities[k].(kind := kind)], k, player, dx, dy))
    {
      Rearm(k, kind);
      moved := MoveMonster(k, dx, dy);
    }

    /** A random step of the monster at index k: `moveEntity(m, rng.range(-1, 1), rng.range(-1, 1))`. */
    method Wander(k: int, kind: Kind)
      requires Valid() && 0 <= k < |Cur().entities|
      requires SameKind(Cur().entities[k].kind, kind) && MonsterOk(Cur().entities[k].(kind := kind))
      modifies Cur()`entities, `player, rng
      ensures Valid()
      ensures Acted(old(Cur().entities), Cur().entities, k, old(player), player)
      ensures Cur().entities[k].kind == kind
      ensures rng.state == NextState(NextState(old(rng.state)))
      ensures (Cur().entities, player, rng.state) ==
        old(Wandered(Cur().tiles, Cur().entities[k := Cur().entities[k].(kind := kind)], k, player, rng.state))
    {
      var dx := rng.Range(-1, 1);
      var dy := rng.Range(-1, 1);
      var _ := Step(k, kind, dx, dy);
    }

    /**
     * A sentry's turn: its cooldown counts down; within range (`range || 8`
     * in Chebyshev distance), in sight and with the cooldown at 0 it fires
     * for 2 and rearms to 2 only when the beam hits; otherwise it steps at
     * random.
     */
    method SentryAct(k: int, seen: bool)
      requires Valid() && 0 <= k < |Cur().entities| && Cur().entities[k].kind.Sentry?
      requires seen == Sight.Sight(Cur().tiles, Cur().entities[k].x, Cur().entities[k].y, player.x, player.y)
      modifies Cur()`entities, `player, rng
      ensures Valid()
      ensures Acted(old(Cur().entities), Cur().entities, k, old(player), player)
      ensures (Cur().entities, player, rng.state) == old(SentryTurn(Cur().tiles, Cur().entities, k, player, rng.state))
    {
      var m := Cur().entities[k];
      var cool := Tick(m.kind.cool);
      var dist := Chebyshev(player.x - m.x, player.y - m.y);
      ghost var turn := SentryTurn(Cur().tiles, Cur().entities, k, player, rng.state);
      if dist <= Reach(m.kind.range) && seen && cool == 0 {
        var _ := Volley(k, Sign(player.x - m.x), Sign(player.y - m.y), 2, Sentry(m.kind.range, cool), Sentry(m.kind.range, 2), false);
      } else {
        assert turn == Wandered(Cur().tiles, Cur().entities[k := m.(kind := Sentry(m.kind.range, cool))], k, player, rng.state);
        Wander(k, Sentry(m.kind.range, cool));
      }
    }

    /**
     * The boss's turn: its cooldown counts down; with the cooldown at 0 and
     * the player in sight it fires for 3 and rearms to 2 whether or not the
     * beam hits; otherwise it steps toward the player along one axis.
     */
    method BossAct(k: int, seen: bool)
      requires Valid() && 0 <= k < |Cur().entities| && Cur().entities[k].kind.Boss?
      requires seen == Sight.Sight(Cur().tiles, Cur().entities[k].x, Cur().entities[k].y, player.x, player.y)
      modifies Cur()`entities, `player, rng
      ensures Valid()
      ensures Acted(old(Cur().entities), Cur().entities, k, old(player), player)
      ensures (Cur().entities, player, rng.state) == old(BossTurn(Cur().tiles, Cur().entities, k, player, rng.state))
    {
      var m := Cur().entities[k];
      var cool := Tick(m.kind.cool);
      if cool == 0 && seen {
        var _ := Volley(k, Sign(player.x - m.x), Sign(player.y - m.y), 3, Boss(m.kind.phase, cool), Boss(m.kind.phase, 2), true);
      } else {
        Chase(k, Boss(m.kind.phase, cool));
      }
    }

    /** The boss's chase: set its cooldown, then step toward the player along one axis. */
    method Chase(k: int, kind: Kind)
      requires Valid() && 0 <= k < |Cur().entities|
      requires SameKind(Cur().entities[k].kind, kind) && MonsterOk(Cur().entities[k].(kind := kind))
      modifies Cur()`entities, `player
      ensures Valid()
      ensures Acted(old(Cur().entities), Cur().entities, k, old(player), player)
      ensures Cur().entities[k].kind == kind
      ensures var m, p, n := old(Cur().entities[k]), old(player), Cur().entities[k];
        var step := ChaseStep(Abs(p.x - m.x), Abs(p.y - m.y), Sign(p.x - m.x), Sign(p.y - m.y));
        (n.x == m.x && n.y == m.y) || (n.x == Clamp(m.x + step.0, 0, Width - 1) && n.y == Clamp(m.y + step.1, 0, Height - 1))
      ensures var m, p := old(Cur().entities[k]), old(player);
        var step := ChaseStep(Abs(p.x - m.x), Abs(p.y - m.y), Sign(p.x - m.x), Sign(p.y - m.y));
        (Cur().entities, player) ==
          old(MoveOutcome(Cur().tiles, Cur().entities[k := Cur().entities[k].(kind := kind)], k, player, step.0, step.1))
    {
      var m := Cur().entities[k];
      var step := ChaseStep(Abs(player.x - m.x), Abs(player.y - m.y), Sign(player.x - m.x), Sign(player.y - m.y));
      var _ := Step(k, kind, step.0, step.1);
    }

    /** The monster at k is sound and stands on a walkable tile of the current floor. */
    lemma MonsterSound(k: int)
      requires Valid() && 0 <= k < |Cur().entities|
      ensures MonsterOk(Cur().entities[k]) && Cur().Walkable(Cur().entities[k].x, Cur().entities[k].y)
    {
      assert Cur().Ready();
    }

    /** Every monster of the current floor stands on the grid. */
    lemma MonstersOnGrid()
      requires Valid()
      ensures OnGrid(Cur().entities)
    {
      forall j | 0 <= j < |Cur().entities|
        ensures InBounds(Cur().entities[j].x, Cur().entities[j].y)
      {
        MonsterSound(j);
      }
    }

    /**
     * A drone's or alien's turn: within distance 8 (`hypot <= 8`) it tries
     * the hunting moves in order until one succeeds, and steps at random if
     * none does; farther away it steps at random.
     */
    method HuntAct(k: int)
      requires Valid() && 0 <= k < |Cur().entities|
      modifies Cur()`entities, `player, rng
      ensures Valid()
      ensures Acted(old(Cur().entities), Cur().entities, k, old(player), player)
      ensures Cur().entities[k].kind == old(Cur().entities[k].kind)
      ensures (Cur().entities, player, rng.state) == old(HuntTurn(Cur().tiles, Cur().entities, k, player, rng.state))
      ensures old(DistSq(Cur().entities[k].x - player.x, Cur().entities[k].y - player.y)) > 8 * 8 ==>
        (Cur().entities, player, rng.state) == old(Wandered(Cur().tiles, Cur().entities, k, player, rng.state))
    {
      var m := Cur().entities[k];
      ghost var es0, p0 := Cur().entities, player;
      ghost var turn := HuntTurn(Cur().tiles, es0, k, p0, rng.state);
      ghost var wander := Wandered(Cur().tiles, es0, k, p0, rng.state);
      ghost var opts := HuntMoves(m, p0);
      var near := DistSq(m.x - player.x, m.y - player.y) <= 8 * 8;
      ghost var i := if near then FirstAccepted(Cur().tiles, es0, k, p0, opts, 0) else -1;
      assert i < 0 ==> turn == wander;
      var moved := false;
      if near {
        moved := Hunt(k);
      }
      if !moved {
        MonsterSound(k);
        assert Cur().entities[k := Cur().entities[k].(kind := m.kind)] == Cur().entities;
        Wander(k, m.kind);
      }
    }

    /**
     * The hunting moves of the monster at k toward the player, in order of
     * preference, until one succeeds. When none does nothing has changed.
     */
    method Hunt(k: int) returns (moved: bool)
      requires Valid() && 0 <= k < |Cur().entities|
      modifies Cur()`entities, `player
      ensures Valid()
      ensures Acted(old(Cur().entities), Cur().entities, k, old(player), player)
      ensures Cur().entities[k].kind == old(Cur().entities[k].kind)
      ensures !moved ==> Cur().entities == old(Cur().entities) && player == old(player)
      ensures var opts := old(HuntMoves(Cur().entities[k], player));
        var i := old(FirstAccepted(Cur().tiles, Cur().entities, k, player, opts, 0));
        && (moved <==> i >= 0)
        && (i >= 0 ==> (Cur().entities, player) == old(MoveOutcome(Cur().tiles, Cur().entities, k, player, opts[i].0, opts[i].1)))
    {
      var m := Cur().entities[k];
      var options := HuntMoves(m, player);
      ghost var es0, p0 := Cur().entities, player;
      ghost var first := FirstAccepted(Cur().tiles, es0, k, p0, options, 0);
      moved := false;
      for i := 0 to |options|
        invariant Valid() && !moved && Cur().entities == es0 && player == p0
        invariant first == FirstAccepted(Cur().tiles, es0, k, p0, options, i)
      {
        var step := options[i];
        moved := MoveMonster(k, step.0, step.1);
        if moved {
          assert first == i;
          break;
        }
      }
    }

    /** One monster's turn in `endTurn()`, chosen by its kind. */
    method MonsterAct(k: int)
      requires Valid() && 0 <= k < |Cur().entities|
      modifies Cur()`entities, `player, rng
      ensures Valid()
      ensures Acted(old(Cur().entities), Cur().entities, k, old(player), player)
      ensures (Cur().entities, player, rng.state) == old(MonsterTurn(Cur().tiles, Cur().entities, k, player, rng.state))
    {
      var m := Cur().entities[k];
      if m.kind.Sentry? || m.kind.Boss? {
        MonsterSound(k);
        var seen, _ := Visible(Cur().tiles, m.x, m.y, player.x, player.y);
        if m.kind.Sentry? {
          SentryAct(k, seen);
        } else {
          BossAct(k, seen);
        }
      } else {
        HuntAct(k);
      }
    }

    /**
     * `endTurn()`: every monster of the current floor acts once, in list
     * order; then the shield counts down and the blaster cools. Monsters
     * act whatever the player's hp.
     */
    method EndTurn()
      requires Valid()
      modifies Cur()`entities, `player, rng
      ensures Valid()
      ensures AllStepped(old(Cur().entities), Cur().entities)
      ensures Decayed(old(player), player)
      ensures (Cur().entities, player, rng.state) == old(AfterTurn(Cur().tiles, Cur().entities, player, rng.state))
    {
      MonstersOnGrid();
      TurnsStepped(Cur().tiles, Cur().entities, player, rng.state, |Cur().entities|);
      MonstersAct();
      player := player.(shieldTurns := Tick(player.shieldTurns), heat := Cool(player.heat));
    }

    /** The monsters' half of `endTurn()`: every monster of the current floor takes its turn once, in list order. */
    method MonstersAct()
      requires Valid()
      modifies Cur()`entities, `player, rng
      ensures Valid()
      ensures (Cur().entities, player, rng.state) == old(Turns(Cur().tiles, Cur().entities, player, rng.state, |Cur().entities|))
    {
      ghost var es0, p0, s0 := Cur().entities, player, rng.state;
      var f := Cur();
      ghost var m := f.tiles;
      assert Sized(m) && 0 < s0 < Modulus;
      ghost var trace := Trace(m, es0, p0, s0, |es0|);
      for k := 0 to |f.entities|
        invariant Valid() && f == Cur() && k <= |es0|
        invariant (f.entities, player, rng.state) == trace[k]
      {
        MonsterAct(k);
      }
    }

    /** A hit of dmg on the monster at k: it loses dmg hp and is removed once its hp drops to 0 or below. */
    method Hit(k: int, dmg: int)
      requires Valid() && 0 <= k < |Cur().entities| && dmg >= 1
      modifies Cur()`entities
      ensures Valid()
      ensures Cur().entities == Struck(old(Cur().entities), k, dmg)
    {
      StruckKeeps(Cur().entities, k, dmg);
      Cur().entities := Struck(Cur().entities, k, dmg);
    }

    /** Replace the player's stat block by p, a sound one standing where the player stands. */
    method Equip(p: Player)
      requires Valid() && PlayerOk(p) && p.x == player.x && p.y == player.y
      modifies `player
      ensures Valid() && player == p
    {
      player := p;
    }

    /** The player's melee attack on the monster at k, then the end of the turn. */
    method Attack(k: int, crit: bool, wear: Unit)
      requires Valid() && 0 <= k < |Cur().entities|
      modifies Cur()`entities, `player, rng
      ensures Valid()
      ensures AllStepped(Struck(old(Cur().entities), k, MeleeDamage(old(player), crit)), Cur().entities)
      ensures Decayed(Swung(old(player), wear), player)
      ensures (Cur().entities, player, rng.state) ==
        AfterTurn(Cur().tiles, Struck(old(Cur().entities), k, MeleeDamage(old(player), crit)), Swung(old(player), wear), old(rng.state))
    {
      Hit(k, MeleeDamage(player, crit));
      Equip(Swung(player, wear));
      EndTurn();
    }

    /** The player's step onto the walkable cell (x, y), then the end of the turn. */
    method Walk(x: int, y: int)
      requires Valid() && Cur().Walkable(x, y)
      modifies Cur()`entities, `player, rng
      ensures Valid()
      ensures AllStepped(old(Cur().entities), Cur().entities)
      ensures Decayed(old(player).(x := x, y := y), player)
      ensures (Cur().entities, player, rng.state) == AfterTurn(Cur().tiles, old(Cur().entities), old(player).(x := x, y := y), old(rng.state))
    {
      player := player.(x := x, y := y);
      EndTurn();
    }

    /**
     * `tryPlayerMove(dx, dy)`: a monster on the target cell is hit (with the
     * critical-hit draw and the saber-wear draw); otherwise the player steps
     * onto a walkable target. Either way the turn ends; a blocked move
     * costs no turn.
     */
    method TryPlayerMove(dx: int, dy: int, critDraw: Unit, wearDraw: Unit) returns (r: Bump)
      requires Valid()
      modifies Cur()`entities, `player, rng
      ensures Valid()
      ensures var nx, ny := old(player.x) + dx, old(player.y) + dy;
        var k := MonsterAt(old(Cur().entities), nx, ny);
        && (k >= 0 ==>
              && r == Attacked(k)
              && AllStepped(Struck(old(Cur().entities), k, MeleeDamage(old(player), critDraw < CritChance)), Cur().entities)
              && (Cur().entities, player, rng.state) ==
                   AfterTurn(Cur().tiles, Struck(old(Cur().entities), k, MeleeDamage(old(player), critDraw < CritChance)), Swung(old(player), wearDraw), old(rng.state)))
        && (k < 0 && Cur().Walkable(nx, ny) ==>
              && r == Walked && AllStepped(old(Cur().entities), Cur().entities)
              && (Cur().entities, player, rng.state) == AfterTurn(Cur().tiles, old(Cur().entities), old(player).(x := nx, y := ny), old(rng.state)))
        && (k < 0 && !Cur().Walkable(nx, ny) ==>
              r == Blocked && Cur().entities == old(Cur().entities) && player == old(player) && rng.state == old(rng.state))
    {
      var nx, ny := player.x + dx, player.y + dy;
      var k := MonsterAt(Cur().entities, nx, ny);
      if k >= 0 {
        Attack(k, critDraw < CritChance, wearDraw);
        r := Attacked(k);
      } else if Cur().Walkable(nx, ny) {
        Walk(nx, ny);
        r := Walked;
      } else {
        r := Blocked;
      }
    }

    /**
     * `pickUp()`: the first item under the player leaves the floor and is
     * collected. Picking up costs no turn.
     */
    method PickUp() returns (picked: bool)
      requires Valid()
      modifies Cur()`items, `player
      ensures Valid()
      ensures var k := ItemAt(old(Cur().items), old(player.x), old(player.y));
        && picked == (k >= 0)
        && (k >= 0 ==> Cur().items == RemoveAt(old(Cur().items), k) && player == Collect(old(player), old(Cur().items)[k].item))
        && (k < 0 ==> Cur().items == old(Cur().items) && player == old(player))
    {
      var k := ItemAt(Cur().items, player.x, player.y);
      picked := k >= 0;
      if picked {
        var it := Cur().items[k].item;
        Cur().items := RemoveAt(Cur().items, k);
        player := Collect(player, it);
      }
    }

    /**
     * `waitTurn()`: the player rests (shield countdown, cooling, a chance
     * `u < 0.6` of clearing the jam), then the turn ends and decays shield
     * and heat a second time.
     */
    method WaitTurn(u: Unit)
      requires Valid()
      modifies Cur()`entities, `player, rng
      ensures Valid()
      ensures AllStepped(old(Cur().entities), Cur().entities)
      ensures Decayed(Rest(old(player), u), player)
      ensures (Cur().entities, player, rng.state) == AfterTurn(Cur().tiles, old(Cur().entities), Rest(old(player), u), old(rng.state))
      ensures player.heat == Cool(Cool(old(player.heat))) && player.shieldTurns == Tick(Tick(old(player.shieldTurns)))
      ensures old(player.heat) >= 20 ==> player.heat == old(player.heat) - 20
      ensures old(player.shieldTurns) >= 2 ==> player.shieldTurns == old(player.shieldTurns) - 2
    {
      player := Rest(player, u);
      EndTurn();
    }

    /** `handleUse()`: the first usable item in the order medkit, repair kit, shield emitter; using one ends the turn. */
    method HandleUse() returns (used: Used)
      requires Valid()
      modifies Cur()`entities, `player, rng
      ensures Valid()
      ensures used == UseItem(old(player)).0
      ensures used != NothingUsed ==> AllStepped(old(Cur().entities), Cur().entities) && Decayed(UseItem(old(player)).1, player)
      ensures used != NothingUsed ==>
        (Cur().entities, player, rng.state) == AfterTurn(Cur().tiles, old(Cur().entities), UseItem(old(player)).1, old(rng.state))
      ensures used == NothingUsed ==> Cur().entities == old(Cur().entities) && player == old(player) && rng.state == old(rng.state)
    {
      var p;
      used, p := UseItem(player).0, UseItem(player).1;
      if used != NothingUsed {
        player := p;
        EndTurn();
      }
    }

    /** `toggleWeapon()`: no turn passes. */
    method Toggle()
      requires Valid()
      modifies `player
      ensures Valid()
      ensures player == old(player).(weapon := ToggleWeapon(old(player)))
    {
      player := player.(weapon := ToggleWeapon(player));
    }

    /** `cycleSaberColor()`: no turn passes. */
    method CycleColor()
      requires Valid()
      modifies `player
      ensures Valid()
      ensures player == old(player).(saberColor := NextColor(old(player.saberColor)))
    {
      player := player.(saberColor := NextColor(player.saberColor));
    }

    /** `cycleSaberForm()`: no turn passes. */
    method CycleForm()
      requires Valid()
      modifies `player
      ensures Valid()
      ensures player == old(player).(saberForm := NextForm(old(player.saberForm)))
    {
      player := player.(saberForm := NextForm(player.saberForm));
    }

    /** The blaster's hit on the monster at k, when the beam found one (k >= 0). */
    method Blast(k: int, crit: bool)
      requires Valid() && -1 <= k < |Cur().entities| && Find(player.bag, DurableBlaster) >= 0
      modifies Cur()`entities
      ensures Valid()
      ensures var bl := player.bag[Find(player.bag, DurableBlaster)];
        Cur().entities == if k >= 0 then Struck(old(Cur().entities), k, ShotDamage(bl, crit)) else old(Cur().entities)
    {
      if k >= 0 {
        Hit(k, ShotDamage(player.bag[Find(player.bag, DurableBlaster)], crit));
      }
    }

    /**
     * A shot that leaves the barrel, once the beam has found the monster at
     * k (or none, k = -1): the monster takes the blaster's damage (doubled on
     * a critical hit) and is removed at 0 hp; then a cell is spent, heat
     * rises, and the blaster may wear.
     */
    method Shoot(k: int, crit: bool, wear: Unit)
      requires Valid() && -1 <= k < |Cur().entities|
      requires player.ammo > 0 && Find(player.bag, DurableBlaster) >= 0
      modifies Cur()`entities, `player
      ensures Valid()
      ensures var bl := old(player.bag[Find(player.bag, DurableBlaster)]);
        Cur().entities == if k >= 0 then Struck(old(Cur().entities), k, ShotDamage(bl, crit)) else old(Cur().entities)
      ensures player == Worn(Spent(old(player)), wear)
    {
      Blast(k, crit);
      Equip(Worn(Spent(player), wear));
    }

    /** A misfire: a cell and 20 heat are spent, the blaster jams when the draw u is below 0.5, and the turn ends. */
    method Misfire(u: Unit)
      requires Valid() && player.ammo > 0
      modifies Cur()`entities, `player, rng
      ensures Valid()
      ensures AllStepped(old(Cur().entities), Cur().entities)
      ensures Decayed(Spent(old(player)).(jam := old(player.jam) || u < 0.5), player)
      ensures (Cur().entities, player, rng.state) ==
        AfterTurn(Cur().tiles, old(Cur().entities), Spent(old(player)).(jam := old(player.jam) || u < 0.5), old(rng.state))
    {
      Equip(Spent(player).(jam := player.jam || u < 0.5));
      EndTurn();
    }

    /**
     * A shot in direction (dx, dy) that leaves the barrel: the beam from the
     * cell next to the player finds its monster, if any; then the hit, the
     * cost, and the end of the turn. The target is the value of the beam
     * walk, BeamTarget, which the method Beam is proved to compute.
     */
    method Fire(dx: int, dy: int, crit: bool, wear: Unit) returns (k: int)
      requires Valid() && Direction(dx, dy)
      requires player.ammo > 0 && Find(player.bag, DurableBlaster) >= 0
      modifies Cur()`entities, `player, rng
      ensures Valid()
      ensures k == old(BeamTarget(Cur().tiles, Cur().entities, player.x + dx, player.y + dy, dx, dy))
      ensures var bl := old(player.bag[Find(player.bag, DurableBlaster)]);
        AllStepped(if k >= 0 then Struck(old(Cur().entities), k, ShotDamage(bl, crit)) else old(Cur().entities), Cur().entities)
      ensures Decayed(Worn(Spent(old(player)), wear), player)
      ensures var bl := old(player.bag[Find(player.bag, DurableBlaster)]);
        (Cur().entities, player, rng.state) ==
        AfterTurn(Cur().tiles, if k >= 0 then Struck(old(Cur().entities), k, ShotDamage(bl, crit)) else old(Cur().entities),
                  Worn(Spent(old(player)), wear), old(rng.state))
    {
      k := BeamTarget(Cur().tiles, Cur().entities, player.x + dx, player.y + dy, dx, dy);
      Discharge(k, crit, wear);
    }

    /** The shot at the monster the beam found (none when k is -1), then the end of the turn. */
    method Discharge(k: int, crit: bool, wear: Unit)
      requires Valid() && -1 <= k < |Cur().entities|
      requires player.ammo > 0 && Find(player.bag, DurableBlaster) >= 0
      modifies Cur()`entities, `player, rng
      ensures Valid()
      ensures var bl := old(player.bag[Find(player.bag, DurableBlaster)]);
        AllStepped(if k >= 0 then Struck(old(Cur().entities), k, ShotDamage(bl, crit)) else old(Cur().entities), Cur().entities)
      ensures Decayed(Worn(Spent(old(player)), wear), player)
      ensures var bl := old(player.bag[Find(player.bag, DurableBlaster)]);
        (Cur().entities, player, rng.state) ==
        AfterTurn(Cur().tiles, if k >= 0 then Struck(old(Cur().entities), k, ShotDamage(bl, crit)) else old(Cur().entities),
                  Worn(Spent(old(player)), wear), old(rng.state))
    {
      Shoot(k, crit, wear);
      EndTurn();
    }

    /**
     * `tryFire(dx, dy)` with the draws for misfire, jamming, critical hit and
     * wear. A refusing gate changes nothing, except that a broken blaster
     * is swapped for fists; a misfire and a shot both spend exactly one cell
     * and 20 heat (capped at 100) and end the turn.
     */
    method TryFire(dx: int, dy: int, misfireDraw: Unit, jamDraw: Unit, critDraw: Unit, wearDraw: Unit)
      returns (g: Gate, target: int)
      requires Valid() && Direction(dx, dy)
      modifies Cur()`entities, `player, rng
      ensures Valid()
      ensures g == FireGate(old(player), misfireDraw)
      ensures g in {NotWielded, NoAmmo, Jammed, Overheated} ==>
        player == old(player) && Cur().entities == old(Cur().entities) && rng.state == old(rng.state)
      ensures g == Broken ==>
        player == old(player).(weapon := Fists) && Cur().entities == old(Cur().entities) && rng.state == old(rng.state)
      ensures g == Misfired ==>
        && AllStepped(old(Cur().entities), Cur().entities) && Decayed(Spent(old(player)).(jam := jamDraw < 0.5), player)
        && (Cur().entities, player, rng.state) == AfterTurn(Cur().tiles, old(Cur().entities), Spent(old(player)).(jam := jamDraw < 0.5), old(rng.state))
      ensures g == Armed ==>
        var bl := old(player.bag[Find(player.bag, DurableBlaster)]);
        && target == old(BeamTarget(Cur().tiles, Cur().entities, player.x + dx, player.y + dy, dx, dy))
        && AllStepped(if target >= 0 then Struck(old(Cur().entities), target, ShotDamage(bl, critDraw < CritChance)) else old(Cur().entities), Cur().entities)
        && Decayed(Worn(Spent(old(player)), wearDraw), player)
        && (Cur().entities, player, rng.state) ==
             AfterTurn(Cur().tiles, if target >= 0 then Struck(old(Cur().entities), target, ShotDamage(bl, critDraw < CritChance)) else old(Cur().entities),
                       Worn(Spent(old(player)), wearDraw), old(rng.state))
      ensures g == Misfired || g == Armed ==>
        player.ammo == old(player.ammo) - 1 && player.heat == Cool(Heat(old(player.heat)))
    {
      g := FireGate(player, misfireDraw);
      target := -1;
      if g == Broken {
        player := player.(weapon := Fists);
      } else if g == Misfired {
        Misfire(jamDraw);
      } else if g == Armed {
        target := Fire(dx, dy, critDraw < CritChance, wearDraw);
      }
    }

    /**
     * `useElevator()`: on a down elevator above the deepest floor the player
     * descends to the next floor's up elevator; on an up elevator below the
     * top floor they ascend to the previous floor's down elevator; on the
     * exit of the deepest floor the game is won. Elsewhere nothing happens.
     */
    method UseElevator() returns (r: Ride)
      requires Valid()
      modifies `cur, `player
      ensures Valid()
      ensures var t := old(Cur().tiles[player.y, player.x]);
        && (t == Down && old(cur) < MaxFloor - 1 ==>
              r == Descended && cur == old(cur) + 1 && player == old(player).(x := Cur().upPos.value.x, y := Cur().upPos.value.y))
        && (t == Up && old(cur) > 0 ==>
              r == Ascended && cur == old(cur) - 1 && player == old(player).(x := Cur().downPos.value.x, y := Cur().downPos.value.y))
        && (t == Exit && old(cur) == MaxFloor - 1 ==> r == Escaped && cur == old(cur) && player == old(player))
        && (!(t == Down && old(cur) < MaxFloor - 1) && !(t == Up && old(cur) > 0) && !(t == Exit && old(cur) == MaxFloor - 1) ==>
              r == NoElevator && cur == old(cur) && player == old(player))
    {
      var t := Cur().tiles[player.y, player.x];
      if t == Down && cur < MaxFloor - 1 {
        cur := cur + 1;
        player := player.(x := Cur().upPos.value.x, y := Cur().upPos.value.y);
        r := Descended;
      } else if t == Up && cur > 0 {
        cur := cur - 1;
        player := player.(x := Cur().downPos.value.x, y := Cur().downPos.value.y);
        r := Ascended;
      } else if t == Exit && cur == MaxFloor - 1 {
        r := Escaped;
      } else {
        r := NoElevator;
      }
    }

    /** The field-of-view update `render()` performs: `recomputeFOV(player.x, player.y)` on the current floor. */
    method Look()
      requires Valid()
      modifies Cur().fov, Cur().explored
      ensures Valid()
      ensures forall y, x :: 0 <= y < Height && 0 <= x < Width ==>
        Cur().fov[y, x] == InView(Cur().tiles, player.x, player.y, x, y)
      ensures forall y, x :: 0 <= y < Height && 0 <= x < Width ==>
        Cur().explored[y, x] == (old(Cur().explored[y, x]) || Cur().fov[y, x])
    {
      RecomputeFov(Cur(), player.x, player.y);
    }
  }

  /** `genFloor(fi)` seen from the game: a fresh floor, ready for play when generation completes. */
  method PlayableFloor(fi: int, rng: Rng, draw: nat -> Unit) returns (f: FloorState, ok: bool, rooms: seq<Room>, free: seq<Pos>, ghost pool: seq<Pos>)
    requires rng.Valid()
    modifies rng
    ensures rng.Valid() && fresh(f) && fresh(f.tiles)
    ensures ok <==> Completes(fi, |rooms|, |free|)
    ensures ok ==> f.Ready()
    ensures var plan := RoomLoop(RoomPlan([], [], [], 0, old(rng.state)));
      && rooms == plan.rooms
      && (ok ==> multiset(pool) == multiset(free) && f.SpawnedFrom(fi == MaxFloor - 1, pool, plan.state, rng.state))
  {
    ghost var doorAt, strokes;
    f, ok, rooms, doorAt, strokes, free, pool := GenFloor(fi, rng, draw);
  }

  /**
   * `resetGame()`: generate the three floors in order from the page's one
   * generator and start on floor 0. `None` stands for a generation that
   * throws, which only the deepest floor can do; rooms and free are that
   * floor's rooms and free tiles. Floor i shuffles with its own draws
   * `draw(i)`, as each `Math.random()` call is a fresh one.
   */
  method ResetGame(rng: Rng, draw: nat -> nat -> Unit) returns (g: Option<Game>, rooms: seq<Room>, free: seq<Pos>)
    requires rng.Valid()
    modifies rng
    ensures rng.Valid()
    ensures g.Some? <==> Completes(MaxFloor - 1, |rooms|, |free|)
    ensures g.Some? ==> g.value.Valid() && g.value.cur == 0 && fresh(g.value) && g.value.rng == rng
    ensures g.Some? ==> g.value.player == NewPlayer(g.value.floors[0].upPos.value)
  {
    var fs: seq<FloorState> := [];
    rooms, free := [], [];
    for i := 0 to MaxFloor
      invariant rng.Valid() && |fs| == i
      invariant i > 0 ==> Completes(i - 1, |rooms|, |free|)
      invariant forall a, b :: 0 <= a < b < |fs| ==> fs[a] != fs[b]
      invariant forall k :: 0 <= k < |fs| ==> fs[k].Ready() && fresh(fs[k]) && fresh(fs[k].tiles)
      invariant forall a, b :: 0 <= a < b < |fs| ==> fs[a].tiles != fs[b].tiles
    {
      var f, ok;
      ghost var pool;
      f, ok, rooms, free, pool := PlayableFloor(i, rng, draw(i));
      if !ok {
        return None, rooms, free;
      }
      fs := fs + [f];
    }
    var game := new Game(fs, rng);
    g := Some(game);
  }
}

=== FILE: grid.dfy ===
/**
 * The fixed 80 x 24 tile grid every floor is laid out on, and the small
 * integer helpers the simulation uses on grid coordinates.
 */
module Grid {

  const Width: int := 80
  const Height: int := 24

  /** The tile kinds: `#`, `.`, `+`, `<`, `>` and `X`. */
  datatype Tile = Wall | Floor | Door | Up | Down | Exit

  datatype Pos = Pos(x: int, y: int)

  /** `inBounds(x, y)`. */
  predicate InBounds(x: int, y: int)
  {
    0 <= x < Width && 0 <= y < Height
  }

  /** Every tile but a wall can be walked on. */
  predicate IsWalkableTile(t: Tile)
  {
    t == Floor || t == Door || t == Up || t == Down || t == Exit
  }

  function Abs(v: int): (r: int)
    ensures r >= 0 && (r == v || r == -v)
  {
    if v < 0 then -v else v
  }

  function Max(a: int, b: int): (r: int)
    ensures r >= a && r >= b && (r == a || r == b)
  {
    if a < b then b else a
  }

  function Min(a: int, b: int): (r: int)
    ensures r <= a && r <= b && (r == a || r == b)
  {
    if a < b then a else b
  }

  /** `Math.sign` on integers. */
  function Sign(v: int): (r: int)
    ensures -1 <= r <= 1
    ensures r * v == Abs(v)
    ensures r == 0 <==> v == 0
  {
    if v > 0 then 1 else if v < 0 then -1 else 0
  }

  /** `clamp(v, lo, hi)`: `Math.max(lo, Math.min(hi, v))`. */
  function Clamp(v: int, lo: int, hi: int): (r: int)
    ensures lo <= r
    ensures lo <= hi ==> r <= hi
    ensures lo <= v <= hi ==> r == v
    ensures v < lo ==> r == lo
    ensures lo <= hi < v ==> r == hi
  {
    Max(lo, Min(hi, v))
  }

  /** A clamped step of at most one tile moves at most one tile and stays on the grid. */
  lemma ClampedStep(p: Pos, dx: int, dy: int)
    requires InBounds(p.x, p.y)
    requires -1 <= dx <= 1 && -1 <= dy <= 1
    ensures InBounds(Clamp(p.x + dx, 0, Width - 1), Clamp(p.y + dy, 0, Height - 1))
    ensures Abs(Clamp(p.x + dx, 0, Width - 1) - p.x) <= 1
    ensures Abs(Clamp(p.y + dy, 0, Height - 1) - p.y) <= 1
  {
  }

  /** Squared Euclidean distance, the form of `Math.hypot(dx, dy) <= r` and of the view radius test. */
  function DistSq(dx: int, dy: int): (d: int)
    ensures d >= 0
    ensures d >= dx * dx && d >= dy * dy
  {
    dx * dx + dy * dy
  }

  /** An offset of more than r tiles on one axis puts a point outside the circle of radius r. */
  lemma FarOnAxis(dx: int, dy: int, r: nat)
    requires Abs(dx) > r
    ensures DistSq(dx, dy) > r * r
  {
    var a := Abs(dx);
    assert a * a == dx * dx;
    assert a * a >= (r + 1) * a >= (r + 1) * (r + 1);
  }
}

=== FILE: rng.dfy ===
/**
 * The seeded pseudo-random source of the simulation: the Park-Miller
 * "minimal standard" Lehmer generator with the revised multiplier 48271
 * (MINSTD). Floor layout, monster kinds, item drops and the random steps of
 * the monster AI all draw from one shared stream.
 */
module Random {

  const Modulus: int := 2147483647
  const Multiplier: int := 48271
  /** The inverse of Multiplier modulo Modulus: Multiplier * Inverse == 1 + 42704 * Modulus. */
  const Inverse: int := 1899818559

  /** One step of the generator: `s * 48271 % 2147483647`. */
  function NextState(s: int): (r: int)
    requires 0 <= s < Modulus
    ensures 0 <= r < Modulus
  {
    s * Multiplier % Modulus
  }

  /**
   * A nonzero state never becomes zero: the step is multiplication by a unit
   * modulo Modulus, so it can be undone by multiplying with Inverse.
   */
  lemma NextStateUndone(s: int)
    requires 0 <= s < Modulus
    ensures NextState(s) * Inverse % Modulus == s
    ensures 0 < s ==> 0 < NextState(s)
  {
    var q := s * Multiplier / Modulus;
    var r := s * Multiplier % Modulus;
    assert s * Multiplier == q * Modulus + r;
    assert Multiplier * Inverse == 1 + 42704 * Modulus;
    var k := 42704 * s - q * Inverse;
    assert r * Inverse == s + k * Modulus;
    ModuloOffset(s, k);
  }

  /** A nonzero state steps to a nonzero state. */
  lemma NextStateNonzero(s: int)
    requires 0 < s < Modulus
    ensures 0 < NextState(s)
  {
    NextStateUndone(s);
  }

  /** The state n steps after s; a nonzero state stays nonzero. */
  function Iter(s: int, n: nat): (r: int)
    requires 0 <= s < Modulus
    ensures 0 <= r < Modulus
    ensures 0 < s ==> 0 < r
  {
    if n == 0 then s
    else
      var t := Iter(s, n - 1);
      if 0 < s then NextStateNonzero(t); NextState(t) else NextState(t)
  }

  lemma ModuloOffset(s: int, k: int)
    requires 0 <= s < Modulus
    ensures (s + k * Modulus) % Modulus == s
  {
  }

  /**
   * The value of `range(a, b)` once the step has produced `v`:
   * `a + floor(nextFloat() * (b - a + 1))` with `nextFloat() == (v - 1) / 2147483646`,
   * computed exactly (the divisor is positive, so `/` is the floor).
   */
  function RangeOf(a: int, b: int, v: int): int
  {
    a + (v - 1) * (b - a + 1) / (Modulus - 1)
  }

  /**
   * For every state the generator can reach from a nonzero seed,
   * `range(a, b)` lies in [a, b]: `nextFloat()` is at most
   * 2147483645/2147483646, strictly below 1.
   */
  lemma RangeWithin(a: int, b: int, v: int)
    requires 0 < v < Modulus
    requires a <= b
    ensures a <= RangeOf(a, b, v) <= b
  {
    var n := b - a + 1;
    var p := (v - 1) * n;
    MulBounds(v - 1, Modulus - 2, n);
    assert 0 <= p <= (Modulus - 2) * n;
    assert p < (Modulus - 1) * n;
    assert p / (Modulus - 1) * (Modulus - 1) <= p;
  }

  lemma MulBounds(u: int, hi: int, n: int)
    requires 0 <= u <= hi
    requires 0 < n
    ensures 0 <= u * n <= hi * n
  {
  }

  /** The seeding as written: `Date.now() % 2147483647`, which is zero once every Modulus milliseconds. */
  function SeedAsWritten(time: nat): (s: int)
    ensures 0 <= s < Modulus
  {
    time % Modulus
  }

  /**
   * A zero state is a fixed point of the step, and from it `range(a, b)`
   * yields a - 1: outside the requested range on every call.
   */
  lemma ZeroSeedStuck(time: nat, a: int, b: int)
    requires time % Modulus == 0
    requires a <= b < a + Modulus - 1
    ensures SeedAsWritten(time) == 0
    ensures NextState(SeedAsWritten(time)) == 0
    ensures RangeOf(a, b, NextState(SeedAsWritten(time))) == a - 1
  {
    var n := b - a + 1;
    assert -n == -1 * (Modulus - 1) + (Modulus - 1 - n);
  }

  /** The seeding used by the model: a time that is a multiple of Modulus gives state 1. */
  function Seed(time: nat): (s: int)
    ensures 0 < s < Modulus
    ensures time % Modulus != 0 ==> s == SeedAsWritten(time)
  {
    if time % Modulus == 0 then 1 else time % Modulus
  }

  /** The generator object: its state is updated in place by every draw. */
  class Rng {
    var state: int

    ghost predicate Valid()
      reads this
    {
      0 < state < Modulus
    }

    constructor (time: nat)
      ensures Valid() && state == Seed(time)
    {
      state := Seed(time);
    }

    /** `next()`: advance the state and return it. */
    method Next() returns (v: int)
      requires Valid()
      modifies this
      ensures Valid()
      ensures state == NextState(old(state)) && v == state
    {
      NextStateUndone(state);
      state := state * Multiplier % Modulus;
      v := state;
    }

    /** `range(a, b)`: one step of the generator scaled to [a, b]. */
    method Range(a: int, b: int) returns (r: int)
      requires Valid()
      modifies this
      ensures Valid()
      ensures state == NextState(old(state))
      ensures r == RangeOf(a, b, state)
      ensures a <= b ==> a <= r <= b
    {
      var v := Next();
      r := a + (v - 1) * (b - a + 1) / (Modulus - 1);
      if a <= b {
        RangeWithin(a, b, v);
      }
    }
  }
}

=== FILE: sight.dfy ===
/**
 * Line of sight: the integer, all-octant Bresenham walk of `visible`
 * (main.js), shared by the player's field of view and by the monsters'
 * decision to shoot. The walk starts at the observer, stops with "visible"
 * on reaching the target, and stops with "hidden" on a wall strictly between
 * the two or on a step off the grid.
 */
module Sight {
  import opened Grid

  /** A grid of tiles, indexed `[y, x]` as `f.map[y][x]` is. */
  predicate Sized<T>(m: array2<T>)
  {
    m.Length0 == Height && m.Length1 == Width
  }

  /** `opaque(f, x, y)`: a wall. A cell off the grid reads as undefined, which is not a wall. */
  predicate Opaque(m: array2<Tile>, x: int, y: int)
    reads m
    requires Sized(m)
  {
    InBounds(x, y) && m[y, x] == Wall
  }

  /** The direction of travel on one axis: `x0 < x1 ? 1 : -1`. */
  function Dir(a0: int, a1: int): (s: int)
    ensures s == 1 || s == -1
  {
    if a0 < a1 then 1 else -1
  }

  /** The position and error term of the walk. */
  datatype Walker = Walker(x: int, y: int, err: int)

  /** The walk's initial state: at the observer, with `err = dx + dy`. */
  function Start(x0: int, y0: int, x1: int, y1: int): Walker
  {
    Walker(x0, y0, Abs(x1 - x0) - Abs(y1 - y0))
  }

  /** One error-term update: `e2 = 2*err`; step x when `e2 >= dy`, step y when `e2 <= dx`. */
  function Advance(x0: int, y0: int, x1: int, y1: int, w: Walker): Walker
  {
    var dx: int, dy: int := Abs(x1 - x0), -Abs(y1 - y0);
    var e2 := 2 * w.err;
    var v := if e2 >= dy then Walker(w.x + Dir(x0, x1), w.y, w.err + dy) else w;
    if e2 <= dx then Walker(v.x, v.y + Dir(y0, y1), v.err + dx) else v
  }

  /** The cells left between the walker and the far edges of the grid, in the walk's direction. */
  function Room(x0: int, y0: int, x1: int, y1: int, x: int, y: int): int
  {
    (if x0 < x1 then Width - x else x + 1) + (if y0 < y1 then Height - y else y + 1)
  }

  /** The walk from state w on: the body of the `while(true)` loop of `visible`. */
  function Walk(m: array2<Tile>, x0: int, y0: int, x1: int, y1: int, w: Walker): bool
    reads m
    requires Sized(m)
    decreases Room(x0, y0, x1, y1, w.x, w.y)
  {
    if w.x == x1 && w.y == y1 then true
    else if !(w.x == x0 && w.y == y0) && Opaque(m, w.x, w.y) then false
    else
      var v := Advance(x0, y0, x1, y1, w);
      if !InBounds(v.x, v.y) then false
      else Walk(m, x0, y0, x1, y1, v)
  }

  /** `visible(x0, y0, x1, y1)` on grid m; the observer always sees its own cell. */
  function Sight(m: array2<Tile>, x0: int, y0: int, x1: int, y1: int): (r: bool)
    reads m
    requires Sized(m)
    ensures x0 == x1 && y0 == y1 ==> r
  {
    Walk(m, x0, y0, x1, y1, Start(x0, y0, x1, y1))
  }

  /** The number of updates the walk from w makes before it stops. */
  ghost function Length(m: array2<Tile>, x0: int, y0: int, x1: int, y1: int, w: Walker): nat
    reads m
    requires Sized(m)
    decreases Room(x0, y0, x1, y1, w.x, w.y)
  {
    if w.x == x1 && w.y == y1 then 0
    else if !(w.x == x0 && w.y == y0) && Opaque(m, w.x, w.y) then 0
    else
      var v := Advance(x0, y0, x1, y1, w);
      if !InBounds(v.x, v.y) then 1
      else 1 + Length(m, x0, y0, x1, y1, v)
  }

  /**
   * Bresenham's invariant: after i steps along x and j along y the walker is
   * at (x0 +- i, y0 +- j) inside the bounding box of the two endpoints, and
   * its deviation from the exact line, dev = j*|dx| - i*|dy|, stays within
   * half the longer side.
   */
  ghost predicate OnTrack(x0: int, y0: int, x1: int, y1: int, w: Walker, i: int, j: int, dev: int)
  {
    var a, b := Abs(x1 - x0), Abs(y1 - y0);
    && 0 <= i <= a && 0 <= j <= b
    && w.x == (if x0 < x1 then x0 + i else x0 - i)
    && w.y == (if y0 < y1 then y0 + j else y0 - j)
    && dev == j * a - i * b
    && w.err == a - b + dev
    && -Max(a, b) <= 2 * dev <= Max(a, b)
  }

  lemma StartOnTrack(x0: int, y0: int, x1: int, y1: int)
    ensures OnTrack(x0, y0, x1, y1, Start(x0, y0, x1, y1), 0, 0, 0)
  {
  }

  lemma MulLeft(a: int, u: int, v: int)
    requires 0 <= a && u <= v
    ensures a * u <= a * v
  {
  }

  /**
   * One update keeps the walker on track, never overshoots the target on
   * either axis, always steps along the longer axis, and so reaches the
   * target after exactly max(|dx|, |dy|) updates.
   */
  lemma AdvanceOnTrack(x0: int, y0: int, x1: int, y1: int, w: Walker, i: int, j: int, dev: int)
    returns (i': int, j': int, dev': int)
    requires OnTrack(x0, y0, x1, y1, w, i, j, dev)
    requires !(w.x == x1 && w.y == y1)
    ensures OnTrack(x0, y0, x1, y1, Advance(x0, y0, x1, y1, w), i', j', dev')
    ensures i <= i' <= i + 1 && j <= j' <= j + 1
    ensures Abs(x1 - x0) >= Abs(y1 - y0) ==> i' == i + 1
    ensures Abs(x1 - x0) < Abs(y1 - y0) ==> j' == j + 1
  {
    var a, b := Abs(x1 - x0), Abs(y1 - y0);
    var xs, ys := 2 * w.err >= -b, 2 * w.err <= a;
    NoOvershoot(a, b, i, j, dev, x0 == x1 || i != a, y0 == y1 || j != b);
    i' := if xs then i + 1 else i;
    j' := if ys then j + 1 else j;
    dev' := dev - (if xs then b else 0) + (if ys then a else 0);
    DevStep(a, b, i, j, xs, ys);
    var v := Advance(x0, y0, x1, y1, w);
    assert v.x == (if x0 < x1 then x0 + i' else x0 - i');
    assert v.y == (if y0 < y1 then y0 + j' else y0 - j');
    assert v.err == a - b + dev';
    assert -Max(a, b) <= 2 * dev' <= Max(a, b);
    assert dev' == j' * a - i' * b;
    assert 0 <= i' <= a && 0 <= j' <= b;
    assert OnTrack(x0, y0, x1, y1, v, i', j', dev');
  }

  /** The bookkeeping of dev: stepping y adds |dx|, stepping x subtracts |dy|. */
  lemma DevStep(a: int, b: int, i: int, j: int, xs: bool, ys: bool)
    ensures (if ys then j + 1 else j) * a - (if xs then i + 1 else i) * b
         == j * a - i * b + (if ys then a else 0) - (if xs then b else 0)
  {
    if ys { assert (j + 1) * a == j * a + a; }
    if xs { assert (i + 1) * b == i * b + b; }
  }

  /**
   * The error-term tests in terms of dev: x steps when 2*dev >= |dy| - 2|dx|,
   * y steps when 2*dev <= 2|dy| - |dx|. Neither steps past the target, at
   * least one steps, and the longer axis always steps.
   */
  lemma NoOvershoot(a: int, b: int, i: int, j: int, dev: int, xOpen: bool, yOpen: bool)
    requires 0 <= i <= a && 0 <= j <= b
    requires dev == j * a - i * b
    requires -Max(a, b) <= 2 * dev <= Max(a, b)
    requires xOpen || yOpen
    ensures i == a && j < b ==> 2 * dev < b - 2 * a
    ensures j == b && i < a ==> 2 * dev > 2 * b - a
  {
    if i == a && j < b {
      assert dev == a * (j - b);
      MulLeft(a, j - b, -1);
    }
    if j == b && i < a {
      assert dev == b * (a - i);
      MulLeft(b, 1, a - i);
    }
  }

  /**
   * With both endpoints on the grid, the walk can only be stopped by a wall:
   * if no cell of the bounding box other than the two endpoints is a wall,
   * the target is visible.
   */
  lemma {:induction false} WalkClear(m: array2<Tile>, x0: int, y0: int, x1: int, y1: int,
                                    w: Walker, i: int, j: int, dev: int)
    requires Sized(m)
    requires InBounds(x0, y0) && InBounds(x1, y1)
    requires OnTrack(x0, y0, x1, y1, w, i, j, dev)
    requires ClearBetween(m, x0, y0, x1, y1)
    ensures Walk(m, x0, y0, x1, y1, w)
    decreases Abs(x1 - x0) - i + Abs(y1 - y0) - j
  {
    if !(w.x == x1 && w.y == y1) {
      var i', j', dev' := AdvanceOnTrack(x0, y0, x1, y1, w, i, j, dev);
      WalkClear(m, x0, y0, x1, y1, Advance(x0, y0, x1, y1, w), i', j', dev');
    }
  }

  /** A walker on track stops within the updates left on the longer axis. */
  lemma {:induction false} LengthBound(m: array2<Tile>, x0: int, y0: int, x1: int, y1: int,
                                      w: Walker, i: int, j: int, dev: int)
    requires Sized(m)
    requires OnTrack(x0, y0, x1, y1, w, i, j, dev)
    ensures Length(m, x0, y0, x1, y1, w) <=
      if Abs(x1 - x0) >= Abs(y1 - y0) then Abs(x1 - x0) - i else Abs(y1 - y0) - j
    decreases Abs(x1 - x0) - i + Abs(y1 - y0) - j
  {
    if !(w.x == x1 && w.y == y1) {
      var i', j', dev' := AdvanceOnTrack(x0, y0, x1, y1, w, i, j, dev);
      var v := Advance(x0, y0, x1, y1, w);
      if InBounds(v.x, v.y) {
        LengthBound(m, x0, y0, x1, y1, v, i', j', dev');
      }
    }
  }

  /** No wall in the bounding box of the two points, the points themselves excepted. */
  ghost predicate ClearBetween(m: array2<Tile>, x0: int, y0: int, x1: int, y1: int)
    reads m
    requires Sized(m)
  {
    forall x, y ::
      (Min(x0, x1) <= x <= Max(x0, x1) && Min(y0, y1) <= y <= Max(y0, y1) &&
       !(x == x0 && y == y0) && !(x == x1 && y == y1)) ==> !Opaque(m, x, y)
  }

  /** A target is hidden only behind a wall: with no wall between, it is visible. */
  lemma SightClear(m: array2<Tile>, x0: int, y0: int, x1: int, y1: int)
    requires Sized(m)
    requires InBounds(x0, y0) && InBounds(x1, y1)
    requires ClearBetween(m, x0, y0, x1, y1)
    ensures Sight(m, x0, y0, x1, y1)
  {
    StartOnTrack(x0, y0, x1, y1);
    WalkClear(m, x0, y0, x1, y1, Start(x0, y0, x1, y1), 0, 0, 0);
  }

  /** Every cell next to the observer (diagonals included) is visible, whatever it holds. */
  lemma SightAdjacent(m: array2<Tile>, x0: int, y0: int, x1: int, y1: int)
    requires Sized(m)
    requires InBounds(x1, y1)
    requires Abs(x1 - x0) <= 1 && Abs(y1 - y0) <= 1
    ensures Sight(m, x0, y0, x1, y1)
  {
    var w := Start(x0, y0, x1, y1);
    if !(x0 == x1 && y0 == y1) {
      var v := Advance(x0, y0, x1, y1, w);
      assert v.x == x1 && v.y == y1;
      assert Walk(m, x0, y0, x1, y1, v);
    }
  }

  /** Only the cells strictly between the endpoints matter: what the two endpoints hold is never consulted. */
  lemma {:induction false} WalkIgnoresEnds(m1: array2<Tile>, m2: array2<Tile>,
                                          x0: int, y0: int, x1: int, y1: int, w: Walker)
    requires Sized(m1) && Sized(m2)
    requires forall x, y :: InBounds(x, y) && !(x == x0 && y == y0) && !(x == x1 && y == y1) ==>
               m1[y, x] == m2[y, x]
    ensures Walk(m1, x0, y0, x1, y1, w) == Walk(m2, x0, y0, x1, y1, w)
    decreases Room(x0, y0, x1, y1, w.x, w.y)
  {
    if !(w.x == x1 && w.y == y1) && !(!(w.x == x0 && w.y == y0) && Opaque(m1, w.x, w.y)) {
      var v := Advance(x0, y0, x1, y1, w);
      if InBounds(v.x, v.y) {
        WalkIgnoresEnds(m1, m2, x0, y0, x1, y1, v);
      }
    }
  }

  lemma SightIgnoresEnds(m1: array2<Tile>, m2: array2<Tile>, x0: int, y0: int, x1: int, y1: int)
    requires Sized(m1) && Sized(m2)
    requires forall x, y :: InBounds(x, y) && !(x == x0 && y == y0) && !(x == x1 && y == y1) ==>
               m1[y, x] == m2[y, x]
    ensures Sight(m1, x0, y0, x1, y1) == Sight(m2, x0, y0, x1, y1)
  {
    WalkIgnoresEnds(m1, m2, x0, y0, x1, y1, Start(x0, y0, x1, y1));
  }

  /** Removing walls never hides anything: a grid with fewer walls sees at least as much. */
  lemma {:induction false} WalkMonotone(m1: array2<Tile>, m2: array2<Tile>,
                                       x0: int, y0: int, x1: int, y1: int, w: Walker)
    requires Sized(m1) && Sized(m2)
    requires forall x, y :: InBounds(x, y) && m2[y, x] == Wall ==> m1[y, x] == Wall
    requires Walk(m1, x0, y0, x1, y1, w)
    ensures Walk(m2, x0, y0, x1, y1, w)
    decreases Room(x0, y0, x1, y1, w.x, w.y)
  {
    if !(w.x == x1 && w.y == y1) {
      var v := Advance(x0, y0, x1, y1, w);
      WalkMonotone(m1, m2, x0, y0, x1, y1, v);
    }
  }

  lemma SightMonotone(m1: array2<Tile>, m2: array2<Tile>, x0: int, y0: int, x1: int, y1: int)
    requires Sized(m1) && Sized(m2)
    requires forall x, y :: InBounds(x, y) && m2[y, x] == Wall ==> m1[y, x] == Wall
    requires Sight(m1, x0, y0, x1, y1)
    ensures Sight(m2, x0, y0, x1, y1)
  {
    WalkMonotone(m1, m2, x0, y0, x1, y1, Start(x0, y0, x1, y1));
  }

  /** One step of the walk that neither arrives, nor meets a wall, nor leaves the grid. */
  lemma WalkStep(m: array2<Tile>, x0: int, y0: int, x1: int, y1: int, w: Walker)
    requires Sized(m)
    requires !(w.x == x1 && w.y == y1) && !(!(w.x == x0 && w.y == y0) && Opaque(m, w.x, w.y))
    requires InBounds(Advance(x0, y0, x1, y1, w).x, Advance(x0, y0, x1, y1, w).y)
    ensures Walk(m, x0, y0, x1, y1, w) == Walk(m, x0, y0, x1, y1, Advance(x0, y0, x1, y1, w))
    ensures Length(m, x0, y0, x1, y1, w) == 1 + Length(m, x0, y0, x1, y1, Advance(x0, y0, x1, y1, w))
  {
  }

  /**
   * `visible(x0, y0, x1, y1)`, the loop itself. It decides exactly Sight, and
   * with both endpoints on the grid it ends within max(|dx|, |dy|)
   * iterations.
   */
  method Visible(m: array2<Tile>, x0: int, y0: int, x1: int, y1: int) returns (r: bool, ghost steps: nat)
    requires Sized(m)
    ensures r == Sight(m, x0, y0, x1, y1)
    ensures steps <= Max(Abs(x1 - x0), Abs(y1 - y0))
  {
    var dx: int, sx := Abs(x1 - x0), if x0 < x1 then 1 else -1;
    var dy: int, sy := -Abs(y1 - y0), if y0 < y1 then 1 else -1;
    var err, x, y := dx + dy, x0, y0;
    steps := 0;
    StartOnTrack(x0, y0, x1, y1);
    LengthBound(m, x0, y0, x1, y1, Start(x0, y0, x1, y1), 0, 0, 0);
    while true
      invariant Walk(m, x0, y0, x1, y1, Walker(x, y, err)) == Sight(m, x0, y0, x1, y1)
      invariant steps + Length(m, x0, y0, x1, y1, Walker(x, y, err)) == Length(m, x0, y0, x1, y1, Start(x0, y0, x1, y1))
      decreases Length(m, x0, y0, x1, y1, Walker(x, y, err))
    {
      if x == x1 && y == y1 {
        return true, steps;
      }
      if !(x == x0 && y == y0) && Opaque(m, x, y) {
        return false, steps;
      }
      ghost var w := Walker(x, y, err);
      var e2 := 2 * err;
      if e2 >= dy {
        err := err + dy;
        x := x + sx;
      }
      if e2 <= dx {
        err := err + dx;
        y := y + sy;
      }
      steps := steps + 1;
      assert Walker(x, y, err) == Advance(x0, y0, x1, y1, w);
      if !InBounds(x, y) {
        return false, steps;
      }
      WalkStep(m, x0, y0, x1, y1, w);
    }
  }
}
